=== FILE: README.md ===
# alfred-server: a Dafny model of its pipeline core

alfred-server is a small continuous-delivery server written in JavaScript.
A *pipeline* is an ordered list of named *stages*. Each stage is a function
with its own configuration object. A pipeline definition registers stages
(`add`, `insertAfter`, …) and may then merge project settings into their
configurations. A run calls the stages one after another. Stage templates
do the work: pulling a git repository, uploading files over FTP or SSH,
posting a Slack notification. Around that sit the build-record helpers, the
credentials store, the git wrapper, a websocket service that connects
"clients" to the server, a pipeline-update endpoint, a language module, and
a remote script that sets up an nginx site.

This project models the decisions those pieces take, as pure functions over
immutable values:

- `Registry`: the stage list and its operations. No two stages share a name.
- `Pipeline`: the configuration override, `import`, and `run`. A run is
  modelled as a fold over an abstract outcome per stage.
- `Build`: status defaults, status timestamps, the stage-configuration rows,
  and the query for a previous successful stage.
- `SlackNotify`: the notification text and colour, and the elapsed-time
  string.
- `Upload`: the transfer sets of the `ftp-upload` and
  `ssh-upload-no-hotswap` stages, and the remote operations each file
  entry turns into.
- `GitPull`: `repoName` and the stage's configuration defaults.
- `VersionRequest`: how the pipeline-update endpoint reads the name, the
  dotted version and the group id.
- `WebSocket`: the server's client list (hello, reclaim, lookup, forward,
  close), the message gate, and the client's url normalisation.
- `Credentials`: the decrypted lookup object.
- `Git`: credential selection, clone options, and the branch target.
- `Nlp`: `speechTag`'s input normalisation and `learn`'s relation text.
- `Nginx`: the site-setup script.
- `Scenarios`: the shipped pipeline definitions, replayed through the model.

Supporting modules:

- `Js`: JavaScript values, truthiness, and `Object.assign`.
- `Coerce`: loose equality `==` against a number.
- `Numbers`: number printing and `parseInt`.
- `Strings`: split, join, trim, lower-casing, and replace-all.
- `Wrappers`: `Option` and `Result`.

I/O is not modelled. Database calls, sockets, file transfers, the file
system, clocks and library calls are either parameters or left out, as
listed below. Each helper returns what it would hand to the library. Where
the code and its documentation disagree, the model follows the code, with
one exception: where the code has a defect listed under "## Findings", the
model keeps the code as written in a member named `…AsWritten`, and the
operations built on top use the corrected definition. "## Left out" names
each operation that does so.

- The run has no recovery step and no build-status calls.
- The run never reads the `runOnError` flag of `slack-notify`. The model
  keeps the flag as the constant `SlackNotify.RunOnError` and nothing
  reads it.

## Model

| member | source | states |
|---|---|---|
| Registry.IndexOf | source/modules/pipeline/index.js:96-102 | -1 exactly when no stage has the name; otherwise the index of the first stage with that name |
| Registry.GetStage | source/modules/pipeline/index.js:83-91 | nothing exactly when the name is absent; otherwise the first stage with that name, together with its index |
| Registry.CreateStage | source/modules/pipeline/index.js:127-150 | the stage keeps its name; an empty implementation defaults to the stage's own name; an absent configuration defaults to `{}` |
| Registry.Remove | source/modules/pipeline/index.js:155-165 | reports true exactly when the name was present; then the list is one shorter, otherwise it is unchanged |
| Registry.RemoveIsWithout | source/modules/pipeline/index.js:155-165 | on a list without duplicate names, removal equals filtering out the name: every other stage stays, in its relative order |
| Registry.RemoveKeepsUnique | source/modules/pipeline/index.js:33 | removal keeps names unique and leaves no stage with the removed name |
| Registry.Without | source/modules/pipeline/index.js:155-165 | the reference filter used to state removal: it never grows the list, and the name no longer occurs |
| Registry.CountWithout | source/modules/pipeline/index.js:155-165 | after filtering a name out, no stage with that name is counted |
| Registry.Add | source/modules/pipeline/index.js:110-122 | the new stage is last; on a list without duplicates, exactly one stage has the name, names stay unique, and the other stages keep their order |
| Registry.AddFresh | source/modules/pipeline/index.js:110-122 | on a list without duplicates, adding leaves the other stages in their order followed by the new one, counted once |
| Registry.AppendFresh | source/modules/pipeline/index.js:119 | appending a stage whose name is absent keeps names unique and counts that name once |
| Registry.Replace | source/modules/pipeline/index.js:167-186 | the documented replace: an existing stage is overwritten at its index and every other index is unchanged; an absent name is appended; names stay unique |
| Registry.ReplaceAsWritten | source/modules/pipeline/index.js:170-172 | as written, `replace` fails with a ReferenceError on `stageName` before it touches the list |
| Registry.ReplaceAsWrittenNeverReplaces | source/modules/pipeline/index.js:170-175 | as written, replace never produces the documented result |
| Registry.AfterPosition | source/modules/pipeline/index.js:200-211 | position 0 exactly when the anchor is absent; otherwise the position just after the anchor |
| Registry.BeforePosition | source/modules/pipeline/index.js:226-237 | the anchor's index when it is present; the end of the list exactly when it is absent |
| Registry.InsertAfter | source/modules/pipeline/index.js:192-214 | any same-named stage is removed first; the new stage goes right after the anchor, or at the front when the anchor is missing (including when the anchor was the removed stage); a notice is given exactly when a non-empty anchor is missing |
| Registry.InsertBefore | source/modules/pipeline/index.js:218-240 | any same-named stage is removed first; the new stage goes at the anchor's index, or at the end when the anchor is missing; a notice is given exactly when a non-empty anchor is missing |
| Registry.InsertKeepsUnique | source/modules/pipeline/index.js:188-240 | both insertions keep names unique, with the inserted name present exactly once |
| Registry.InsertFresh | source/modules/pipeline/index.js:204 | placing a stage with an absent name at any position keeps names unique |
| Registry.InsertAt | source/modules/pipeline/index.js:204 | the inserted stage sits at its position, and removing it again gives back the original list |
| Registry.CountOne | source/modules/pipeline/index.js:33 | in a list without duplicates, each stage's name is counted exactly once |
| Pipeline.OverrideConfig | source/modules/pipeline/index.js:67-78 | no change without `stages`; otherwise only the first stage of each named name has the patch shallow-merged into its configuration; names, implementations, order and count never change |
| Pipeline.OverrideUnknownIsNoop | source/modules/pipeline/index.js:72-76 | a patch naming no registered stage changes nothing |
| Pipeline.OverrideUnique | source/modules/pipeline/index.js:72-76 | without duplicate names, every stage the patch names receives its patch and every other stage is untouched |
| Pipeline.SameNamesSameIndex | source/modules/pipeline/index.js:73 | lookups depend only on names, so merging configurations never changes which stage a later key finds |
| Pipeline.MergeKey | source/modules/pipeline/index.js:73-75 | one turn of the override loop keeps the list length |
| Pipeline.OverrideConfigLoop | source/modules/pipeline/index.js:67-78 | the key-by-key loop, in any enumeration order of the patch keys, yields the override |
| Pipeline.Import | source/modules/pipeline/index.js:49-65 | the definition registers its stages first and `import` ends as the definition ends; the override is applied only after the definition resolves, and leaves names and count alone; a definition that throws, rejects or never settles leaves its stages without the override |
| Pipeline.ImportOverrides | source/modules/pipeline/index.js:57-60 | after a resolved definition with distinct names, each stage the patch names is merged with its patch; after a failed one, and for unnamed stages, every stage is as the definition left it |
| Pipeline.RunSeries | source/modules/pipeline/index.js:252-290 | stages are called strictly in list order, each announced with its index and the stage count; the series passes a stage only when it resolved to a falsy value; it completes exactly when every stage does; a rejection carries the failing stage's error; a truthy resolved value stops the series early; a stage that never settles stalls the series at that stage, with nothing after it called |
| Pipeline.Run | source/modules/pipeline/index.js:247-292 | the override is applied before any stage runs, and the calls are a prefix of the overridden list in order |
| Pipeline.RunRejectsIff | source/modules/pipeline/index.js:260-271 | when the stages before k all pass, the run rejects at k exactly when stage k throws or rejects, it stalls at k (never resolving nor rejecting) exactly when stage k never settles, and no stage after k is called |
| Pipeline.RunAllContinue | source/modules/pipeline/index.js:281-288 | when every stage resolves to a falsy value, every stage runs and the run resolves |
| Pipeline.RunById | source/modules/pipeline/index.js:298-305 | a fresh pipeline and its definition; the stages run, overridden, exactly when the definition resolves; a definition that throws, rejects or never settles ends the call the same way, before any stage runs |
| Pipeline.RunByIdIsRun | source/modules/pipeline/index.js:304 | with a resolved definition, running by id is running the stages it registered; with a failed one, no stage is called |
| Build.CreateStatus | source/modules/build/index.js:21-25 | only undefined or null becomes 5 (waiting); any other status, 0 included, is kept |
| Build.CreateCall | source/modules/build/index.js:30 | the stored procedure is called with the pipeline id and the defaulted status |
| Build.CreateKeepsZero | source/modules/build/index.js:23-25 | an explicit 0 survives, and undefined becomes 5 |
| Build.StatusRecord | source/modules/build/index.js:110-124 | `started` exactly when the status loosely equals 2; `finished` exactly when it is strictly 3, 1 or 0 |
| Build.StatusTimestamps | source/modules/build/index.js:117-123 | no status both starts and finishes; 2 only starts; 5 does neither; 0 and 1 finish |
| Build.Update | source/modules/build/index.js:131-135 | a falsy id fails with the source's message before any database call; otherwise the record is handed on unchanged |
| Build.SetStatus | source/modules/build/index.js:110-126 | succeeds exactly when the id is truthy, with the given status and the `started` rule |
| Build.SaveStageConfig | source/modules/build/index.js:48-66 | one row per stage in list order (build, index, name, serialized configuration); the call resolves whether or not the database reports an error |
| Build.PropertyClauses | source/modules/build/index.js:78-81 | one argument per property, in enumeration order |
| Build.SuccessfulStageQuery | source/modules/build/index.js:75-86 | the arguments are the pipeline id, the stage name, then the property values in order |
| Build.ClauseSegments | source/modules/build/index.js:79 | one query segment per property clause, plus the closing order-by segment |
| Build.QuerySegments | source/modules/build/index.js:83-85 | the query has three fixed segments plus one per property |
| Build.QueryIsJoin | source/modules/build/index.js:83-85 | the query text is its segments joined by `?` |
| Build.SegmentsClean | source/modules/build/index.js:79-85 | no segment holds a `?` of its own when no property name does |
| Build.QueryPlaceholdersMatchArgs | source/modules/build/index.js:75-86 | when no property name contains `?`, the query is its `?`-free segments joined by `?`, and the number of `?` placeholders equals the number of arguments |
| Build.SuccessfulStage | source/modules/build/index.js:87-101 | a database error rejects; no rows gives null; otherwise the first (newest) row with its properties parsed |
| SlackNotify.TimeString | templates/stages/slack-notify.js:47-60 | under one second, the milliseconds followed by "ms"; under a minute, the whole seconds followed by "s" (each part reads back with `parseInt`) |
| SlackNotify.Pretext | templates/stages/slack-notify.js:20 | the pretext starts with the pipeline name and ends with the elapsed time |
| SlackNotify.PretextTellsOutcome | templates/stages/slack-notify.js:20 | a failed and a successful run never share a pretext |
| SlackNotify.MessageText | templates/stages/slack-notify.js:22-26 | the message texts joined by CRLF, or the fallback sentence when that is empty; never empty |
| SlackNotify.Body | templates/stages/slack-notify.js:22-30 | with errors, the errors joined by CRLF, then CRLF, then the message text; without errors, just the message text |
| SlackNotify.Compose | templates/stages/slack-notify.js:13-45 | a missing url fails before anything is composed; otherwise one attachment whose pretext names the pipeline, patch, outcome and elapsed time, whose colour is "danger" exactly when there are errors, and whose text is the body |
| SlackNotify.ColourMatchesWording | templates/stages/slack-notify.js:20-38 | the colour is "danger" exactly when the pretext says "failed", and "good" exactly when it says "successful" |
| SlackNotify.ErrorsPrecedeMessages | templates/stages/slack-notify.js:28-30 | the body starts with the error lines and ends with the message text |
| Upload.Sets | templates/stages/ftp-upload.js:30-36 | configured sets are used as given; otherwise exactly one set is built from the top-level fields, and FTP drops `source_workspace_path` |
| Upload.DefaultSetsDiffer | templates/stages/ssh-upload-no-hotswap.js:30-37 | the SSH default set carries `source_workspace_path`; in every other field it equals the FTP set |
| Upload.GlobOptions | templates/stages/ftp-upload.js:197 | the set's `options` when truthy, else `{nodir: true}` |
| Upload.DefaultSetIgnoresSourceOptions | templates/stages/ftp-upload.js:197 | a synthesised set always globs with `{nodir: true}`, whatever `source_options` says |
| Upload.Files | templates/stages/ftp-upload.js:185-205 | an array is used as given; a function is called with the set; a pattern yields one path entry per glob match |
| Upload.WithTrailingSlash | templates/stages/ftp-upload.js:83-87 | the result ends in `/`; it equals the input exactly when the input already ended in `/`; otherwise one `/` is appended |
| Upload.WithTrailingSlashIdempotent | templates/stages/ftp-upload.js:83-87 | adding the slash twice is adding it once |
| Upload.StripLeadingSlash | templates/stages/ftp-upload.js:117-120 | the path is unchanged exactly when it does not start with `/`; otherwise one `/` is removed |
| Upload.StripLeadingSlashOnce | templates/stages/ftp-upload.js:117-120 | only one leading slash is removed |
| Upload.Classify | templates/stages/ftp-upload.js:98-115 | falsy entries and empty paths are skipped; a string is a `put` of itself; an object with a status uses its status and path; an object without a status is a `put` of its string form |
| Upload.FileActions | templates/stages/ftp-upload.js:117-163 | delete statuses give one delete; put statuses give one upload; "renamed" with an old path gives the old path's delete, then the upload; any other status gives nothing; remote paths lie under the target base and local paths under the workspace base |
| Upload.ListActions | templates/stages/ftp-upload.js:93-167 | every operation of a file list mirrors its target and workspace bases; there are at most two per entry |
| Upload.ListActionsStalled | templates/stages/ftp-upload.js:125-163 | the series over a list stalls exactly when some entry has a path and a status outside the three known groups, since no branch calls `doneUpload` for it |
| Upload.StallStops | templates/stages/ftp-upload.js:93-167 | once the series has stalled, no later entry is planned |
| Upload.ListActionsAppend | templates/stages/ftp-upload.js:93-167 | entries are processed in list order: when the first list does not stall, planning the two lists one after the other plans their concatenation |
| Upload.InertListPlansNothing | templates/stages/ftp-upload.js:98-115 | a list of skipped entries asks for no operation and does not stall |
| Upload.UnknownStatusStalls | templates/stages/ftp-upload.js:125-163 | an `unmodified` entry ahead of a path stalls the series before the path is uploaded |
| Upload.TargetBase | templates/stages/ftp-upload.js:83-87 | the target with a trailing `/` |
| Upload.FtpWorkspaceBaseAsWritten | templates/stages/ftp-upload.js:90 | as written: the workspace, `/`, then `source_workspace_path` with no separator after it |
| Upload.FtpWorkspaceBaseGluesNames | templates/stages/ftp-upload.js:90 | with `source_workspace_path` "dist" and the unset workspace path, the file `a.js` is read from `undefined/dista.js`, not from under `undefined/dist/` |
| Upload.UnsetWorkspacePath | templates/stages/ssh-upload-no-hotswap.js:92 | with the workspace path the code never assigns, both stages' local bases start with the text "undefined": `undefined/` plus the source path for FTP, `undefined` plus the source path for SSH |
| Upload.FtpWorkspaceBase | templates/stages/ftp-upload.js:90 | the corrected base always ends in `/` and extends the written one |
| Upload.FtpWorkspaceBaseAgrees | templates/stages/ftp-upload.js:90 | the corrected and written bases differ exactly when a non-empty `source_workspace_path` has no trailing `/` |
| Upload.SshWorkspaceBase | templates/stages/ssh-upload-no-hotswap.js:92-96 | the workspace followed directly by `source_workspace_path`, with a `/` appended only when missing |
| Upload.WorkspaceBase | templates/stages/ssh-upload-no-hotswap.js:92-96 | each stage's local base ends in `/` |
| Upload.SetProgress | templates/stages/ftp-upload.js:80-167 | one set's operations stay under its own target base |
| Upload.PlanSets | templates/stages/ftp-upload.js:78-169 | the sets are planned in order, every remote path lies under some set's target base, and the series stalls exactly when some set's list holds a stalling entry |
| Upload.Accepted | templates/stages/ftp-upload.js:63-72 | without a filter every server, otherwise exactly the servers the filter accepts |
| Upload.StagePlan | templates/stages/ftp-upload.js:25-180 | the stage uploads to exactly the accepted servers, every operation stays under a set's target, and each server's series stalls exactly when some set's files hold a stalling entry |
| Upload.StagePlanDefault | templates/stages/ftp-upload.js:30-90 | without `sets`, the files of the synthesised set are planned against the top-level target, stalls included |
| Upload.RmCommand | templates/stages/ssh-upload-no-hotswap.js:131-133 | `rm -f "` followed by the path and a closing quote |
| Upload.RmCommandInjective | templates/stages/ssh-upload-no-hotswap.js:131-133 | distinct paths give distinct commands |
| Upload.SshCalls | templates/stages/ssh-upload-no-hotswap.js:131-183 | every delete becomes an `rm -f` exec and every upload a `putFile`, in plan order; a rename's upload happens whatever its delete returned |
| GitPull.RepoName | templates/stages/git-pull.js:83-101 | the name never contains `#`, `?`, `/` or `.` |
| GitPull.RepoNameFixed | templates/stages/git-pull.js:83-101 | a name free of those characters is its own repository name |
| GitPull.RepoNameIdempotent | templates/stages/git-pull.js:83-101 | applying `repoName` twice is applying it once |
| GitPull.RepoNameOf | templates/stages/git-pull.js:86-97 | the name is what follows the last `/` up to the first `.`; extension, query and fragment are discarded |
| GitPull.LastPieceWithin | templates/stages/git-pull.js:89-92 | the last `/` segment holds no character that the text lacked |
| GitPull.SplitPiecesWithin | templates/stages/git-pull.js:86-89 | no piece of a split holds a character that the text lacked |
| GitPull.RepoNameDropsFragment | templates/stages/git-pull.js:86 | appending `#` and any fragment to a url without `#` leaves its repository name unchanged |
| GitPull.RepoNameDropsQuery | templates/stages/git-pull.js:86-87 | appending `?` and any query (fragment included) to a url without `#` or `?` leaves its repository name unchanged |
| GitPull.QueryKeepsMark | templates/stages/git-pull.js:86-87 | cutting `?query` at its fragment keeps the leading `?`, so the query cut still finds it |
| GitPull.RepoNameExample | templates/stages/git-pull.js:3-4 | the documented example gives `recline-server` |
| GitPull.DefaultBranch | templates/stages/git-pull.js:30-32 | the configured branch, else the workspace's, else "master"; always truthy |
| GitPull.Prepare | templates/stages/git-pull.js:23-38 | a missing url fails before the configuration is touched; otherwise branch and localPath are filled in only when missing, localPath from `repoName(url)`; all other keys are unchanged |
| VersionRequest.PipelineName | source/endpoints/v1/pipeline/update.js:14-16 | a falsy name becomes "My new pipeline"; a truthy one is kept |
| VersionRequest.ParseDotted | source/endpoints/v1/pipeline/update.js:32-46 | without a `.`, the major is `parseInt` of the whole text, then 0 and 1; with one, the major is read from the text before the first `.`; with at most two parts the patch stays 1 |
| VersionRequest.NextVersion | source/endpoints/v1/pipeline/update.js:18-46 | a falsy version gives 0.0.1; a truthy value that is not text fails on `trim` |
| VersionRequest.NextVersionOfText | source/endpoints/v1/pipeline/update.js:22-32 | the version is trimmed first; blank text gives 0.0.1, and anything else is parsed from its trimmed form |
| VersionRequest.BlankVersionIsInitial | source/endpoints/v1/pipeline/update.js:22-32 | text made only of blanks gives 0.0.1 |
| VersionRequest.NextVersionOfParts | source/endpoints/v1/pipeline/update.js:33-42 | a dotted version takes major and minor from the first two parts, and the patch from the third when there is one, else 1 |
| VersionRequest.ReadsBack | source/endpoints/v1/pipeline/update.js:36 | a printed number reads back through `parseInt` |
| VersionRequest.ThreePartRoundTrip | source/endpoints/v1/pipeline/update.js:33-42 | "a.b.c" gives a, b and c |
| VersionRequest.TwoPartRoundTrip | source/endpoints/v1/pipeline/update.js:33-42 | "a.b" gives a, b and patch 1 |
| VersionRequest.BareRoundTrip | source/endpoints/v1/pipeline/update.js:43-45 | "a" gives a.0.1 |
| VersionRequest.ExtraPartsIgnored | source/endpoints/v1/pipeline/update.js:34-42 | parts beyond the third do not matter |
| VersionRequest.ParseDottedOfJoin | source/endpoints/v1/pipeline/update.js:34-42 | dot-free parts joined by dots are read back part by part |
| VersionRequest.Group | source/endpoints/v1/pipeline/update.js:26-30 | null exactly when the group id is falsy; text is read with `parseInt`; a number reads as itself |
| VersionRequest.ReadsBackInt | source/endpoints/v1/pipeline/update.js:29 | a numeric group id prints and reads back as itself; `true`, `false` and plain objects read as NaN |
| WebSocket.StartValid | source/modules/websocket/index.js:146 | the server starts with no clients and the id counter at 1 |
| WebSocket.IndexByPair | source/modules/websocket/index.js:156 | -1 when no client has the name and type; otherwise the first one that does |
| WebSocket.IndexById | source/modules/websocket/index.js:159 | -1 when no id loosely equals the value; otherwise the first client whose id does, where loose equality lets the text " 1 " and the array `[1]` match the id 1 |
| WebSocket.IndexByIdFindsOwn | source/modules/websocket/index.js:159 | with increasing ids, a client's own id finds that client |
| WebSocket.HelloLookupAsWritten | source/modules/websocket/index.js:153-160 | as written: by name and type only when both are non-empty, otherwise by id using the name |
| WebSocket.HelloLookup | source/modules/websocket/index.js:188-189 | the intended lookup finds a client exactly when one has the name and type |
| WebSocket.Register | source/modules/websocket/index.js:191-218 | a found client is reclaimed in place, keeping its id and taking the new socket; otherwise a client with the next id is appended; the welcome carries the id, and echoes `requestId` when it is truthy |
| WebSocket.HelloFields | source/modules/websocket/index.js:179-186 | nothing when the name or type is missing or empty; otherwise the trimmed name and the trimmed, lower-cased type; a value that is not text throws on `trim` |
| WebSocket.HelloAsWritten | source/modules/websocket/index.js:177-220 | a hello without name or type terminates the socket and leaves the list alone |
| WebSocket.HelloStep | source/modules/websocket/index.js:177-220 | a readable hello is welcomed; the list grows by one exactly when no client has the name and type; the welcomed id belongs to a client with that name and type on this socket |
| WebSocket.HelloValid | source/modules/websocket/index.js:196-209 | a hello keeps ids strictly increasing and below the counter |
| WebSocket.RegisterValid | source/modules/websocket/index.js:191-209 | registering, new or reclaimed, keeps ids increasing and below the counter |
| WebSocket.HelloKeepsPairsUnique | source/modules/websocket/index.js:188-209 | a hello never creates a second client with the same name and type |
| WebSocket.HelloReclaims | source/modules/websocket/index.js:191-195 | a hello matching a client reclaims it: same id, no new entry, the new socket |
| WebSocket.HelloAsWrittenHijacks | source/modules/websocket/index.js:153-160 | as written, a hello with name "1" and a blank type takes over client 1, whatever its name and type |
| WebSocket.ForwardStep | source/modules/websocket/index.js:234-261 | an unknown id gives "client/notfound"; a found target with a payload without a type gives "client/forwardfail"; a found target with a typed payload is always forwarded, to that target's socket only, the payload keeping every field it had and gaining only `forwarded`, whose `from` is the sender |
| WebSocket.ForwardReachesTarget | source/modules/websocket/index.js:234-261 | a message addressed to a registered client's own id with a typed object payload reaches that client's socket, and the payload arrives as sent apart from `forwarded.from` naming the sender |
| WebSocket.OnMessage | source/modules/websocket/index.js:276-307 | non-JSON, type-less, unknown-type and before-hello messages run no handler and change nothing; only a message whose type prints as the hello text changes the server; a truthy type is unknown exactly when its printed form names no registered handler |
| WebSocket.HelloFirst | source/modules/websocket/index.js:299-303 | a socket that has not said hello gets no handler run except hello's, where hello is any type that prints as, and so loosely equals, the hello text |
| WebSocket.DispatchByPrintedType | source/modules/websocket/index.js:291-306 | the handler table is indexed by the printed type and the gate compares loosely, so two truthy types that print alike give the same event and the same ids, sockets and client count |
| WebSocket.HelloStepIgnoresType | source/modules/websocket/index.js:177-218 | hello decides by name and client type alone: the message type changes neither the event nor the registration |
| WebSocket.ForwardStepIgnoresType | source/modules/websocket/index.js:234-261 | forwarding decides by the target id and payload alone, whatever the message type |
| WebSocket.ArrayTypedHello | source/modules/websocket/index.js:291-306 | a hello typed `["alfred/hello"]` passes the gate on a socket that has not said hello, is welcomed and binds the socket |
| WebSocket.ArrayTypedList | source/modules/websocket/index.js:291-306 | a list request typed `["client/list"]` on a bound socket lists the clients |
| WebSocket.OnMessageValid | source/modules/websocket/index.js:276-307 | every message keeps ids increasing and below the counter |
| WebSocket.Drop | source/modules/websocket/index.js:331 | close keeps exactly the clients it does not drop, in order |
| WebSocket.CloseAsWritten | source/modules/websocket/index.js:327-333 | as written, a closing socket removes the client it said hello as, even if that client has moved to another socket |
| WebSocket.Close | source/modules/websocket/index.js:327-333 | a socket's client is removed only while that socket is still its current one; clients on other sockets stay; nothing is added |
| WebSocket.CloseValid | source/modules/websocket/index.js:327-333 | close keeps ids increasing and below the counter |
| WebSocket.CloseAsWrittenDropsReclaimed | source/modules/websocket/index.js:327-333 | as written, the late close of a stale socket removes a reconnected client; the corrected close keeps it |
| WebSocket.ClientHello | source/modules/websocket/index.js:130-135 | the hello carries the configured name (else the host name) and type (else "client") |
| WebSocket.ClientHelloFields | source/modules/websocket/index.js:130-135 | the client's hello carries a name and type that the server can read |
| WebSocket.ClientHelloWelcomed | source/modules/websocket/index.js:130-135 | the server welcomes the client's own hello, whatever state the server is in |
| WebSocket.HelloWelcomed | source/modules/websocket/index.js:177-218 | any message whose type prints as the hello text and that carries a readable name and type is welcomed |
| WebSocket.ConfiguredUrl | source/modules/websocket/index.js:38 | the configured url, or the default, trimmed |
| WebSocket.NormaliseAsWritten | source/modules/websocket/index.js:61-65 | as written: a leading "http" becomes "ws"; any other text gets "wss://" when not secure and "ws://" when secure, and a trailing `/` |
| WebSocket.NormaliseAsWrittenInvertsSecure | source/modules/websocket/index.js:64 | as written, a secure client given a bare host connects without TLS |
| WebSocket.Normalise | source/modules/websocket/index.js:61-65 | https becomes wss and http becomes ws; a bare host gets "wss://" exactly when secure |
| WebSocket.AttemptsAsWritten | source/modules/websocket/index.js:121-128 | as written, each retry normalises the previous attempt's url again |
| WebSocket.RetryAsWrittenDrifts | source/modules/websocket/index.js:121-128 | as written, the retry after "http://x/" goes to "wss://ws://x//" |
| WebSocket.Attempts | source/modules/websocket/index.js:121-128 | with the url normalised once, every attempt goes to the same server |
| WebSocket.LiveUrl | source/modules/websocket/index.js:70 | the socket opens the normalised url followed by "live/" |
| Credentials.Lookup | source/modules/credentials/index.js:69 | the stored value, or undefined when the key is absent |
| Credentials.List | source/modules/credentials/index.js:74 | exactly the stored keys |
| Credentials.Load | source/modules/credentials/index.js:80-85 | a non-empty string is looked up; every other value is returned unchanged |
| Credentials.Update | source/modules/credentials/index.js:90-97 | the key set gains the updated key |
| Credentials.UpdateThenLookup | source/modules/credentials/index.js:90-94 | after an update, the key reads back the data and is listed; every other key reads as before |
| Credentials.LoadAfterUpdate | source/modules/credentials/index.js:80-94 | loading an updated key gives its data; loading an object gives the object |
| Credentials.Open | source/modules/credentials/index.js:51-60 | an unreadable file gives an empty lookup, which is written back; otherwise the file's contents |
| Credentials.UnreadableStoreIsEmpty | source/modules/credentials/index.js:51-56 | an unreadable store lists nothing and every lookup is undefined |
| Git.CredentialFor | source/modules/git/index.js:17-40 | no credentials option gives none; a loaded undefined or null throws; otherwise password beats public key (spelled `publickkey`), which beats a bare user name, which beats nothing |
| Git.CredentialByKey | source/modules/git/index.js:24-29 | a stored key with a password gives a user/password credential; an unknown key throws |
| Git.CloneOptions | source/modules/git/index.js:44-51 | `{fetchOpts: {callbacks}}`, shallow-overwritten by the fields of `options.clone` |
| Git.CloneKeepsCallbacks | source/modules/git/index.js:44-51 | unless `clone` sets `fetchOpts`, the callbacks reach the clone |
| Git.Target | source/modules/git/index.js:68 | "origin/" followed by the branch |
| Git.UpdateCalls | source/modules/git/index.js:56-70 | the calls `update` plans: an existing checkout is fetched and any other is cloned with the clone options; the branch is checked out only when it is given (which of them are made when one fails is `Git.Update`) |
| Git.Update | source/modules/git/index.js:56-70 | the calls made are a prefix of the planned ones; the promise is fulfilled exactly when no call fails, and then every planned call was made; otherwise the chain stops at the first failing call and the promise stays pending, never rejected |
| Git.CloneFailureHangs | source/modules/git/index.js:63-69 | a failed clone is the only call made and leaves the promise pending |
| Git.UpdateSucceeds | source/modules/git/index.js:56-70 | with no failure the planned calls are all made and the promise is fulfilled |
| Git.RepositoryPath | source/modules/git/index.js:58 | the local path followed by "/.git" |
| Nlp.WrappedIsLong | source/modules/nlp/index.js:28 | the two tags cannot overlap |
| Nlp.SpeechInput | source/modules/nlp/index.js:18-31 | null and undefined become ''; text is trimmed, and one enclosing `<p>`…`</p>` is dropped only when both tags are there; any other value fails on `trim` |
| Nlp.Unwrap | source/modules/nlp/index.js:30 | the content is what lies between the tags |
| Nlp.UnwrapParagraph | source/modules/nlp/index.js:28-30 | a paragraph is recognised, and unwrapping it gives back its content |
| Nlp.ParagraphUnwrapped | source/modules/nlp/index.js:25-31 | a paragraph with blanks around it yields exactly its content |
| Nlp.OnlyOuterParagraph | source/modules/nlp/index.js:28-31 | only one pair of tags is dropped |
| Nlp.SpeechInputFixed | source/modules/nlp/index.js:25-31 | a text comes through unchanged exactly when it has no blank at either end and is not wrapped in a paragraph |
| Nlp.SpeechInputStable | source/modules/nlp/index.js:25-31 | normalising the result again gives it back exactly when that result is trimmed and not wrapped, which always holds when the first pass dropped no tags |
| Nlp.PaddedParagraphNotStable | source/modules/nlp/index.js:25-31 | blanks just inside the tags survive the first pass and are trimmed by the second, so normalising is not idempotent |
| Nlp.Outgoing | source/modules/nlp/index.js:165-193 | one row from the concept to each linked concept, with that link's strength and the field's type |
| Nlp.Incoming | source/modules/nlp/index.js:195-203 | one reversed containment row per link |
| Nlp.ConceptRowsAsWritten | source/modules/nlp/index.js:162-203 | as written, `contains` walks `containedBy` again; it fails when there is no `containedBy`; without `contains` it gives the intended rows |
| Nlp.ConceptRows | source/modules/nlp/index.js:162-203 | one row per link of each array, every row of type 3, 2 or 1, and a containment row for every contained item |
| Nlp.ConceptRowsOrder | source/modules/nlp/index.js:162-203 | rows in field order: those of resolvesTo (type 3), then is (2), then containedBy (1), each in array order, then those of the contained items |
| Nlp.LettersLostAsWritten | source/modules/nlp/index.js:195-203 | for a learnt word, the code as written loses the letter and repeats the parent row reversed |
| Nlp.ContainsWithoutParentsFails | source/modules/nlp/index.js:196 | as written, contents without parents fail; the corrected rows are the contents' rows |
| Nlp.Rows | source/modules/nlp/index.js:162-205 | the first concept's rows come first, and every row has one of the three types |
| Nlp.RowsAppend | source/modules/nlp/index.js:162-205 | concepts contribute their rows in concept order |
| Nlp.RowsRecordContents | source/modules/nlp/index.js:195-203 | every contained item of every concept gets its containment row |
| Nlp.Context | source/modules/nlp/index.js:153 | an absent context is 0 |
| Nlp.Tuple | source/modules/nlp/index.js:171 | each tuple is parenthesised |
| Nlp.TupleFields | source/modules/nlp/index.js:171 | inside the parentheses, a tuple cut at its commas gives back the from and to concepts, the strength, the type and the context, in that order |
| Nlp.Tuples | source/modules/nlp/index.js:162-203 | one tuple per row, in row order, all in the same context |
| Nlp.JoinOneMore | source/modules/nlp/index.js:168-171 | the first tuple stands alone, and each later one follows a comma |
| Nlp.RelationsText | source/modules/nlp/index.js:160-203 | the tuples joined by commas, with none leading or trailing; empty exactly when there are no rows |
| Nlp.AfterInsert | source/modules/nlp/index.js:207-216 | a failed insert is logged and ignored; a successful one throws on the misspelt `cosole` |
| Nlp.WordConcept | source/modules/nlp/index.js:128-146 | a word's concept: the given id, a variant of 1500006 inside 1500007, its letters by character code as contents |
| Nlp.WordConcepts | source/modules/nlp/index.js:128-147 | one concept per word with consecutive ids from the first, each holding its letters in order with the strength for its length |
| Nlp.WordLettersRecorded | source/modules/nlp/index.js:128-147 | every letter of every word gets a row saying it is contained in its word |
| Nlp.LearnEnglishWords | source/modules/nlp/index.js:123-150 | the words' concepts are learnt in context 0 (an insert with rows exactly when there are words), then the call throws on the undefined `concept` |
| Nlp.Learn | source/modules/nlp/index.js:152-207 | the insert statement followed by the relation text; nothing follows the prefix exactly when there are no rows |
| Nginx.ServerName | remote/nginx.js:6-10 | fails exactly when there are fewer than three arguments; otherwise the third |
| Nginx.ConfigFile | remote/nginx.js:12 | the sites-available directory, the domain, then ".conf" |
| Nginx.ConfigFileInjective | remote/nginx.js:12 | different domains get different files |
| Nginx.Fill | remote/nginx.js:22-24 | a template that holds no `{SERVER_NAME}` is written out unchanged |
| Nginx.FillPlaces | remote/nginx.js:22-24 | for any template cut at its placeholders, every `{SERVER_NAME}` becomes the domain and the text between them is unchanged |
| Nginx.EnabledFile | remote/nginx.js:33 | the link's target lies in the sites-enabled directory under the same file name as the configuration file |
| Nginx.LinkCommand | remote/nginx.js:32-33 | for a domain without a double quote, the command's quoted words are exactly the configuration file and its sites-enabled entry, in that order |
| Nginx.CertCommand | remote/nginx.js:38-39 | the certbot command followed by the domain; for a domain without a space, the domain is its last word |
| Nginx.Commands | remote/nginx.js:30-39 | three commands in order: the link for this domain's configuration file, the reload, then the certificate request for this domain |
| Nginx.Script | remote/nginx.js:41 | for a domain without line breaks, the script splits back at line breaks into exactly the three commands |
| Nginx.Uncomment | remote/nginx.js:43-46 | a file without a commented certificate line is left unchanged |
| Nginx.UncommentPlaces | remote/nginx.js:43-46 | for any file cut at its `#ssl_certificate` marks, the first replacement uncomments exactly those, the key line included; unless a piece ends in `#` right before a mark, the whole uncommenting gives the same text |
| Nginx.SecondFindsNothing | remote/nginx.js:46 | after the first replacement, the second finds nothing to change unless a piece ends in `#` right before a mark |
| Nginx.KeyCommentAbsent | remote/nginx.js:45-46 | after the first replacement no `#ssl_certificate_key` is left under the same condition |
| Nginx.SecondReplacementMatters | remote/nginx.js:44-46 | a doubled `#` is where the second replacement has work: `##ssl_certificate_key` ends up uncommented |
| Nginx.FirstLeavesKeyComment | remote/nginx.js:45-46 | the first replacement turns `##ssl_certificate_key` into `#ssl_certificate_key`, which the second then uncomments |
| Nginx.Run | remote/nginx.js:6-62 | a missing domain fails; an existing file means nothing is done; an unreadable template fails; otherwise it fills the template, runs the script, uncomments the certificate lines and reloads |
| Scenarios.AddToEmpty | templates/pipelines/standard.js:14 | adding a fresh name by itself appends the stage, with an empty configuration |
| Scenarios.StandardStages | templates/pipelines/standard.js:14-27 | the standard pipeline registers git-pull, git-diff and slack-notify, in that order |
| Scenarios.HelloWorldStages | templates/pipelines/hello-world.js:7 | the hello-world pipeline registers its one stage |
| Scenarios.Standard | templates/pipelines/standard.js:14-27 | on any pipeline, the standard definition ends with slack-notify and keeps names unique |
| Scenarios.StandardRegistersAll | templates/pipelines/standard.js:14-27 | on a pipeline without duplicate names, the standard definition leaves git-pull, git-diff and slack-notify all registered and removes no stage of another name |
| Scenarios.AddKeeps | source/modules/pipeline/index.js:110-122 | adding a stage appends it and keeps every stage of a different name |
| Scenarios.WithoutKeeps | source/modules/pipeline/index.js:110-122 | removing one name keeps every stage of a different name |
| Scenarios.HelloWorld | templates/pipelines/hello-world.js:7 | the hello-world definition ends with its stage, keeps names unique and adds at most one stage |
| Scenarios.OverrideStandard | configAndData/pipelines/pipeline.js:6-13 | the sample settings land on git-pull alone |
| Scenarios.OverrideFirstOfThree | source/modules/pipeline/index.js:72-76 | a patch naming only the first of three distinct stages merges into that stage alone |
| Scenarios.StandardDefinition | templates/pipelines/standard.js:8-34 | the standard definition returns nothing, so importing it resolves, and it registers the standard stages |
| Scenarios.DefaultPipeline | templates/pipelines/default.js:6-20 | importing the standard pipeline with the default settings resolves and gives the three stages, with git-pull configured |
| Scenarios.DefaultPipelineRuns | configAndData/pipelines/pipeline.js:20 | when every stage resolves to nothing, the run calls pull, diff and notify in order and resolves |
| Scenarios.RunStandard | configAndData/pipelines/pipeline.js:20 | the standard stages with the default settings, each resolving to nothing, run to completion in three calls, git-pull first with its settings and slack-notify last |
| Scenarios.SampleRepoName | templates/pipelines/default.js:9 | the placeholder url "https://..." has an empty repository name |
| Scenarios.SampleUrlGivesEmptyDirectory | templates/pipelines/default.js:8-11 | so git-pull prepares branch "master" and an empty local directory |
| Scenarios.SamplePrepared | templates/stages/git-pull.js:23-38 | a configuration whose url is "https://..." and which has no branch or local path prepares branch "master" and an empty local directory |
| Js.Truthy | source/modules/websocket/index.js:286 | ToBoolean (section 7.1.2 of ECMA-262): a value is falsy exactly when it is `undefined`, `null`, `false`, `0` or the empty text; objects and arrays, even empty ones, are truthy |
| Js.Get | source/modules/websocket/index.js:185 | a property read gives the field when the object has it and `undefined` otherwise, also on a non-object |
| Js.Assign | source/modules/pipeline/index.js:75 | every source field wins, and target fields not in the source are kept |
| Js.AssignIdempotent | source/modules/pipeline/index.js:75 | merging `{}` changes nothing, and merging the same fields twice is merging them once |
| Coerce.LooseEqualsUnique | source/modules/build/index.js:117 | a value loosely equals at most one number |
| Coerce.TextIsNumber | source/modules/websocket/index.js:159 | text equal to a number's printed form, blanks around it allowed, equals that number; blank text equals exactly 0 |
| Coerce.Text | source/modules/websocket/index.js:159 | text prints as itself, a number as its decimal form, an empty array as nothing |
| Coerce.TextOfSingleton | source/modules/websocket/index.js:159 | an array of one defined element prints as that element, so `[1] == 1` |
| Coerce.LooseEqualsNat | source/modules/websocket/index.js:159 | `undefined`, `null` and plain objects equal no number; text and arrays equal a number exactly when their printed form reads as it |
| Coerce.LooseEqualsPrinted | source/modules/websocket/index.js:159 | an id equals both its printed form and itself |
| Numbers.NatToString | templates/stages/slack-notify.js:59 | the shortest decimal form: digits only, with no leading zero |
| Numbers.IntToString | templates/stages/slack-notify.js:53 | a minus sign before the decimal form of a negative number |
| Numbers.DigitRun | source/endpoints/v1/pipeline/update.js:36 | the longest run of leading digits |
| Numbers.ParseInt | source/endpoints/v1/pipeline/update.js:29 | `parseInt` yields a number only from text holding a digit, and a negative number only from text holding a minus sign |
| Numbers.ReadDigits | source/endpoints/v1/pipeline/update.js:36 | after `0x` the hexadecimal digits, otherwise the decimal digits, are read; a number is read only from a leading digit and is negative only with a minus sign |
| Numbers.ParseIntUnsigned | source/endpoints/v1/pipeline/update.js:44 | text starting with neither a blank nor a sign is read from its first character |
| Numbers.ParseIntHex | source/endpoints/v1/pipeline/update.js:29 | `0x` followed by hexadecimal digits is read in base 16, as `parseInt` does without a radix |
| Numbers.ParseIntHexExample | source/endpoints/v1/pipeline/update.js:29 | a group id "0x10" is read as 16 |
| Numbers.DigitsValueOfNat | source/endpoints/v1/pipeline/update.js:36 | the digits of a number have that number as their value |
| Numbers.ParseIntOfNat | source/endpoints/v1/pipeline/update.js:36 | `parseInt` of a printed number followed by a non-digit gives the number |
| Numbers.ParseIntOfInt | source/endpoints/v1/pipeline/update.js:29 | the same holds for negative numbers |
| Numbers.ParseIntNaN | source/endpoints/v1/pipeline/update.js:44 | text without digits gives NaN |
| Strings.StartsWith | source/modules/nlp/index.js:28 | `startsWith`: the text begins with the prefix, as a sequence prefix |
| Strings.StartsWithSlice | source/modules/nlp/index.js:28 | `startsWith` holds exactly when the text is at least as long as the prefix and its first characters are the prefix |
| Strings.EndsWith | source/modules/nlp/index.js:28 | `endsWith`: the text is at least as long as the suffix and is something followed by the suffix |
| Strings.IsBlank | source/endpoints/v1/pipeline/update.js:23 | the characters `trim` removes, those of sections 12.2 and 12.3 of ECMA-262; among ASCII exactly tab, line feed, vertical tab, form feed, carriage return and space |
| Strings.Join | templates/stages/slack-notify.js:22 | `Array.prototype.join`: the pieces in order with the separator between neighbours, and nothing for no pieces; its properties are stated by `Strings.JoinEnds`, `Strings.SplitJoin` and `Strings.JoinSplit` |
| Strings.JoinEnds | templates/stages/slack-notify.js:22 | `Array.prototype.join` of one or more pieces starts with the first piece and ends with the last |
| Strings.ReplaceAll | remote/nginx.js:24 | `replace` with a global literal pattern; replacing a pattern by itself gives the text back |
| Strings.IndexOf | source/endpoints/v1/pipeline/update.js:33 | -1 exactly when the character is absent; otherwise its first position |
| Strings.Split | templates/stages/git-pull.js:86-89 | no piece holds the separator, and there are two or more pieces exactly when the separator occurs |
| Strings.SplitJoin | templates/stages/git-pull.js:86-89 | joining the pieces back gives the text |
| Strings.JoinSplit | remote/nginx.js:41 | splitting separator-free pieces joined by the separator gives the pieces back |
| Strings.BeforeFirst | templates/stages/git-pull.js:86-87 | the text up to the first occurrence of the character, or all of it when the character is absent |
| Strings.BeforeFirstAfter | templates/stages/git-pull.js:86-87 | text free of the character in front passes through the cut unchanged, and the cut then applies to what follows |
| Strings.IndexOfAfter | templates/stages/git-pull.js:86-87 | in text free of the character in front, the first occurrence is the first occurrence in what follows, shifted by the front's length |
| Strings.LastPiece | templates/stages/git-pull.js:89-92 | the last piece holds no separator |
| Strings.LastPieceAfter | templates/stages/git-pull.js:89-92 | the last piece is what follows the last separator |
| Strings.Trim | source/endpoints/v1/pipeline/update.js:23 | the result starts and ends with a non-blank, where the blanks are JavaScript's white space and line terminators (the ASCII ones, U+00A0, U+1680, U+2000 to U+200A, U+2028, U+2029, U+202F, U+205F, U+3000 and U+FEFF); it is the text with its leading and trailing blanks cut off |
| Strings.TrimIdempotent | source/modules/nlp/index.js:25 | trimming twice is trimming once |
| Strings.TrimEmpty | source/endpoints/v1/pipeline/update.js:23-32 | a trim is empty exactly when the text is all blanks |
| Strings.TrimAround | source/modules/nlp/index.js:25 | trimming removes exactly the blanks around text that has no blank at either end |
| Strings.ToLower | source/modules/websocket/index.js:186 | lower-cases letter by letter, keeping the length |
| Strings.ToLowerIdempotent | source/modules/websocket/index.js:186 | lower-casing twice is lower-casing once |
| Strings.ReplaceAllJoin | remote/nginx.js:23-24 | replacing a pattern that only occurs as the separator swaps in the replacement between the pieces |
| Strings.ReplaceAllAbsent | remote/nginx.js:46 | replacing an absent pattern changes nothing |

## Left out

- Database, sockets, FTP and SSH transfers, the file system, clocks, and the slack, nodegit, glob, uws, crypto-json and jsonfile libraries: these are I/O. Each model returns the values handed to them, and takes what they return as a parameter.
- The working-directory change and restore around a run (`process.chdir`): process-global I/O.
- Resolving stages and pipelines with `require`: implementations are opaque names, and definitions are functions passed in.
- Pipeline.Run: the stage methods are abstract outcomes. A settled outcome stands for a returned value or a resolved promise; `Pending` for a promise that never settles. The timing of the promises is not modelled.
- Pipeline.RunSeries: takes `async.series` to stop at a truthy callback argument and still call its final callback, which resolves the run, and to go on after a falsy one. The version of the `async` library is not part of the source; in version 3, a stage resolving to exactly `false` cancels the series instead, so the run would never settle. That case is not modelled.
- Js.Value: numbers are unbounded integers. Fractions, NaN and Infinity as values, -0, and the 2^53 precision limit of JavaScript numbers are not modelled. So the `parseInt` round trips (`Numbers.ParseIntOfNat`, `Numbers.ParseIntOfInt`, `VersionRequest.ReadsBack`, `VersionRequest.ReadsBackInt`, `VersionRequest.ThreePartRoundTrip`) hold as stated only for magnitudes below 2^53; above that JavaScript rounds, e.g. `parseInt("9007199254740993")` is 9007199254740992.
- VersionRequest.ReadsBack: proved over unbounded integers; in JavaScript it holds only for version parts below 2^53 (see `Js.Value`).
- VersionRequest.ThreePartRoundTrip: proved over unbounded integers; in JavaScript it holds only for version parts below 2^53 (see `Js.Value`).
- VersionRequest.ReadsBackInt: proved over unbounded integers; in JavaScript it holds only for magnitudes below 2^53 (see `Js.Value`).
- Numbers.ParseIntOfNat: proved over unbounded integers; in JavaScript it holds only below 2^53 (see `Js.Value`).
- Numbers.ParseIntOfInt: proved over unbounded integers; in JavaScript it holds only for magnitudes below 2^53 (see `Js.Value`).
- Pipeline.OverrideConfig: `for … in` over `config.stages` is taken to enumerate each key once. OverrideConfigLoop shows that the order does not matter then.
- Object keys are plain strings. Inherited `Object.prototype` keys (`constructor`, …) are not modelled.
- Coerce.LooseEqualsNat: text compares as a plain run of decimal digits. Signs, decimals, hex and exponents are not modelled; the ids and statuses compared are non-negative integers.
- Build: `build.get` is a single database read with no decision of its own. Dates are modelled only as present or absent.
- SlackNotify.TimeString: requires a spread under one minute. The minutes branch prints fractional seconds, which is floating point. The clock reading is the parameter.
- SlackNotify.Compose: errors and message texts are taken as text. A non-text value printed by `join` is not modelled.
- Upload: the transfers, their error stops, and the SSH `exec` that never settles are not modelled. Sets are planned in configuration order; the order in which the file promises finish is not modelled. Every accepted server gets the same plan. A set's `target` is text; a set without one makes the stage throw a TypeError at templates/stages/ftp-upload.js:85 when it reads the target's length, and that case is not modelled.
- Upload.Classify: entries are a falsy value, a path string, or an object `{status, path, oldpath}`. Other truthy entries (numbers, arrays) are not modelled.
- Git.CloneOptions: `Object.assign` with a truthy non-object `clone` (a string copies its characters as keys) is not modelled. Such a clone is treated as absent.
- Credentials.List: returns a set. The key order of `Object.keys` is not modelled.
- WebSocket: binary frames, `JSON.parse` itself (the parsed value, or its absence, is the input), `tidyClient`'s field projection in `client/list`, the `chat/message` handler (it only calls the tagger), `broadcast`, the client's pending-request bookkeeping, and timers are not modelled.
- Nlp: the part-of-speech tagger, the HTML parser and `startConversation` are not modelled. Link strengths are kept as the text they print as; the letter strength `1/word.length` is a floating-point number and is a parameter of `WordConcepts`. Character codes are Unicode scalar values, which agree with `charCodeAt` only inside the Basic Multilingual Plane. The database insert is the returned statement.
- Nginx: `String.replace`'s `$` patterns are not modelled; replacement is literal. The file-system outcomes (`stat`, read, write) are parameters.
- Nginx.Run: write errors after the template is read are not modelled.
- Thin wrappers around libraries, and bootstrap files, are not modelled: start-up, settings, the HTTP endpoints other than pipeline update, the ssh-connect, ftp-connect, ssh-upload, npm-install, nginx-uiapi-ssl and git-diff stages, the ftp module, pretty-console, the gitlab webhook, and `remote/patch.js`.
- The run's documentation describes a recovery step and build-status updates. The code contains neither, and the model follows the code.
- Build.QueryPlaceholdersMatchArgs: proved only when no property name contains `?`. The code splices property names into the SQL text unescaped, so a name holding `?` adds a placeholder that has no argument.
- Strings.ToLower: lower-cases the upper-case letters of ASCII and of the Latin-1 supplement only. The rest of Unicode's case mapping (Greek, Cyrillic, the multi-character mappings, …) is not modelled; a client type outside that range is compared as written.
- Upload.WorkspaceBase: uses the corrected FTP base (`Upload.FtpWorkspaceBase`, with the separator), not the code's `Upload.FtpWorkspaceBaseAsWritten`. `Upload.FtpWorkspaceBaseAgrees` shows the two agree exactly when the source path is empty or already ends in `/`. Its `workspace` parameter stands for the printed `stage.pipeline.workspace.path`. Nothing in the code sets that field (the workspace object is created empty at source/modules/pipeline/index.js:42), so as the code stands it prints "undefined" and every base is relative to the working directory; `Upload.UnsetWorkspacePath` states the bases for that value. The intended workspace directory is not modelled.
- Upload.PlanSets: its local paths come from the corrected FTP base, as for `Upload.WorkspaceBase`, and its `workspace` is the printed `workspace.path`, "undefined" as the code stands.
- Upload.StagePlan: its local paths come from the corrected FTP base, as for `Upload.WorkspaceBase`, and its `workspace` is the printed `workspace.path`, "undefined" as the code stands.
- WebSocket.OnMessage: a hello runs the corrected `WebSocket.HelloStep`, which looks clients up by name and type only. The code's lookup, with its fallback to ids, is `WebSocket.HelloAsWritten`.
- WebSocket.OnMessageValid: proved for the corrected dispatcher `WebSocket.OnMessage` only. No invariant is proved for a dispatcher that runs the as-written hello.
- Nlp.Rows: uses the corrected `Nlp.ConceptRows`, which gives one containment row per contained item. The code's loop is `Nlp.ConceptRowsAsWritten`.
- Nlp.Learn: its relation text comes from the corrected rows, as for `Nlp.Rows`.
- Nlp.LearnEnglishWords: its query comes from the corrected rows, as for `Nlp.Rows`.
- SlackNotify.Compose: takes the workspace's pipeline name, patch, errors, messages and start time as present values. A workspace that lacks `build`, `version`, `errors` or `messages` makes the stage throw a TypeError on line 20 or 22 once the url check has passed; a missing `startTime` prints as NaN. Neither is modelled.
- GitPull.Prepare: the commit message pushed onto `workspace.messages` after the checkout (a TypeError when that list is missing) is not modelled. When the url is not text, the failure result does not carry the `config.branch` default written (templates/stages/git-pull.js:30-32) before `repoName` throws; the configuration object is not part of the result.
- Pipeline.OverrideConfig: `Object.assign` mutates the stage's configuration object in place. When that object is shared with another stage or with the caller's settings, they see the patch too. The model treats each configuration as its own value.
- Git.UpdateCalls: lists the calls as if each succeeds. `Git.Update` models a failing call, after which the chain stops and the promise stays pending.
- Git.Update: the library calls are parameters: which of them fail is the `rejects` set. The repository value the promise fulfils with is not modelled.

## Findings

| source | as written | input that shows it | evidently intended | confidence | as-written member | corrected member |
|---|---|---|---|---|---|---|
| source/modules/pipeline/index.js:170-172 | `replace(stage)` binds only `stage`, yet the body reads `stageName`, `stageMethodOrFileName` and `stageConfigOverrides` | `replace("git-pull")` on any pipeline throws a ReferenceError | `replace(name, methodOrFile, config)` overwrites the stage at its index, or appends | high, not executed | Registry.ReplaceAsWritten, Registry.ReplaceAsWrittenNeverReplaces | Registry.Replace |
| templates/stages/ftp-upload.js:90 | the local base is `workspace + '/' + source_workspace_path`, with no separator after the path | `source_workspace_path` "dist" and the never assigned `workspace.path`: file `a.js` is read from `undefined/dista.js` | `undefined/dist/a.js`: the configuration names a directory inside the workspace (`source_workspace_path`), and the files listed are paths inside that directory, so a separator belongs between the two; the SSH stage adds a `/` after the source path, though it has no separator between workspace path and source path either | medium, not executed | Upload.FtpWorkspaceBaseAsWritten, Upload.FtpWorkspaceBaseGluesNames | Upload.FtpWorkspaceBase, Upload.FtpWorkspaceBaseAgrees |
| source/modules/websocket/index.js:153-160 | `find(name, type)` falls back to lookup by id when the trimmed type is empty | a hello with name "1" and clientType " " reclaims client 1, whatever that client's name and type | hello looks clients up by name and type only | medium, not executed | WebSocket.HelloAsWritten, WebSocket.HelloAsWrittenHijacks | WebSocket.HelloStep, WebSocket.HelloKeepsPairsUnique |
| source/modules/websocket/index.js:327-333 | a closing socket removes its client even after a later hello has moved that client to a new socket | client 1 reconnects on socket 2; the late close of socket 1 removes it | remove the client only while the closing socket is its current one | medium, not executed | WebSocket.CloseAsWritten, WebSocket.CloseAsWrittenDropsReclaimed | WebSocket.Close |
| source/modules/websocket/index.js:64 | a bare host gets "ws" when `secure` is set and "wss" when it is not | `secure: true`, host "example.org" connects to "ws://example.org/" | "wss" exactly when secure | high, not executed | WebSocket.NormaliseAsWritten, WebSocket.NormaliseAsWrittenInvertsSecure | WebSocket.Normalise |
| source/modules/websocket/index.js:121-128 | each retry calls `connect`, which normalises the already normalised url again | "http://x/" is tried as "ws://x/", then "wss://ws://x//" | every retry goes to the same server | high, not executed | WebSocket.AttemptsAsWritten, WebSocket.RetryAsWrittenDrifts | WebSocket.Attempts |
| source/modules/nlp/index.js:195-203 | the `contains` loop walks `containedBy` and never reads the contained items | a learnt word (is 1500006, containedBy 1500007, contains letter 104) has no row for the letter, and its parent row appears twice | one containment row per contained item, pointing at the concept | high, not executed | Nlp.ConceptRowsAsWritten, Nlp.LettersLostAsWritten | Nlp.ConceptRows, Nlp.RowsRecordContents |

=== FILE: build.dfy ===
/**
 The build-record helpers: the decisions they take before handing values
 to the database (default status, which timestamps a status change sets,
 the id check, the rows of the stage-configuration snapshot, the query and
 arguments that look up a previous successful stage). The database itself
 is not modelled: each helper returns what it would hand over.
 */
module Build {
  import Coerce
  import Js
  import Numbers
  import Registry
  import Strings
  import opened Wrappers

  /** Build status codes as the source uses them: 0 success, 1 failed,
      2 building, 3 a further finished state, 5 waiting. */
  const Success := 0
  const Failed := 1
  const Building := 2
  const Waiting := 5

  /** `create(pipelineId, status)`: only an undefined or null status becomes
      5 (waiting); anything else, `0` included, is kept. */
  function CreateStatus(status: Js.Value): (r: Js.Value)
    ensures status.Undefined? || status.Null? ==> r == Js.Num(Waiting)
    ensures !(status.Undefined? || status.Null?) ==> r == status
  {
    if status.Undefined? || status.Null? then Js.Num(Waiting) else status
  }

  /** The stored-procedure call `create` makes. */
  datatype DbCall = DbCall(sql: string, args: seq<Js.Value>)

  function CreateCall(pipelineId: Js.Value, status: Js.Value): (c: DbCall)
    ensures c.sql == "CALL createBuildInfo(?, ?)"
    ensures c.args == [pipelineId, CreateStatus(status)]
  {
    DbCall("CALL createBuildInfo(?, ?)", [pipelineId, CreateStatus(status)])
  }

  /** An explicit success status is not replaced by the default. */
  lemma CreateKeepsZero()
    ensures CreateStatus(Js.Num(Success)) == Js.Num(0)
    ensures CreateStatus(Js.Undefined) == Js.Num(5)
  {
  }

  /** The record `setStatus` hands to `update`. Timestamps are the current
      time; only their presence is modelled. */
  datatype StatusInfo = StatusInfo(id: Js.Value, status: Js.Value, started: bool, finished: bool)

  /** `setStatus(id, status)`: `started` when the status is (loosely) 2,
      `finished` when it is strictly the number 3, 1 or 0. */
  function StatusRecord(id: Js.Value, status: Js.Value): (r: StatusInfo)
    ensures r.id == id && r.status == status
    ensures r.started <==> Coerce.LooseEqualsNat(status, Building)
    ensures r.finished <==> status == Js.Num(3) || status == Js.Num(Failed) || status == Js.Num(Success)
  {
    StatusInfo(id, status, Coerce.LooseEqualsNat(status, Building),
               status == Js.Num(3) || status == Js.Num(Failed) || status == Js.Num(Success))
  }

  /** Building and waiting are never finished; a status never both starts and finishes. */
  lemma StatusTimestamps(id: Js.Value, status: Js.Value)
    ensures !(StatusRecord(id, status).started && StatusRecord(id, status).finished)
    ensures StatusRecord(id, Js.Num(Building)).started && !StatusRecord(id, Js.Num(Building)).finished
    ensures !StatusRecord(id, Js.Num(Waiting)).started && !StatusRecord(id, Js.Num(Waiting)).finished
    ensures StatusRecord(id, Js.Num(Success)).finished && StatusRecord(id, Js.Num(Failed)).finished
  {
  }

  /** `update(options)`: throws before any database call when the id is
      falsy; otherwise the fields to insert or update. */
  function Update(info: StatusInfo): (r: Result<StatusInfo, string>)
    ensures r.Err? <==> !Js.Truthy(info.id)
    ensures r.Err? ==> r.error == "Build ID required to update it"
    ensures r.Ok? ==> r.value == info
  {
    if !Js.Truthy(info.id) then Err("Build ID required to update it") else Ok(info)
  }

  /** `setStatus(id, status)` is `update` of its record. */
  function SetStatus(id: Js.Value, status: Js.Value): (r: Result<StatusInfo, string>)
    ensures r.Ok? <==> Js.Truthy(id)
    ensures r.Ok? ==> r.value.status == status && (r.value.started <==> Coerce.LooseEqualsNat(status, Building))
  {
    Update(StatusRecord(id, status))
  }

  /** One row of `build_stage_properties`. */
  datatype StageRow = StageRow(build: Js.Value, index: nat, stageName: string, properties: string)

  /** The insert's outcome: the rows, and the call resolves whether or not the
      database reported an error. */
  datatype Saved = Resolved(rows: seq<StageRow>)

  /** `saveStageConfig(buildId, stages)`: one row per stage, in list order,
      carrying the build, the stage's position and name and its serialized
      configuration (`serialize` stands for `JSON.stringify`). */
  function SaveStageConfig(buildId: Js.Value, stages: Registry.Stages, serialize: Js.Fields -> string, dbError: bool): (r: Saved)
    ensures |r.rows| == |stages|
    ensures forall i :: 0 <= i < |stages| ==>
      r.rows[i].build == buildId && r.rows[i].index == i && r.rows[i].stageName == stages[i].name
      && r.rows[i].properties == serialize(stages[i].config)
  {
    var rows := seq(|stages|, i requires 0 <= i < |stages| =>
      StageRow(buildId, i, stages[i].name, serialize(stages[i].config)));
    assert forall i :: 0 <= i < |stages| ==> rows[i] == StageRow(buildId, i, stages[i].name, serialize(stages[i].config));
    Resolved(rows)
  }

  const OrderNewestFirst := " order by builds.id desc"
  const ClauseOpen := " and json_extract(properties, \"$."
  const ClauseEnd := "\") = "
  const ClauseClose := ClauseEnd + "?"

  /** The clause added per property to match. */
  function PropertyClause(name: string): string
  {
    ClauseOpen + name + ClauseClose
  }

  /** The text and arguments built from the properties, in their enumeration order. */
  function PropertyClauses(props: seq<(string, Js.Value)>): (r: (string, seq<Js.Value>))
    ensures |r.1| == |props|
    ensures forall k :: 0 <= k < |props| ==> r.1[k] == props[k].1
  {
    if |props| == 0 then ("", [])
    else
      var rest := PropertyClauses(props[1..]);
      (PropertyClause(props[0].0) + rest.0, [props[0].1] + rest.1)
  }

  /** `getSuccessfulStage(pipelineId, stageName, properties)`: the query and
      its arguments. */
  function SuccessfulStageQuery(pipelineId: Js.Value, stageName: Js.Value, props: seq<(string, Js.Value)>): (c: DbCall)
    ensures |c.args| == 2 + |props|
    ensures c.args[0] == pipelineId && c.args[1] == stageName
    ensures forall k :: 0 <= k < |props| ==> c.args[2 + k] == props[k].1
  {
    var clauses := PropertyClauses(props);
    DbCall(QueryHead + "?" + QueryMiddle + "? " + clauses.0 + OrderNewestFirst, [pipelineId, stageName] + clauses.1)
  }

  /** The query text between placeholders, from the first property clause on;
      `lead` is the text that precedes it. */
  function ClauseSegments(props: seq<(string, Js.Value)>, lead: string): (segs: seq<string>)
    ensures |segs| == |props| + 1
  {
    if |props| == 0 then [lead + OrderNewestFirst]
    else [lead + ClauseOpen + props[0].0 + ClauseEnd] + ClauseSegments(props[1..], "")
  }

  /** The fixed text of the lookup query, around its two fixed placeholders
      (pipeline id and stage name): it selects stage rows of successful
      (status 0) builds of the pipeline. */
  const QueryHead := "select build_stage_properties.* " + "from build_stage_properties " + "left join builds on "
    + "build_stage_properties.build " + "= builds.id where " + "builds.pipeline = "
  const QueryMiddle := " and builds.status = 0 and stageName = "

  lemma FixedHead()
    ensures '?' !in QueryHead
  {
    FixedSelect();
    FixedJoin();
    FixedWhere();
  }

  lemma FixedSelect()
    ensures '?' !in "select build_stage_properties.* " && '?' !in "from build_stage_properties "
  {
  }

  lemma FixedJoin()
    ensures '?' !in "left join builds on " && '?' !in "build_stage_properties.build "
  {
  }

  lemma FixedWhere()
    ensures '?' !in "= builds.id where " && '?' !in "builds.pipeline = "
  {
  }

  lemma FixedMiddle()
    ensures '?' !in QueryMiddle
  {
  }

  /** The pieces of the query text between its `?` placeholders. */
  function QuerySegments(props: seq<(string, Js.Value)>): (segs: seq<string>)
    ensures |segs| == |props| + 3
  {
    [QueryHead, QueryMiddle] + ClauseSegments(props, " ")
  }

  lemma {:induction false} ClauseSegmentsJoin(props: seq<(string, Js.Value)>, lead: string)
    ensures lead + PropertyClauses(props).0 + OrderNewestFirst == Strings.Join(ClauseSegments(props, lead), "?")
  {
    if |props| > 0 {
      var name := props[0].0;
      var rest := PropertyClauses(props[1..]).0;
      ClauseSegmentsJoin(props[1..], "");
      var first := lead + ClauseOpen + name + ClauseEnd;
      Strings.JoinCons(first, ClauseSegments(props[1..], ""), "?");
      assert PropertyClauses(props).0 == PropertyClause(name) + rest;
      Regroup(lead, ClauseOpen, name, ClauseEnd, rest, OrderNewestFirst);
    }
  }

  /** Moving the placeholder of a clause to the front of what follows it. */
  lemma Regroup(lead: string, open: string, name: string, end: string, rest: string, order: string)
    ensures lead + ((open + name + (end + "?")) + rest) + order == (lead + open + name + end) + "?" + ("" + rest + order)
  {
  }

  lemma {:induction false} ClauseSegmentsClean(props: seq<(string, Js.Value)>, lead: string)
    requires '?' !in lead
    requires forall k :: 0 <= k < |props| ==> '?' !in props[k].0
    ensures forall k :: 0 <= k < |props| + 1 ==> '?' !in ClauseSegments(props, lead)[k]
  {
    FixedOrder();
    FixedClause();
    if |props| > 0 {
      ClauseSegmentsClean(props[1..], "");
    }
  }

  lemma FixedOrder()
    ensures '?' !in OrderNewestFirst
  {
  }

  lemma FixedClause()
    ensures '?' !in ClauseOpen && '?' !in ClauseEnd
  {
  }

  /** The shape of the query with its fixed parts left symbolic. */
  lemma QueryShape(head: string, middle: string, props: seq<(string, Js.Value)>)
    ensures head + "?" + middle + "? " + PropertyClauses(props).0 + OrderNewestFirst
         == Strings.Join([head, middle] + ClauseSegments(props, " "), "?")
  {
    ClauseSegmentsJoin(props, " ");
    JoinTwoFront(head, middle, ClauseSegments(props, " "));
    PlaceholderShape(head, middle, PropertyClauses(props).0, OrderNewestFirst);
  }

  lemma JoinTwoFront(head: string, middle: string, tail: seq<string>)
    requires |tail| >= 1
    ensures Strings.Join([head, middle] + tail, "?") == head + "?" + (middle + "?" + Strings.Join(tail, "?"))
  {
    Strings.JoinCons(middle, tail, "?");
    Strings.JoinCons(head, [middle] + tail, "?");
    assert [head, middle] + tail == [head] + ([middle] + tail);
  }

  lemma PlaceholderShape(head: string, middle: string, clauses: string, order: string)
    ensures head + "?" + middle + "? " + clauses + order == head + "?" + (middle + "?" + (" " + clauses + order))
  {
    assert "? " == "?" + " ";
  }

  /** The query text is its segments joined by `?` placeholders. */
  lemma QueryIsJoin(pipelineId: Js.Value, stageName: Js.Value, props: seq<(string, Js.Value)>)
    ensures SuccessfulStageQuery(pipelineId, stageName, props).sql == Strings.Join(QuerySegments(props), "?")
  {
    QueryShape(QueryHead, QueryMiddle, props);
  }

  /** No segment carries a `?` of its own when no property name does. */
  lemma SegmentsClean(props: seq<(string, Js.Value)>)
    requires forall k :: 0 <= k < |props| ==> '?' !in props[k].0
    ensures forall k :: 0 <= k < |QuerySegments(props)| ==> '?' !in QuerySegments(props)[k]
  {
    var segs := QuerySegments(props);
    var tail := ClauseSegments(props, " ");
    ClauseSegmentsClean(props, " ");
    FixedHead();
    FixedMiddle();
    assert segs == [QueryHead, QueryMiddle] + tail;
    forall k | 0 <= k < |segs| ensures '?' !in segs[k] {
      if k >= 2 {
        assert segs[k] == tail[k - 2];
      }
    }
  }

  /** The query is its segments joined by `?` placeholders, no segment holds
      a `?` of its own, and there are as many placeholders as arguments,
      as long as no property name itself contains a `?`. */
  lemma QueryPlaceholdersMatchArgs(pipelineId: Js.Value, stageName: Js.Value, props: seq<(string, Js.Value)>)
    requires forall k :: 0 <= k < |props| ==> '?' !in props[k].0
    ensures var c := SuccessfulStageQuery(pipelineId, stageName, props);
      var segs := QuerySegments(props);
      && c.sql == Strings.Join(segs, "?")
      && (forall k :: 0 <= k < |segs| ==> '?' !in segs[k])
      && |segs| - 1 == |c.args|
  {
    QueryIsJoin(pipelineId, stageName, props);
    SegmentsClean(props);
  }

  /** A stored row, with its properties still as JSON text. */
  datatype StoredRow = StoredRow(build: Js.Value, stage: Js.Value, stageName: string, properties: string)

  /** A row handed back to the caller, its properties parsed. */
  datatype Snapshot = Snapshot(build: Js.Value, stage: Js.Value, stageName: string, properties: Js.Value)

  datatype DbAnswer = DbError(error: Js.Value) | DbRows(rows: seq<StoredRow>)

  datatype Lookup = Rejected(error: Js.Value) | NoMatch | Match(row: Snapshot)

  /** What `getSuccessfulStage` resolves to: null without rows, otherwise
      the first (newest) row with its properties parsed (`parse` stands for
      `JSON.parse`). */
  function SuccessfulStage(answer: DbAnswer, parse: string -> Js.Value): (r: Lookup)
    ensures answer.DbError? ==> r == Rejected(answer.error)
    ensures answer.DbRows? && |answer.rows| == 0 ==> r == NoMatch
    ensures answer.DbRows? && |answer.rows| > 0 ==>
      var first := answer.rows[0];
      r == Match(Snapshot(first.build, first.stage, first.stageName, parse(first.properties)))
  {
    match answer
    case DbError(e) => Rejected(e)
    case DbRows(rows) =>
      if |rows| == 0 then NoMatch
      else Match(Snapshot(rows[0].build, rows[0].stage, rows[0].stageName, parse(rows[0].properties)))
  }
}

=== FILE: coerce.dfy ===
/**
 JavaScript's loose equality `v == n` between a value and a non-negative
 integer, as the modelled code uses it to compare ids and status codes.
 */
module Coerce {
  import Js
  import Numbers
  import Strings

  /** `Number(s) == n` for text: surrounding blanks are ignored, empty text
      is 0, and otherwise the text must be a run of decimal digits. */
  predicate TextIsNumber(s: string, n: nat)
    ensures Strings.Trim(s) == Numbers.NatToString(n) ==> TextIsNumber(s, n)
    ensures Strings.Trim(s) == "" ==> (TextIsNumber(s, n) <==> n == 0)
  {
    var t := Strings.Trim(s);
    Numbers.DigitsValueOfNat(n);
    if t == "" then n == 0
    else (forall k :: 0 <= k < |t| ==> Numbers.IsDigit(t[k])) && Numbers.DigitsValue(t) == n
  }

  /** `String(v)`: how a value prints. An array prints its elements joined
      by commas, with `undefined` and `null` elements printing as nothing;
      a plain object prints as `[object Object]`; an opaque value prints as
      its tag. */
  function Text(v: Js.Value): (r: string)
    ensures v.Str? ==> r == v.s
    ensures v.Num? ==> r == Numbers.IntToString(v.n)
    ensures v.Arr? && |v.items| == 0 ==> r == ""
    decreases v
  {
    match v
    case Undefined => "undefined"
    case Null => "null"
    case Bool(b) => if b then "true" else "false"
    case Num(n) => Numbers.IntToString(n)
    case Str(s) => s
    case Arr(items) =>
      Strings.Join(seq(|items|, i requires 0 <= i < |items| =>
                         if items[i].Undefined? || items[i].Null? then "" else Text(items[i])), ",")
    case Obj(_) => "[object Object]"
    case Opaque(tag) => tag
  }

  /** An array of one element prints as that element. */
  lemma TextOfSingleton(x: Js.Value)
    requires !x.Undefined? && !x.Null?
    ensures Text(Js.Arr([x])) == Text(x)
  {
  }

  /** `v == n`: a number compares by value, text through `Number`, a
      boolean as 0 or 1, an array through its printed form;
      `undefined`, `null`, plain objects and opaque values never match. */
  predicate LooseEqualsNat(v: Js.Value, n: nat)
    ensures v.Undefined? || v.Null? || v.Obj? ==> !LooseEqualsNat(v, n)
    ensures v.Str? || v.Arr? ==> (LooseEqualsNat(v, n) <==> TextIsNumber(Text(v), n))
  {
    match v
    case Num(m) => m == n
    case Str(s) => TextIsNumber(s, n)
    case Bool(b) => (if b then 1 else 0) == n
    case Arr(_) => TextIsNumber(Text(v), n)
    case _ => false
  }

  /** A value loosely equals at most one number. */
  lemma LooseEqualsUnique(v: Js.Value, n: nat, m: nat)
    requires LooseEqualsNat(v, n) && LooseEqualsNat(v, m)
    ensures n == m
  {
  }

  /** The printed form of a number, the number itself, and the arrays
      `[n]` and `['n']` equal it. */
  lemma LooseEqualsPrinted(n: nat)
    ensures LooseEqualsNat(Js.Str(Numbers.NatToString(n)), n)
    ensures LooseEqualsNat(Js.Num(n), n)
    ensures LooseEqualsNat(Js.Arr([Js.Num(n)]), n)
    ensures LooseEqualsNat(Js.Arr([Js.Str(Numbers.NatToString(n))]), n)
  {
    var s := Numbers.NatToString(n);
    Strings.TrimUnchanged(s);
    Numbers.DigitsValueOfNat(n);
    TextOfSingleton(Js.Num(n));
    TextOfSingleton(Js.Str(s));
  }
}

=== FILE: credentials.dfy ===
/**
 The credentials store: a lookup object from keys to credential records,
 read at start-up and written back after every change. Encryption and the
 file itself are not modelled; the store is its decrypted contents.
 */
module Credentials {
  import Js
  import opened Wrappers

  /** The decrypted lookup object. */
  type Store = map<string, Js.Value>

  /** `credentials(key)`: the stored value, `undefined` when absent. */
  function Lookup(store: Store, key: string): (r: Js.Value)
    ensures key in store ==> r == store[key]
    ensures key !in store ==> r == Js.Undefined
  {
    if key in store then store[key] else Js.Undefined
  }

  /** `list()`: the stored keys (their order is left out). */
  function List(store: Store): (r: set<string>)
    ensures forall k :: k in r <==> k in store
  {
    store.Keys
  }

  /** `load(x)`: a non-empty string is a key and is looked up; any other
      value (a credential object, `null`, `''`) is returned as it is. */
  function Load(store: Store, x: Js.Value): (r: Js.Value)
    ensures x.Str? && x.s != "" ==> r == Lookup(store, x.s)
    ensures !(x.Str? && x.s != "") ==> r == x
  {
    if Js.Truthy(x) && x.Str? then Lookup(store, x.s) else x
  }

  /** `update(key, data)` (also `add`): the store with `key` set to `data`. */
  function Update(store: Store, key: string, data: Js.Value): (r: Store)
    ensures r.Keys == store.Keys + {key}
  {
    store[key := data]
  }

  /** After an update the key reads back the data, and lists; every other
      key reads as before. */
  lemma UpdateThenLookup(store: Store, key: string, data: Js.Value, other: string)
    requires other != key
    ensures Lookup(Update(store, key, data), key) == data
    ensures key in List(Update(store, key, data))
    ensures Lookup(Update(store, key, data), other) == Lookup(store, other)
    ensures List(Update(store, key, data)) == List(store) + {key}
  {
  }

  /** Loading a key after an update gives the data; loading an object
      gives the object, whatever the store holds. */
  lemma LoadAfterUpdate(store: Store, key: string, data: Js.Value, record: map<string, Js.Value>)
    requires key != ""
    ensures Load(Update(store, key, data), Js.Str(key)) == data
    ensures Load(store, Js.Obj(record)) == Js.Obj(record)
  {
  }

  /** The store at start-up: the file's decrypted contents, or an empty
      lookup (which is then written out) when the file cannot be read. */
  datatype Startup = Startup(store: Store, writesEmpty: bool)

  function Open(file: Option<Store>): (r: Startup)
    ensures file.None? ==> r.store == map[] && r.writesEmpty
    ensures file.Some? ==> r.store == file.value && !r.writesEmpty
  {
    match file
    case None => Startup(map[], true)
    case Some(contents) => Startup(contents, false)
  }

  /** An unreadable store has no keys, so every lookup is `undefined`. */
  lemma UnreadableStoreIsEmpty(key: string)
    ensures List(Open(None).store) == {}
    ensures Lookup(Open(None).store, key) == Js.Undefined
  {
  }
}

=== FILE: git.dfy ===
/**
 The git module's decisions around the library calls: which kind of
 credential the authentication callback produces, the options a clone
 receives, and the branch that update and checkout target.
 */
module Git {
  import Credentials
  import Js
  import opened Wrappers

  /** What the credentials callback returns. `Throws` when the loaded
      credential is `undefined` or `null` (reading `.password` of it). */
  datatype Credential =
    | NoCredential
    | UserPassword(username: Js.Value, password: Js.Value)
    | SshKey(username: Js.Value, publicKey: Js.Value, privateKey: Js.Value, passphrase: Js.Value)
    | UsernameOnly(username: Js.Value)
    | Throws

  /** The callback for `options` (`undefined` becomes `{}`): no
      `credentials` option means no credential; otherwise the option is
      loaded and a password wins over a public key (the field is spelled
      `publickkey`), which wins over a bare user name. */
  function CredentialFor(store: Credentials.Store, options: Js.Value): (r: Credential)
    ensures !Js.Truthy(Js.Get(options, "credentials")) ==> r == NoCredential
    ensures Js.Truthy(Js.Get(options, "credentials")) ==>
              var c := Credentials.Load(store, Js.Get(options, "credentials"));
              && (c == Js.Undefined || c == Js.Null <==> r == Throws)
              && (r.UserPassword? <==> c != Js.Undefined && c != Js.Null && Js.Truthy(Js.Get(c, "password")))
              && (r.SshKey? <==> c != Js.Undefined && c != Js.Null && !Js.Truthy(Js.Get(c, "password"))
                                 && Js.Truthy(Js.Get(c, "publickkey")))
              && (r.UsernameOnly? <==> c != Js.Undefined && c != Js.Null && !Js.Truthy(Js.Get(c, "password"))
                                       && !Js.Truthy(Js.Get(c, "publickkey")) && Js.Truthy(Js.Get(c, "username")))
    ensures r.UserPassword? || r.SshKey? || r.UsernameOnly? ==>
              r.username == Js.Get(Credentials.Load(store, Js.Get(options, "credentials")), "username")
  {
    var option := Js.Get(options, "credentials");
    if !Js.Truthy(option) then NoCredential
    else
      var c := Credentials.Load(store, option);
      if c == Js.Undefined || c == Js.Null then Throws
      else if Js.Truthy(Js.Get(c, "password")) then UserPassword(Js.Get(c, "username"), Js.Get(c, "password"))
      else if Js.Truthy(Js.Get(c, "publickkey")) then
        SshKey(Js.Get(c, "username"), Js.Get(c, "publickkey"), Js.Get(c, "privatekey"), Js.Get(c, "passphrase"))
      else if Js.Truthy(Js.Get(c, "username")) then UsernameOnly(Js.Get(c, "username"))
      else NoCredential
  }

  /** A stored key resolves to the stored record's credential; a key that
      is not stored makes the callback throw. */
  lemma CredentialByKey(store: Credentials.Store, key: string, options: map<string, Js.Value>)
    requires key != "" && "credentials" in options && options["credentials"] == Js.Str(key)
    ensures key !in store ==> CredentialFor(store, Js.Obj(options)) == Throws
    ensures key in store && store[key].Obj? && Js.Truthy(Js.Get(store[key], "password")) ==>
              CredentialFor(store, Js.Obj(options)) == UserPassword(Js.Get(store[key], "username"), Js.Get(store[key], "password"))
  {
  }

  /** The authentication callbacks, kept abstract. */
  const Callbacks: Js.Value := Js.Opaque("callbacks")

  /** `{fetchOpts: {callbacks}}`, shallow-overwritten by the fields of
      `options.clone` when that is an object. */
  function CloneOptions(options: Js.Value): (r: Js.Fields)
    ensures var clone := Js.Get(options, "clone");
            && (clone.Obj? ==> r == Js.Assign(map["fetchOpts" := Js.Obj(map["callbacks" := Callbacks])], clone.fields))
            && (!clone.Obj? ==> r == map["fetchOpts" := Js.Obj(map["callbacks" := Callbacks])])
    ensures "fetchOpts" in r
    ensures forall k :: k in r && k != "fetchOpts" ==> Js.Get(options, "clone").Obj? && k in Js.Get(options, "clone").fields
  {
    var base := map["fetchOpts" := Js.Obj(map["callbacks" := Callbacks])];
    var clone := Js.Get(options, "clone");
    if clone.Obj? then Js.Assign(base, clone.fields) else base
  }

  /** Without `clone` options the callbacks reach the clone untouched. */
  lemma CloneKeepsCallbacks(options: Js.Value)
    requires !(Js.Get(options, "clone").Obj? && "fetchOpts" in Js.Get(options, "clone").fields)
    ensures CloneOptions(options)["fetchOpts"] == Js.Obj(map["callbacks" := Callbacks])
  {
  }

  /** The remote-tracking branch both update and checkout check out. */
  function Target(branch: string): (r: string)
    ensures |r| == |"origin/"| + |branch| && r[..7] == "origin/" && r[7..] == branch
  {
    "origin/" + branch
  }

  /** The library calls of `update(remote, local, branch, options)`. */
  datatype GitCall =
    | Fetch
    | Clone(remote: string, local: string, options: Js.Fields)
    | CheckoutBranch(target: string)

  /** An existing checkout (`local + '/.git'` opens) is fetched, otherwise
      the remote is cloned; then `origin/<branch>` is checked out when a
      branch is given. */
  function UpdateCalls(remote: string, local: string, branch: string, options: Js.Value, opens: bool): (r: seq<GitCall>)
    ensures |r| == (if branch == "" then 1 else 2)
    ensures opens ==> r[0] == Fetch
    ensures !opens ==> r[0] == Clone(remote, local, CloneOptions(options))
    ensures branch != "" ==> r[1] == CheckoutBranch(Target(branch))
  {
    var first := if opens then Fetch else Clone(remote, local, CloneOptions(options));
    if branch == "" then [first] else [first, CheckoutBranch(Target(branch))]
  }

  /** How the promise `update` returns ends up: fulfilled with the
      repository, or never settled. No path rejects it. */
  datatype Outcome = Fulfilled | Pending

  /** The calls `update` actually makes and how its promise ends up. */
  datatype Run = Run(calls: seq<GitCall>, outcome: Outcome)

  /** `update` when the calls whose positions are in `rejects` fail. A
      failed fetch, clone or checkout stops the chain, and since the chain
      only ever calls `fulfil`, the promise then stays pending. */
  function Update(remote: string, local: string, branch: string, options: Js.Value, opens: bool, rejects: set<nat>): (r: Run)
    ensures var plan := UpdateCalls(remote, local, branch, options, opens);
            && r.calls <= plan && |r.calls| >= 1
            && (r.outcome == Fulfilled <==> forall k :: 0 <= k < |plan| ==> k !in rejects)
            && (r.outcome == Fulfilled ==> r.calls == plan)
            && (r.outcome == Pending ==> |r.calls| - 1 in rejects)
            && forall k :: 0 <= k < |r.calls| - 1 ==> k !in rejects
  {
    var plan := UpdateCalls(remote, local, branch, options, opens);
    if 0 in rejects then Run(plan[..1], Pending)
    else if |plan| == 2 && 1 in rejects then Run(plan, Pending)
    else Run(plan, Fulfilled)
  }

  /** A failed clone is the last thing `update` does: no checkout follows
      and the promise never settles, so the caller waits for ever. */
  lemma CloneFailureHangs(remote: string, local: string, branch: string, options: Js.Value, rejects: set<nat>)
    requires 0 in rejects
    ensures Update(remote, local, branch, options, false, rejects) == Run([Clone(remote, local, CloneOptions(options))], Pending)
  {
  }

  /** Nothing failing, `update` makes exactly the planned calls and fulfils. */
  lemma UpdateSucceeds(remote: string, local: string, branch: string, options: Js.Value, opens: bool)
    ensures Update(remote, local, branch, options, opens, {}) == Run(UpdateCalls(remote, local, branch, options, opens), Fulfilled)
  {
  }

  /** The path opened to find an existing checkout. */
  function RepositoryPath(local: string): (r: string)
    ensures |r| == |local| + 5 && r[..|local|] == local && r[|local|..] == "/.git"
  {
    local + "/.git"
  }
}

=== FILE: gitpull.dfy ===
/**
 The `git-pull` stage's preparation of its configuration: the repository
 url it requires, the branch and local directory it falls back to, and the
 directory name it infers from the url. The clone, checkout and commit
 bookkeeping that follow are calls into the git module and are not
 modelled here.
 */
module GitPull {
  import Js
  import Strings
  import opened Wrappers

  /** A character `repoName` cuts at. */
  predicate IsCut(c: char)
  {
    c == '#' || c == '?' || c == '/' || c == '.'
  }

  /** `repoName(url)`: drop the fragment, then the query, keep the last
      `'/'`-separated segment, and keep only what precedes its first `'.'`. */
  function RepoName(url: string): (r: string)
    ensures forall k :: 0 <= k < |r| ==> !IsCut(r[k])
  {
    var noFragment := Strings.BeforeFirst(url, '#');
    var noQuery := Strings.BeforeFirst(noFragment, '?');
    var fileName := Strings.LastPiece(noQuery, '/');
    LastPieceWithin(noQuery, '#');
    LastPieceWithin(noQuery, '?');
    Strings.BeforeFirst(fileName, '.')
  }

  /** A character missing from a text is missing from its last piece. */
  lemma LastPieceWithin(s: string, d: char)
    requires d !in s
    ensures d !in Strings.LastPiece(s, '/')
  {
    var parts := Strings.Split(s, '/');
    SplitPiecesWithin(s, '/', d);
    assert Strings.LastPiece(s, '/') == parts[|parts| - 1];
  }

  /** A character missing from a text is missing from every piece of its split. */
  lemma {:induction false} SplitPiecesWithin(s: string, c: char, d: char)
    requires d !in s
    ensures forall k :: 0 <= k < |Strings.Split(s, c)| ==> d !in Strings.Split(s, c)[k]
    decreases |s|
  {
    var i := Strings.IndexOf(s, c);
    if i >= 0 {
      assert s[..i] <= s;
      SplitPiecesWithin(s[i + 1..], c, d);
    }
  }

  /** A name already free of the cut characters is its own repository name. */
  lemma RepoNameFixed(name: string)
    requires forall k :: 0 <= k < |name| ==> !IsCut(name[k])
    ensures RepoName(name) == name
  {
    assert '#' !in name && '?' !in name && '/' !in name && '.' !in name;
  }

  /** Applying `repoName` to its own result changes nothing. */
  lemma RepoNameIdempotent(url: string)
    ensures RepoName(RepoName(url)) == RepoName(url)
  {
    RepoNameFixed(RepoName(url));
  }

  /** The name is what follows the last `'/'` up to the first `'.'`, with any
      extension, query and fragment discarded. */
  lemma RepoNameOf(path: string, name: string, extension: string)
    requires '#' !in path && '?' !in path
    requires forall k :: 0 <= k < |name| ==> !IsCut(name[k])
    requires '#' !in extension && '?' !in extension && '/' !in extension
    ensures RepoName(path + "/" + name + "." + extension) == name
  {
    var url := path + "/" + name + "." + extension;
    var tail := name + "." + extension;
    assert url == path + ['/'] + tail;
    assert '#' !in url && '?' !in url;
    assert '/' !in tail;
    Strings.LastPieceAfter(path, '/', tail);
    assert '.' !in name;
    assert tail[|name|] == '.';
    assert Strings.IndexOf(tail, '.') == |name|;
    assert tail[..|name|] == name;
  }

  /** The example of the stage's own documentation. */
  lemma RepoNameExample()
    ensures RepoName("https://github.com/recline" + "/" + "recline-server" + "." + "git") == "recline-server"
  {
    RepoNameOf("https://github.com/recline", "recline-server", "git");
  }

  /** A fragment plays no part in the name: everything from the first `'#'`
      on is discarded before anything else is looked at. */
  lemma RepoNameDropsFragment(u: string, fragment: string)
    requires '#' !in u
    ensures RepoName(u + "#" + fragment) == RepoName(u)
  {
    Strings.BeforeFirstAfter(u, "#" + fragment, '#');
    assert u + "#" + fragment == u + ("#" + fragment);
    assert Strings.BeforeFirst("#" + fragment, '#') == [];
    assert u + [] == u;
    Strings.BeforeFirstAfter(u, [], '#');
  }

  /** A query plays no part in the name either, whatever fragment follows it. */
  lemma RepoNameDropsQuery(u: string, query: string)
    requires '#' !in u && '?' !in u
    ensures RepoName(u + "?" + query) == RepoName(u)
  {
    var rest := "?" + query;
    assert u + "?" + query == u + rest;
    Strings.BeforeFirstAfter(u, rest, '#');
    var kept := Strings.BeforeFirst(rest, '#');
    QueryKeepsMark(query);
    Strings.BeforeFirstAfter(u, kept, '?');
    assert Strings.BeforeFirst(kept, '?') == [];
    assert u + [] == u;
    Strings.BeforeFirstAfter(u, [], '#');
    Strings.BeforeFirstAfter(u, [], '?');
  }

  /** Cutting a query at its fragment keeps the leading `'?'`. */
  lemma QueryKeepsMark(query: string)
    ensures |Strings.BeforeFirst("?" + query, '#')| > 0
    ensures Strings.BeforeFirst("?" + query, '#')[0] == '?'
  {
    var s := "?" + query;
    assert s[0] == '?';
    var i := Strings.IndexOf(s, '#');
    assert i != 0;
  }

  /** Why a pull cannot start: no url ("No Git repository URL provided"),
      or a url that is not text when a directory name must be inferred. */
  datatype PullError =
    | MissingUrl
    | UrlNotText  // `url.split` is not a function when the url is no string

  /** The stage's own fields, after the defaults are filled in. */
  datatype Pull = Pull(url: Js.Value, branch: Js.Value, localPath: Js.Value, config: Js.Fields)

  /** The branch used: the configured one, else the workspace's, else "master". */
  function DefaultBranch(configured: Js.Value, workspaceBranch: Js.Value): (r: Js.Value)
    ensures Js.Truthy(r)
    ensures Js.Truthy(configured) ==> r == configured
    ensures !Js.Truthy(configured) && Js.Truthy(workspaceBranch) ==> r == workspaceBranch
    ensures !Js.Truthy(configured) && !Js.Truthy(workspaceBranch) ==> r == Js.Str("master")
  {
    if Js.Truthy(configured) then configured
    else if Js.Truthy(workspaceBranch) then workspaceBranch
    else Js.Str("master")
  }

  /** The stage's preparation: the url check comes first, before the
      configuration is touched; the branch and the local path are then
      written into the configuration when they are missing. */
  function Prepare(config: Js.Fields, workspaceBranch: Js.Value): (r: Result<Pull, PullError>)
    ensures r.Err? <==> !Js.Truthy(Js.Get(Js.Obj(config), "url"))
                        || (!Js.Get(Js.Obj(config), "url").Str? && !Js.Truthy(Js.Get(Js.Obj(config), "localPath")))
    ensures r == Err(MissingUrl) <==> !Js.Truthy(Js.Get(Js.Obj(config), "url"))
    ensures r.Ok? ==> r.value.branch == DefaultBranch(Js.Get(Js.Obj(config), "branch"), workspaceBranch)
    ensures r.Ok? ==> r.value.url == config["url"] && Js.Truthy(r.value.url)
    ensures r.Ok? ==> r.value.config.Keys == config.Keys + {"branch", "localPath"}
    ensures r.Ok? ==> r.value.config["branch"] == r.value.branch && r.value.config["localPath"] == r.value.localPath
    ensures r.Ok? ==> forall k :: k in config && k != "branch" && k != "localPath" ==> r.value.config[k] == config[k]
    ensures r.Ok? && Js.Truthy(Js.Get(Js.Obj(config), "branch")) ==> r.value.branch == config["branch"]
    ensures r.Ok? && Js.Truthy(Js.Get(Js.Obj(config), "localPath")) ==> r.value.localPath == config["localPath"]
    ensures r.Ok? && !Js.Truthy(Js.Get(Js.Obj(config), "localPath")) ==> r.value.url.Str? && r.value.localPath == Js.Str(RepoName(r.value.url.s))
  {
    var url := Js.Get(Js.Obj(config), "url");
    if !Js.Truthy(url) then Err(MissingUrl)
    else
      var branch := DefaultBranch(Js.Get(Js.Obj(config), "branch"), workspaceBranch);
      var configured := Js.Get(Js.Obj(config), "localPath");
      if Js.Truthy(configured) then
        Ok(Pull(url, branch, configured, config["branch" := branch]["localPath" := configured]))
      else if !url.Str? then Err(UrlNotText)
      else
        var localPath := Js.Str(RepoName(url.s));
        Ok(Pull(url, branch, localPath, config["branch" := branch]["localPath" := localPath]))
  }
}

=== FILE: js.dfy ===
/**
 JavaScript values as the modelled code sees them: configuration objects,
 JSON messages and credential records. Functions and library handles that
 the model never looks inside are `Opaque` tokens.
 */
module Js {

  datatype Value =
    | Undefined
    | Null
    | Bool(b: bool)
    | Num(n: int)
    | Str(s: string)
    | Arr(items: seq<Value>)
    | Obj(fields: map<string, Value>)
    | Opaque(tag: string)

  /** A plain object's own fields. */
  type Fields = map<string, Value>

  /** JavaScript truthiness: `undefined`, `null`, `false`, `0` and `''` are falsy. */
  predicate Truthy(v: Value)
    ensures !Truthy(v) <==> v == Undefined || v == Null || v == Bool(false) || v == Num(0) || v == Str("")
  {
    match v
    case Undefined => false
    case Null => false
    case Bool(b) => b
    case Num(n) => n != 0
    case Str(s) => s != ""
    case _ => true
  }

  /** `o.key` on an object; `undefined` when the field is absent or `o` is not an object. */
  function Get(o: Value, key: string): (r: Value)
    ensures o.Obj? && key in o.fields ==> r == o.fields[key]
    ensures !(o.Obj? && key in o.fields) ==> r == Undefined
  {
    if o.Obj? && key in o.fields then o.fields[key] else Undefined
  }

  /** `Object.assign(target, source)`: a shallow copy of every field of
      `source` over `target`. */
  function Assign(target: Fields, source: Fields): (r: Fields)
    ensures r.Keys == target.Keys + source.Keys
    ensures forall k :: k in source ==> r[k] == source[k]
    ensures forall k :: k in target && k !in source ==> r[k] == target[k]
  {
    target + source
  }

  /** Assigning an empty object changes nothing, and assigning the same fields twice is assigning them once. */
  lemma AssignIdempotent(target: Fields, source: Fields)
    ensures Assign(target, map[]) == target
    ensures Assign(Assign(target, source), source) == Assign(target, source)
  {
  }
}

=== FILE: nginx.dfy ===
/**
 The remote script that sets up an nginx site for a domain: it fills the
 site template with the domain, enables the site, asks for a certificate
 and then uncomments the certificate lines. The file system and the shell
 are parameters: whether the configuration exists and the template text.
 */
module Nginx {
  import Strings
  import opened Wrappers

  const Available := "/etc/nginx/sites-available/"
  const Enabled := "/etc/nginx/sites-enabled/"
  const Placeholder := "{SERVER_NAME}"
  const Reload := "sudo nginx -s reload"
  // Written in two parts so that the verifier checks the absence of a line
  // break in each part on its own.
  const Certbot := "sudo certbot certonly " + "--webroot -w /var/www/certbot -d "

  /** Why the script stops: no domain argument, or an unreadable template. */
  datatype NginxError = MissingDomain | TemplateUnreadable

  /** The domain is the third argument (after the interpreter and the script). */
  function ServerName(argv: seq<string>): (r: Result<string, NginxError>)
    ensures r.Err? <==> |argv| < 3
    ensures r.Ok? ==> r.value == argv[2]
  {
    if |argv| < 3 then Err(MissingDomain) else Ok(argv[2])
  }

  /** The site's configuration file. */
  function ConfigFile(name: string): (r: string)
    ensures |r| == |Available| + |name| + 5
    ensures Strings.StartsWith(r, Available) && Strings.EndsWith(r, ".conf")
    ensures r[|Available|..|r| - 5] == name
  {
    var r := Available + name + ".conf";
    assert r[|Available|..|r| - 5] == name;
    r
  }

  /** Different domains get different configuration files. */
  lemma ConfigFileInjective(a: string, b: string)
    requires ConfigFile(a) == ConfigFile(b)
    ensures a == b
  {
  }

  /** Every `{SERVER_NAME}` in the template replaced by the domain; a
      template without the placeholder is written out unchanged. */
  function Fill(template: string, name: string): (r: string)
    ensures !Strings.Occurs(template, Placeholder) ==> r == template
  {
    var r := Strings.ReplaceAll(template, Placeholder, name);
    assert !Strings.Occurs(template, Placeholder) ==> r == template by {
      if !Strings.Occurs(template, Placeholder) {
        Strings.ReplaceAllAbsent(template, Placeholder, name);
      }
    }
    r
  }

  /** The template is its text around the placeholders; filling puts the
      domain in every gap and changes nothing else. */
  lemma FillPlaces(pieces: seq<string>, name: string)
    requires forall k :: 0 <= k < |pieces| ==> !Strings.Occurs(pieces[k], Placeholder)
    ensures Fill(Strings.Join(pieces, Placeholder), name) == Strings.Join(pieces, name)
  {
    assert '{' !in Placeholder[1..];
    Strings.ReplaceAllJoin(pieces, Placeholder, name);
  }

  /** The site's entry among the enabled sites. */
  function EnabledFile(name: string): (r: string)
    ensures Strings.StartsWith(r, Enabled) && r[|Enabled|..] == ConfigFile(name)[|Available|..]
  {
    var r := Enabled + name + ".conf";
    assert r[|Enabled|..] == name + ".conf";
    assert ConfigFile(name)[|Available|..] == name + ".conf";
    r
  }

  /** `"` + s + `"`. */
  function Quote(s: string): string
  {
    "\"" + s + "\""
  }

  /** Enable the site by linking its configuration into the enabled sites:
      for a domain without a double quote, the command's quoted words are
      exactly the configuration file and its enabled entry. */
  function LinkCommand(name: string): (r: string)
    ensures '"' !in name ==> Strings.Split(r, '"') == ["sudo ln -s ", ConfigFile(name), " ", EnabledFile(name), ""]
  {
    if '"' !in name then
      PathsPlain();
      SplitQuoted("sudo ln -s ", ConfigFile(name), " ", EnabledFile(name));
      "sudo ln -s " + Quote(ConfigFile(name)) + " " + Quote(EnabledFile(name))
    else "sudo ln -s " + Quote(ConfigFile(name)) + " " + Quote(EnabledFile(name))
  }

  /** The fixed parts of the link command hold neither a quote nor a line break. */
  lemma PathsPlain()
    ensures '"' !in Available && '"' !in Enabled && '"' !in ".conf" && '"' !in "sudo ln -s " && '"' !in " "
    ensures '\n' !in Available && '\n' !in Enabled && '\n' !in ".conf" && '\n' !in "sudo ln -s " && '\n' !in " "
  {
    DirectoryPlain(Available);
    DirectoryPlain(Enabled);
    DirectoryPlain(".conf");
    DirectoryPlain("sudo ln -s ");
  }

  /** A path of letters, dashes, dots, slashes and spaces holds neither a
      quote nor a line break. */
  lemma DirectoryPlain(s: string)
    requires forall k :: 0 <= k < |s| ==> s[k] in "/-. " || ('a' <= s[k] <= 'z')
    ensures '"' !in s && '\n' !in s
  {
  }

  /** Quoting a word on one line keeps it on one line. */
  lemma QuoteOneLine(s: string)
    requires '\n' !in s
    ensures '\n' !in Quote(s)
  {
  }

  /** Two quoted words between quote-free text split back into their parts. */
  lemma SplitQuoted(p: string, a: string, m: string, b: string)
    requires '"' !in p && '"' !in a && '"' !in m && '"' !in b
    ensures Strings.Split(p + Quote(a) + m + Quote(b), '"') == [p, a, m, b, ""]
  {
    QuotedJoin(p, a, m, b);
    Strings.JoinSplit([p, a, m, b, ""], '"');
  }

  /** The text with two quoted words is its five quote-free parts joined by quotes. */
  lemma QuotedJoin(p: string, a: string, m: string, b: string)
    ensures Strings.Join([p, a, m, b, ""], "\"") == p + Quote(a) + m + Quote(b)
  {
    var q := "\"";
    var j1 := Strings.Join([b, ""], q);
    assert j1 == b + q by { Strings.JoinCons(b, [""], q); }
    var j2 := Strings.Join([m, b, ""], q);
    assert j2 == m + q + j1 by { Strings.JoinCons(m, [b, ""], q); }
    var j3 := Strings.Join([a, m, b, ""], q);
    assert j3 == a + q + j2 by { Strings.JoinCons(a, [m, b, ""], q); }
    var j4 := Strings.Join([p, a, m, b, ""], q);
    assert j4 == p + q + j3 by { Strings.JoinCons(p, [a, m, b, ""], q); }
    assert p + q + (a + q + (m + q + (b + q))) == p + Quote(a) + m + Quote(b);
  }

  /** Ask for a certificate for the domain: for a domain without a space,
      the domain is the command's last word. */
  function CertCommand(name: string): (r: string)
    ensures Strings.StartsWith(r, Certbot) && r[|Certbot|..] == name
    ensures ' ' !in name ==> Strings.LastPiece(r, ' ') == name
  {
    var r := Certbot + name;
    assert r[|Certbot|..] == name;
    if ' ' !in name then
      var head := Certbot[..|Certbot| - 1];
      assert Certbot == head + [' '];
      assert r == head + [' '] + name;
      Strings.LastPieceAfter(head, ' ', name);
      r
    else r
  }

  /** Symlink the site, reload nginx, request a certificate for the domain,
      in that order. */
  function Commands(name: string): (r: seq<string>)
    ensures |r| == 3
    ensures r[0] == LinkCommand(name) && r[1] == Reload && r[2] == CertCommand(name)
  {
    [LinkCommand(name), Reload, CertCommand(name)]
  }

  /** The shell text run once the configuration is written: for a domain
      without line breaks it is exactly the three commands, one per line. */
  function Script(name: string): (r: string)
    ensures '\n' !in name ==> Strings.Split(r, '\n') == Commands(name)
  {
    var cs := Commands(name);
    if '\n' !in name then
      LinkCommandOneLine(name);
      OtherCommandsOneLine(name);
      assert forall k :: 0 <= k < |cs| ==> '\n' !in cs[k];
      Strings.JoinSplit(cs, '\n');
      Strings.Join(cs, "\n")
    else Strings.Join(cs, "\n")
  }

  lemma LinkCommandOneLine(name: string)
    requires '\n' !in name
    ensures '\n' !in LinkCommand(name)
  {
    PathsPlain();
    var c, e := ConfigFile(name), EnabledFile(name);
    assert '\n' !in c by { assert c == Available + name + ".conf"; }
    assert '\n' !in e by { assert e == Enabled + name + ".conf"; }
    QuoteOneLine(c);
    QuoteOneLine(e);
    var s1 := "sudo ln -s " + Quote(c);
    assert '\n' !in s1;
    var s2 := s1 + " ";
    assert '\n' !in s2;
    assert LinkCommand(name) == s2 + Quote(e);
  }

  lemma OtherCommandsOneLine(name: string)
    requires '\n' !in name
    ensures '\n' !in Reload && '\n' !in CertCommand(name)
  {
    CertbotOneLine();
  }

  lemma CertbotOneLine()
    ensures '\n' !in Certbot
  {
    CertbotStartOneLine();
    assert '\n' !in "--webroot -w /var/www/certbot -d ";
  }

  lemma CertbotStartOneLine()
    ensures '\n' !in "sudo certbot certonly "
  {
  }

  const Certificate := "ssl_certificate"
  const CertificateKey := Certificate + "_key"
  const Commented := "#" + Certificate
  const CommentedKey := "#" + CertificateKey

  /** Uncommenting: every `#ssl_certificate`, then every `#ssl_certificate_key`,
      loses its `#`; a file without a commented certificate line is left as it is. */
  function Uncomment(filled: string): (r: string)
    ensures !Strings.Occurs(filled, Commented) ==> r == filled
  {
    UncommentAbsent(filled);
    Strings.ReplaceAll(Strings.ReplaceAll(filled, Commented, Certificate), CommentedKey, CertificateKey)
  }

  lemma UncommentAbsent(filled: string)
    ensures !Strings.Occurs(filled, Commented) ==>
              Strings.ReplaceAll(Strings.ReplaceAll(filled, Commented, Certificate), CommentedKey, CertificateKey) == filled
  {
    if !Strings.Occurs(filled, Commented) {
      Strings.ReplaceAllAbsent(filled, Commented, Certificate);
      KeyHidesComment(filled);
      Strings.ReplaceAllAbsent(filled, CommentedKey, CertificateKey);
    }
  }

  /** A commented key line is a commented certificate line followed by `_key`. */
  lemma KeyHidesComment(s: string)
    ensures Strings.Occurs(s, CommentedKey) ==> Strings.Occurs(s, Commented)
  {
    if Strings.Occurs(s, CommentedKey) {
      var p :| Strings.OccursAt(s, CommentedKey, p);
      assert s[p..p + |Commented|] == CommentedKey[..|Commented|];
      assert Strings.OccursAt(s, Commented, p);
    }
  }

  lemma NoHashInCertificate()
    ensures '#' !in Certificate
  {
  }

  /** The file is its text around the commented certificate lines: the first
      replacement uncomments exactly those; and unless a piece ends in `#`
      just before one of them, the second replacement finds nothing more. */
  lemma UncommentPlaces(pieces: seq<string>)
    requires forall k :: 0 <= k < |pieces| ==> !Strings.Occurs(pieces[k], Commented)
    ensures Strings.ReplaceAll(Strings.Join(pieces, Commented), Commented, Certificate)
            == Strings.Join(pieces, Certificate)
    ensures (forall k :: 0 <= k < |pieces| - 1 ==> !Strings.EndsWith(pieces[k], "#")) ==>
              Uncomment(Strings.Join(pieces, Commented)) == Strings.Join(pieces, Certificate)
  {
    assert '#' !in Commented[1..] by { NoHashInCertificate(); assert Commented[1..] == Certificate; }
    Strings.ReplaceAllJoin(pieces, Commented, Certificate);
    if forall k :: 0 <= k < |pieces| - 1 ==> !Strings.EndsWith(pieces[k], "#") {
      SecondFindsNothing(pieces);
    }
  }

  lemma SecondFindsNothing(pieces: seq<string>)
    requires forall k :: 0 <= k < |pieces| ==> !Strings.Occurs(pieces[k], Commented)
    requires forall k :: 0 <= k < |pieces| - 1 ==> !Strings.EndsWith(pieces[k], "#")
    ensures var once := Strings.Join(pieces, Certificate);
            Strings.ReplaceAll(once, CommentedKey, CertificateKey) == once
  {
    var once := Strings.Join(pieces, Certificate);
    KeyCommentAbsent(pieces);
    Strings.ReplaceAllAbsent(once, CommentedKey, CertificateKey);
  }

  /** After the first replacement no commented key line is left. */
  lemma {:induction false} KeyCommentAbsent(pieces: seq<string>)
    requires forall k :: 0 <= k < |pieces| ==> !Strings.Occurs(pieces[k], Commented)
    requires forall k :: 0 <= k < |pieces| - 1 ==> !Strings.EndsWith(pieces[k], "#")
    ensures !Strings.Occurs(Strings.Join(pieces, Certificate), CommentedKey)
    decreases |pieces|
  {
    if |pieces| == 0 {
      assert forall p :: !Strings.OccursAt("", CommentedKey, p);
    } else if |pieces| == 1 {
      KeyHidesComment(pieces[0]);
    } else {
      var x, rest := pieces[0], pieces[1..];
      assert forall k :: 0 <= k < |rest| ==> rest[k] == pieces[k + 1];
      KeyCommentAbsent(rest);
      var j := Strings.Join(rest, Certificate);
      assert Strings.Join(pieces, Certificate) == x + Certificate + j;
      assert !Strings.EndsWith(pieces[0], "#");
      forall p ensures !Strings.OccursAt(x + Certificate + j, CommentedKey, p) {
        KeyWindow(x, j, p);
      }
    }
  }

  /** No window of `x + ssl_certificate + j` reads `#ssl_certificate_key`
      when `x` neither holds `#ssl_certificate` nor ends in `#`, and `j`
      holds no `#ssl_certificate_key`. */
  lemma KeyWindow(x: string, j: string, p: int)
    requires !Strings.Occurs(x, Commented) && !Strings.EndsWith(x, "#")
    requires !Strings.Occurs(j, CommentedKey)
    ensures !Strings.OccursAt(x + Certificate + j, CommentedKey, p)
  {
    var n := |CommentedKey|;
    if p < 0 || p > |x| + |Certificate| + |j| - n {
    } else if p + n <= |x| {
      assert !Strings.OccursAt(x, Commented, p);
      KeyWindowInside(x, Certificate + j, p);
      assert x + Certificate + j == x + (Certificate + j);
    } else if p < |x| {
      KeyWindowCrossing(x, j, p);
    } else if p < |x| + |Certificate| {
      NoHashInCertificate();
      KeyWindowInCertificate(x, j, p);
    } else {
      var q := p - |x| - |Certificate|;
      assert !Strings.OccursAt(j, CommentedKey, q);
      KeyWindowAfter(x + Certificate, j, p);
    }
  }

  /** A window inside `x` reads `#ssl_certificate_key` only if `x` holds `#ssl_certificate` there. */
  lemma KeyWindowInside(x: string, rest: string, p: int)
    requires 0 <= p && p + |CommentedKey| <= |x|
    requires !Strings.OccursAt(x, Commented, p)
    ensures !Strings.OccursAt(x + rest, CommentedKey, p)
  {
    var s := x + rest;
    assert s[p..p + |CommentedKey|][..|Commented|] == x[p..p + |Commented|];
    assert CommentedKey[..|Commented|] == Commented;
  }

  /** A window starting inside the inserted `ssl_certificate` starts without `#`. */
  lemma KeyWindowInCertificate(x: string, j: string, p: int)
    requires '#' !in Certificate
    requires |x| <= p < |x| + |Certificate| && p + |CommentedKey| <= |x| + |Certificate| + |j|
    ensures !Strings.OccursAt(x + Certificate + j, CommentedKey, p)
  {
    var s := x + Certificate + j;
    assert s[p..p + |CommentedKey|][0] == Certificate[p - |x|];
  }

  /** A window after the inserted text is a window of `j`. */
  lemma KeyWindowAfter(h: string, j: string, p: int)
    requires |h| <= p && !Strings.OccursAt(j, CommentedKey, p - |h|)
    ensures !Strings.OccursAt(h + j, CommentedKey, p)
  {
    var q := p - |h|;
    if p + |CommentedKey| <= |h| + |j| {
      assert (h + j)[p..p + |CommentedKey|] == j[q..q + |CommentedKey|];
    }
  }

  /** A window that starts in `x` and runs into the inserted `ssl_certificate`. */
  lemma KeyWindowCrossing(x: string, j: string, p: int)
    requires !Strings.EndsWith(x, "#")
    requires 0 <= p < |x| < p + |CommentedKey| <= |x| + |Certificate| + |j|
    ensures !Strings.OccursAt(x + Certificate + j, CommentedKey, p)
  {
    var s := x + Certificate + j;
    var w := s[p..p + |CommentedKey|];
    if p == |x| - 1 {
      Strings.EndsWithChar(x, '#');
      assert w[0] == x[|x| - 1];
    } else if p == |x| - 2 {
      assert w[3] == Certificate[1] == 's';
      assert CommentedKey[3] == 'l';
    } else {
      var d := |x| - p;
      assert w[d] == Certificate[0] == 's';
      KeyTailHasNoS(d);
    }
  }

  /** Past its third character, `#ssl_certificate_key` holds no `s`. */
  lemma KeyTailHasNoS(d: int)
    requires 3 <= d < |CommentedKey|
    ensures CommentedKey[d] != 's'
  {
    assert CommentedKey[3..] == "l_certificate_key";
    assert 's' !in "l_certificate_key";
    assert CommentedKey[d] == CommentedKey[3..][d - 3];
  }

  /** A doubled `#` is where the second replacement matters: the first
      leaves `#ssl_certificate_key`, the second removes that `#` too. */
  lemma SecondReplacementMatters()
    ensures Strings.ReplaceAll("#" + CommentedKey, Commented, Certificate) == CommentedKey
    ensures Uncomment("#" + CommentedKey) == CertificateKey
  {
    FirstLeavesKeyComment();
    Strings.ReplaceAllAtPattern("", CommentedKey, CertificateKey);
    assert CommentedKey + "" == CommentedKey;
    assert CertificateKey + "" == CertificateKey;
  }

  lemma FirstLeavesKeyComment()
    ensures Strings.ReplaceAll("#" + CommentedKey, Commented, Certificate) == CommentedKey
  {
    var s := "#" + CommentedKey;
    assert s[..|Commented|] != Commented by {
      assert s[..|Commented|][1] == '#';
    }
    assert s[1..] == Commented + "_key";
    Strings.ReplaceAllAtPattern("_key", Commented, Certificate);
    assert Strings.ReplaceAll("_key", Commented, Certificate) == "_key";
    assert "#" + (Certificate + "_key") == CommentedKey;
  }

  /** What the script does for a domain. */
  datatype Outcome =
    | AlreadyConfigured(configFile: string)
    | Configured(configFile: string, filled: string, script: string, uncommented: string, finally: string)

  /** A run: nothing when the configuration file already exists; otherwise
      the filled template is written, the commands run, the certificate
      lines are uncommented and nginx is reloaded once more. */
  function Run(argv: seq<string>, configExists: bool, template: Option<string>): (r: Result<Outcome, NginxError>)
    ensures |argv| < 3 ==> r == Err(MissingDomain)
    ensures r == Err(TemplateUnreadable) <==> |argv| >= 3 && !configExists && template.None?
    ensures r.Ok? ==> r.value.configFile == ConfigFile(argv[2])
    ensures r.Ok? && r.value.AlreadyConfigured? <==> |argv| >= 3 && configExists
    ensures r.Ok? && r.value.Configured? ==>
              && template.Some?
              && r.value.filled == Fill(template.value, argv[2])
              && r.value.script == Script(argv[2])
              && r.value.uncommented == Uncomment(r.value.filled)
              && r.value.finally == Reload
  {
    match ServerName(argv)
    case Err(e) => Err(e)
    case Ok(name) =>
      if configExists then Ok(AlreadyConfigured(ConfigFile(name)))
      else match template
        case None => Err(TemplateUnreadable)
        case Some(t) =>
          var filled := Fill(t, name);
          Ok(Configured(ConfigFile(name), filled, Script(name), Uncomment(filled), Reload))
  }
}

=== FILE: nlp.dfy ===
/**
 The language module's two pieces of plain logic: the normalisation a
 phrase goes through before it is parsed and tagged, and the text of the
 relation rows that `learn` inserts. The tagger, the HTML parser and the
 database are not modelled.
 */
module Nlp {
  import Js
  import Numbers
  import Strings
  import opened Wrappers

  /** Calling `trim` on a value that is neither text nor `null`/`undefined`. */
  datatype SpeechError = TrimNotAFunction

  /** A trimmed phrase wrapped in one paragraph element. */
  predicate Wrapped(t: string)
  {
    Strings.StartsWith(t, "<p>") && Strings.EndsWith(t, "</p>")
  }

  /** The opening and closing tags cannot overlap: a wrapped text has at least seven characters. */
  lemma WrappedIsLong(t: string)
    requires Wrapped(t)
    ensures |t| >= 7
  {
    assert t[..3] == "<p>";
    assert t[|t| - 4..] == "</p>";
    assert t[1] == 'p' && t[|t| - 4] == '<' && t[|t| - 3] == '/' && t[|t| - 1] == '>';
  }

  /** The text `speechTag` hands to the parser: `null` and `undefined` become
      `''`, text is trimmed, and one enclosing `<p>`…`</p>` is dropped when
      both tags are there. */
  function SpeechInput(phrase: Js.Value): (r: Result<string, SpeechError>)
    ensures r.Err? <==> !(phrase.Null? || phrase.Undefined? || phrase.Str?)
    ensures phrase.Null? || phrase.Undefined? ==> r == Ok("")
    ensures phrase.Str? && !Wrapped(Strings.Trim(phrase.s)) ==> r == Ok(Strings.Trim(phrase.s))
    ensures phrase.Str? && Wrapped(Strings.Trim(phrase.s)) ==>
              r.Ok? && Strings.Trim(phrase.s) == "<p>" + r.value + "</p>"
  {
    match phrase
    case Null => Ok("")
    case Undefined => Ok("")
    case Str(s) =>
      var t := Strings.Trim(s);
      if Wrapped(t) then Ok(Unwrap(t)) else Ok(t)
    case _ => Err(TrimNotAFunction)
  }

  /** What lies between the paragraph tags. */
  function Unwrap(t: string): (r: string)
    requires Wrapped(t)
    ensures t == "<p>" + r + "</p>"
  {
    WrappedIsLong(t);
    assert t == t[..3] + t[3..|t| - 4] + t[|t| - 4..];
    t[3..|t| - 4]
  }

  /** A paragraph is wrapped, and unwrapping it gives its content back. */
  lemma UnwrapParagraph(x: string, content: string)
    requires x == "<p>" + content + "</p>"
    ensures Wrapped(x) && Unwrap(x) == content
  {
    assert x[..3] == "<p>" && x[|x| - 4..] == "</p>";
  }

  /** A paragraph, with any blanks around it, yields exactly its content. */
  lemma ParagraphUnwrapped(before: string, content: string, after: string)
    requires forall k :: 0 <= k < |before| ==> Strings.IsBlank(before[k])
    requires forall k :: 0 <= k < |after| ==> Strings.IsBlank(after[k])
    ensures SpeechInput(Js.Str(before + ("<p>" + content + "</p>") + after)) == Ok(content)
  {
    var x := "<p>" + content + "</p>";
    Strings.TrimAround(before, x, after);
    UnwrapParagraph(x, content);
  }

  /** Only one pair of tags is dropped: a nested paragraph comes out still wrapped. */
  lemma OnlyOuterParagraph(content: string)
    ensures SpeechInput(Js.Str("<p>" + ("<p>" + content + "</p>") + "</p>")) == Ok("<p>" + content + "</p>")
    ensures Wrapped("<p>" + content + "</p>")
  {
    var inner := "<p>" + content + "</p>";
    ParagraphUnwrapped("", inner, "");
    NothingAround("<p>" + inner + "</p>");
    UnwrapParagraph(inner, content);
  }

  lemma NothingAround(x: string)
    ensures "" + x + "" == x
  {
  }

  /** A text comes through normalisation unchanged exactly when it has no
      blank at either end and is not wrapped in a paragraph. */
  lemma SpeechInputFixed(v: string)
    ensures SpeechInput(Js.Str(v)) == Ok(v) <==> Strings.Trim(v) == v && !Wrapped(v)
  {
    var t := Strings.Trim(v);
    assert |t| <= |v|;
    if Wrapped(t) {
      var u := Unwrap(t);
      assert |u| < |t|;
    }
  }

  /** Normalising twice gives the first result back exactly when that result
      is trimmed and not wrapped; in particular it always does when the
      first pass dropped no paragraph tags. */
  lemma SpeechInputStable(s: string)
    ensures var once := SpeechInput(Js.Str(s)).value;
            SpeechInput(Js.Str(once)) == Ok(once) <==> Strings.Trim(once) == once && !Wrapped(once)
    ensures !Wrapped(Strings.Trim(s)) ==> SpeechInput(Js.Str(SpeechInput(Js.Str(s)).value)) == SpeechInput(Js.Str(s))
  {
    SpeechInputFixed(SpeechInput(Js.Str(s)).value);
    Strings.TrimIdempotent(s);
  }

  /** Blanks just inside the tags survive the first pass and go on the
      second: `<p> x </p>` gives ` x `, which gives `x`. */
  lemma PaddedParagraphNotStable(pad: string, content: string)
    requires |pad| > 0 && forall k :: 0 <= k < |pad| ==> Strings.IsBlank(pad[k])
    requires |content| > 0 && !Strings.IsBlank(content[0]) && !Strings.IsBlank(content[|content| - 1])
    requires !Wrapped(content)
    ensures SpeechInput(Js.Str("<p>" + (pad + content + pad) + "</p>")) == Ok(pad + content + pad)
    ensures SpeechInput(Js.Str(pad + content + pad)) == Ok(content)
    ensures content != pad + content + pad
  {
    var once := pad + content + pad;
    ParagraphUnwrapped("", once, "");
    NothingAround("<p>" + once + "</p>");
    Strings.TrimAround(pad, content, pad);
  }

  /** One entry of a concept's relation array: the other concept and the strength, as printed. */
  datatype Link = Link(target: int, strength: string)

  /** A concept handed to `learn`; an absent (falsy) array is `None`. */
  datatype Concept = Concept(
    id: int,
    resolvesTo: Option<seq<Link>>,
    isA: Option<seq<Link>>,  // the `is` array
    containedBy: Option<seq<Link>>,
    contains: Option<seq<Link>>)

  /** One row of `ai_relations`: from, to, strength and type. */
  datatype Relation = Relation(from: int, to: int, strength: string, kind: nat)

  const ResolvesTo: nat := 3
  const IsA: nat := 2
  const ContainedBy: nat := 1

  /** Rows from the concept to each linked concept. */
  function Outgoing(id: int, links: Option<seq<Link>>, kind: nat): (r: seq<Relation>)
    ensures links.None? ==> r == []
    ensures links.Some? ==> |r| == |links.value|
    ensures links.Some? ==> forall k :: 0 <= k < |r| ==>
              r[k] == Relation(id, links.value[k].target, links.value[k].strength, kind)
  {
    match links
    case None => []
    case Some(ls) => seq(|ls|, k requires 0 <= k < |ls| => Relation(id, ls[k].target, ls[k].strength, kind))
  }

  /** Rows from each linked concept back to the concept, as containment runs. */
  function Incoming(id: int, links: seq<Link>): (r: seq<Relation>)
    ensures |r| == |links|
    ensures forall k :: 0 <= k < |r| ==> r[k] == Relation(links[k].target, id, links[k].strength, ContainedBy)
  {
    seq(|links|, k requires 0 <= k < |links| => Relation(links[k].target, id, links[k].strength, ContainedBy))
  }

  /** What `learn` and its callers throw: `.length` of a missing
      `containedBy`; the undefined `concept` that `learnEnglishWords` passes
      on; the misspelt `cosole` the insert's callback logs with. */
  datatype LearnError = NoContainedBy(concept: int) | ConceptNotDefined | CosoleNotDefined

  /** The rows of one concept as written: a present `contains` makes the
      loop walk `containedBy` again and emit its rows reversed; the
      contained items themselves are never read. */
  function ConceptRowsAsWritten(c: Concept): (r: Result<seq<Relation>, LearnError>)
    ensures r.Err? <==> c.contains.Some? && c.containedBy.None?
    ensures c.contains.None? ==> r == Ok(ConceptRows(c))
    ensures r.Ok? && c.contains.Some? ==>
              r.value == Outgoing(c.id, c.resolvesTo, ResolvesTo) + Outgoing(c.id, c.isA, IsA)
                         + Outgoing(c.id, c.containedBy, ContainedBy) + Incoming(c.id, c.containedBy.value)
  {
    var head := Outgoing(c.id, c.resolvesTo, ResolvesTo) + Outgoing(c.id, c.isA, IsA)
                + Outgoing(c.id, c.containedBy, ContainedBy);
    match c.contains
    case None => Ok(head)
    case Some(_) =>
      match c.containedBy
      case None => Err(NoContainedBy(c.id))
      case Some(parents) => Ok(head + Incoming(c.id, parents))
  }

  /** How many links a (possibly absent) array holds. */
  function Count(links: Option<seq<Link>>): nat
  {
    if links.Some? then |links.value| else 0
  }

  /** The rows of one concept as evidently intended: the contained items
      each get a containment row pointing at the concept. */
  function ConceptRows(c: Concept): (r: seq<Relation>)
    ensures |r| == Count(c.resolvesTo) + Count(c.isA) + Count(c.containedBy) + Count(c.contains)
    ensures forall k :: 0 <= k < |r| ==> r[k].kind in {ResolvesTo, IsA, ContainedBy}
    ensures c.contains.Some? ==> forall k :: 0 <= k < |c.contains.value| ==>
              Relation(c.contains.value[k].target, c.id, c.contains.value[k].strength, ContainedBy) in r
  {
    var head := Outgoing(c.id, c.resolvesTo, ResolvesTo) + Outgoing(c.id, c.isA, IsA)
                + Outgoing(c.id, c.containedBy, ContainedBy);
    match c.contains
    case None => head
    case Some(items) =>
      var tail := Incoming(c.id, items);
      assert forall k :: 0 <= k < |items| ==> (head + tail)[|head| + k] == tail[k];
      head + tail
  }

  /** The rows come in field order: those of `resolvesTo`, then `is`, then
      `containedBy`, each in array order, then those of `contains`. */
  lemma ConceptRowsOrder(c: Concept)
    ensures var r, a, b, d := ConceptRows(c), Count(c.resolvesTo), Count(c.isA), Count(c.containedBy);
            && r[..a] == Outgoing(c.id, c.resolvesTo, ResolvesTo)
            && r[a..a + b] == Outgoing(c.id, c.isA, IsA)
            && r[a + b..a + b + d] == Outgoing(c.id, c.containedBy, ContainedBy)
            && r[a + b + d..] == (if c.contains.Some? then Incoming(c.id, c.contains.value) else [])
  {
    var o1 := Outgoing(c.id, c.resolvesTo, ResolvesTo);
    var o2 := Outgoing(c.id, c.isA, IsA);
    var o3 := Outgoing(c.id, c.containedBy, ContainedBy);
    var tail := if c.contains.Some? then Incoming(c.id, c.contains.value) else [];
    assert ConceptRows(c) == o1 + o2 + o3 + tail;
    ConcatSlices(o1, o2, o3, tail);
  }

  /** Four sequences laid end to end can be cut apart again. */
  lemma ConcatSlices<T>(x: seq<T>, y: seq<T>, z: seq<T>, w: seq<T>)
    ensures var s := x + y + z + w;
            && s[..|x|] == x && s[|x|..|x| + |y|] == y
            && s[|x| + |y|..|x| + |y| + |z|] == z && s[|x| + |y| + |z|..] == w
  {
  }

  /** A concept shaped like a learnt word: as written, its letter never
      reaches the rows, and its parent row appears twice, once reversed. */
  lemma LettersLostAsWritten()
    ensures var word := Concept(10, None, Some([Link(1500006, "1")]), Some([Link(1500007, "1")]), Some([Link(104, "1")]));
            && ConceptRowsAsWritten(word) == Ok([Relation(10, 1500006, "1", 2), Relation(10, 1500007, "1", 1),
                                                 Relation(1500007, 10, "1", 1)])
            && ConceptRows(word) == [Relation(10, 1500006, "1", 2), Relation(10, 1500007, "1", 1),
                                     Relation(104, 10, "1", 1)]
  {
    var word := Concept(10, None, Some([Link(1500006, "1")]), Some([Link(1500007, "1")]), Some([Link(104, "1")]));
    assert Outgoing(10, word.resolvesTo, ResolvesTo) == [];
    assert Outgoing(10, word.isA, IsA) == [Relation(10, 1500006, "1", 2)];
    assert Outgoing(10, word.containedBy, ContainedBy) == [Relation(10, 1500007, "1", 1)];
    assert Incoming(10, [Link(1500007, "1")]) == [Relation(1500007, 10, "1", 1)];
    assert Incoming(10, [Link(104, "1")]) == [Relation(104, 10, "1", 1)];
    assert ConceptRowsAsWritten(word) == Ok([] + [Relation(10, 1500006, "1", 2)] + [Relation(10, 1500007, "1", 1)]
                                            + [Relation(1500007, 10, "1", 1)]);
    assert [] + [Relation(10, 1500006, "1", 2)] + [Relation(10, 1500007, "1", 1)] + [Relation(1500007, 10, "1", 1)]
           == [Relation(10, 1500006, "1", 2), Relation(10, 1500007, "1", 1), Relation(1500007, 10, "1", 1)];
  }

  /** A concept with contents but no parents fails as written. */
  lemma ContainsWithoutParentsFails(id: int, items: seq<Link>)
    ensures ConceptRowsAsWritten(Concept(id, None, None, None, Some(items))).Err?
    ensures ConceptRows(Concept(id, None, None, None, Some(items))) == Incoming(id, items)
  {
  }

  /** The rows of all concepts, concept by concept: the first concept's rows
      come first, and every row is of one of the three types. */
  function Rows(concepts: seq<Concept>): (r: seq<Relation>)
    ensures |concepts| > 0 ==> ConceptRows(concepts[0]) <= r
    ensures forall k :: 0 <= k < |r| ==> r[k].kind in {ResolvesTo, IsA, ContainedBy}
    decreases |concepts|
  {
    if |concepts| == 0 then []
    else
      var head, tail := ConceptRows(concepts[0]), Rows(concepts[1..]);
      assert forall k :: |head| <= k < |head| + |tail| ==> (head + tail)[k] == tail[k - |head|];
      head + tail
  }

  /** Learning two batches yields the rows of the first batch, then those of the second. */
  lemma {:induction false} RowsAppend(xs: seq<Concept>, ys: seq<Concept>)
    ensures Rows(xs + ys) == Rows(xs) + Rows(ys)
    decreases |xs|
  {
    if |xs| > 0 {
      assert (xs + ys)[1..] == xs[1..] + ys;
      RowsAppend(xs[1..], ys);
    } else {
      assert xs + ys == ys;
    }
  }

  /** Every contained item of every concept gets its containment row. */
  lemma {:induction false} RowsRecordContents(concepts: seq<Concept>, i: nat, k: nat)
    requires i < |concepts| && concepts[i].contains.Some? && k < |concepts[i].contains.value|
    ensures Relation(concepts[i].contains.value[k].target, concepts[i].id, concepts[i].contains.value[k].strength, ContainedBy)
            in Rows(concepts)
    decreases i
  {
    if i > 0 {
      RowsRecordContents(concepts[1..], i - 1, k);
    }
  }

  /** `inContext || 0`: an absent context is context 0. */
  function Context(inContext: Option<int>): (r: int)
    ensures inContext.None? ==> r == 0
    ensures inContext.Some? ==> r == inContext.value
  {
    match inContext
    case None => 0
    case Some(c) => c
  }

  /** One row as SQL tuple text: `(from, to, strength, type, context)`. */
  function Tuple(rel: Relation, context: int): (r: string)
    ensures |r| >= 2 && r[0] == '(' && r[|r| - 1] == ')'
  {
    "(" + Numbers.IntToString(rel.from) + ", " + Numbers.IntToString(rel.to) + ", " + rel.strength + ", "
    + Numbers.NatToString(rel.kind) + ", " + Numbers.IntToString(context) + ")"
  }

  /** The fields of a tuple: cutting its inside at commas gives back the
      two concepts, the strength, the type and the context, in that order,
      each after the blank that follows a comma. */
  lemma TupleFields(rel: Relation, context: int)
    requires ',' !in rel.strength
    ensures var r := Tuple(rel, context);
            Strings.Split(r[1..|r| - 1], ',') == [Numbers.IntToString(rel.from), " " + Numbers.IntToString(rel.to),
                                                  " " + rel.strength, " " + Numbers.NatToString(rel.kind),
                                                  " " + Numbers.IntToString(context)]
  {
    var f0, f1, f2 := Numbers.IntToString(rel.from), " " + Numbers.IntToString(rel.to), " " + rel.strength;
    var f3, f4 := " " + Numbers.NatToString(rel.kind), " " + Numbers.IntToString(context);
    NoCommaInNumber(rel.from);
    NoCommaInNumber(rel.to);
    NoCommaInNumber(rel.kind);
    NoCommaInNumber(context);
    SplitFive(f0, f1, f2, f3, f4);
    TupleInside(rel, context);
  }

  /** Inside its parentheses a tuple is its five fields joined by commas. */
  lemma TupleInside(rel: Relation, context: int)
    ensures var r := Tuple(rel, context);
            r[1..|r| - 1] == Numbers.IntToString(rel.from) + "," + (" " + Numbers.IntToString(rel.to)) + ","
                             + (" " + rel.strength) + "," + (" " + Numbers.NatToString(rel.kind)) + ","
                             + (" " + Numbers.IntToString(context))
  {
    var a, b, c := Numbers.IntToString(rel.from), Numbers.IntToString(rel.to), rel.strength;
    var d, e := Numbers.NatToString(rel.kind), Numbers.IntToString(context);
    FieldsInside(a, b, c, d, e);
  }

  /** The same for any five field texts. */
  lemma FieldsInside(a: string, b: string, c: string, d: string, e: string)
    ensures var r := "(" + a + ", " + b + ", " + c + ", " + d + ", " + e + ")";
            r[1..|r| - 1] == a + "," + (" " + b) + "," + (" " + c) + "," + (" " + d) + "," + (" " + e)
  {
    var inside := a + ", " + b + ", " + c + ", " + d + ", " + e;
    assert "(" + a + ", " + b + ", " + c + ", " + d + ", " + e + ")" == "(" + inside + ")";
    Parenthesised(inside);
    CommaBlank(a, b, c, d, e);
  }

  /** What lies between an added pair of parentheses is the text itself. */
  lemma Parenthesised(s: string)
    ensures var r := "(" + s + ")"; r[1..|r| - 1] == s
  {
  }

  /** `", "` between pieces is a comma, then a blank in front of the next piece. */
  lemma CommaBlank(a: string, b: string, c: string, d: string, e: string)
    ensures a + ", " + b + ", " + c + ", " + d + ", " + e
            == a + "," + (" " + b) + "," + (" " + c) + "," + (" " + d) + "," + (" " + e)
  {
    var cb := ", ";
    assert cb == "," + " ";
    var s1 := a + cb + b;
    assert s1 == a + "," + (" " + b);
    var s2 := s1 + cb + c;
    assert s2 == s1 + "," + (" " + c);
    var s3 := s2 + cb + d;
    assert s3 == s2 + "," + (" " + d);
    assert s3 + cb + e == s3 + "," + (" " + e);
  }

  /** Five comma-free fields joined by commas split back into those fields. */
  lemma SplitFive(f0: string, f1: string, f2: string, f3: string, f4: string)
    requires ',' !in f0 && ',' !in f1 && ',' !in f2 && ',' !in f3 && ',' !in f4
    ensures Strings.Split(f0 + "," + f1 + "," + f2 + "," + f3 + "," + f4, ',') == [f0, f1, f2, f3, f4]
  {
    var fields := [f0, f1, f2, f3, f4];
    FiveJoined(f0, f1, f2, f3, f4);
    Strings.JoinSplit(fields, ',');
  }

  /** Five fields joined by commas, written out. */
  lemma FiveJoined(f0: string, f1: string, f2: string, f3: string, f4: string)
    ensures Strings.Join([f0, f1, f2, f3, f4], ",") == f0 + "," + f1 + "," + f2 + "," + f3 + "," + f4
  {
    var c := ",";
    var j1 := Strings.Join([f3, f4], c);
    assert j1 == f3 + c + f4 by { Strings.JoinCons(f3, [f4], c); }
    var j2 := Strings.Join([f2, f3, f4], c);
    assert j2 == f2 + c + j1 by { Strings.JoinCons(f2, [f3, f4], c); }
    var j3 := Strings.Join([f1, f2, f3, f4], c);
    assert j3 == f1 + c + j2 by { Strings.JoinCons(f1, [f2, f3, f4], c); }
    var j4 := Strings.Join([f0, f1, f2, f3, f4], c);
    assert j4 == f0 + c + j3 by { Strings.JoinCons(f0, [f1, f2, f3, f4], c); }
  }

  /** A printed integer is digits after an optional minus sign. */
  lemma NoCommaInNumber(i: int)
    ensures ',' !in Numbers.IntToString(i)
  {
    var s := Numbers.IntToString(i);
    if i < 0 {
      assert s == "-" + Numbers.NatToString(-i);
      assert forall k :: 1 <= k < |s| ==> s[k] == Numbers.NatToString(-i)[k - 1];
    }
  }

  function Tuples(rows: seq<Relation>, context: int): (r: seq<string>)
    ensures |r| == |rows|
    ensures forall k :: 0 <= k < |rows| ==> r[k] == Tuple(rows[k], context)
  {
    seq(|rows|, k requires 0 <= k < |rows| => Tuple(rows[k], context))
  }

  /** One more row: its tuple joins the text after a comma, or alone when the text is empty. */
  lemma TuplesStep(rows: seq<Relation>, context: int, i: nat)
    requires i < |rows|
    ensures Tuples(rows[..i + 1], context) == Tuples(rows[..i], context) + [Tuple(rows[i], context)]
    ensures i == 0 ==> Strings.Join(Tuples(rows[..i + 1], context), ",") == Tuple(rows[i], context)
    ensures i > 0 ==> Strings.Join(Tuples(rows[..i + 1], context), ",")
                      == Strings.Join(Tuples(rows[..i], context), ",") + "," + Tuple(rows[i], context)
  {
    TuplesSnoc(rows, context, i);
    JoinOneMore(Tuples(rows[..i], context), Tuple(rows[i], context));
  }

  lemma TuplesSnoc(rows: seq<Relation>, context: int, i: nat)
    requires i < |rows|
    ensures Tuples(rows[..i + 1], context) == Tuples(rows[..i], context) + [Tuple(rows[i], context)]
  {
    assert rows[..i + 1] == rows[..i] + [rows[i]];
    TuplesAppend(rows[..i], rows[i], context);
  }

  lemma TuplesAppend(rows: seq<Relation>, row: Relation, context: int)
    ensures Tuples(rows + [row], context) == Tuples(rows, context) + [Tuple(row, context)]
  {
    var a := Tuples(rows + [row], context);
    var b := Tuples(rows, context) + [Tuple(row, context)];
    forall k | 0 <= k < |a|
      ensures a[k] == b[k]
    {
      if k < |rows| {
        assert (rows + [row])[k] == rows[k];
      } else {
        assert (rows + [row])[k] == row;
      }
    }
  }

  /** Joining with commas: a first piece stands alone, a later one follows a comma. */
  lemma JoinOneMore(prefix: seq<string>, x: string)
    ensures |prefix| == 0 ==> Strings.Join(prefix + [x], ",") == x
    ensures |prefix| > 0 ==> Strings.Join(prefix + [x], ",") == Strings.Join(prefix, ",") + "," + x
  {
    if |prefix| > 0 {
      Strings.JoinSnoc(prefix, x, ",");
    } else {
      assert prefix + [x] == [x];
    }
  }

  /** The `values` text, built as `learn` builds it: a comma before every
      tuple but the first. */
  method RelationsText(rows: seq<Relation>, context: int) returns (relations: string)
    ensures relations == Strings.Join(Tuples(rows, context), ",")
    ensures relations == "" <==> |rows| == 0
  {
    relations := "";
    var i := 0;
    while i < |rows|
      invariant 0 <= i <= |rows|
      invariant relations == Strings.Join(Tuples(rows[..i], context), ",")
      invariant relations == "" <==> i == 0
    {
      var tuple := Tuple(rows[i], context);
      TuplesStep(rows, context, i);
      if relations != "" {
        relations := relations + ",";
      }
      relations := relations + tuple;
      i := i + 1;
    }
    assert rows[..i] == rows;
  }

  const InsertPrefix := "insert into ai_relations (`from_concept`, `to_concept`, `strength`, `type`, `context`) values "

  /** The statement `learn(concepts, inContext)` sends to the database. */
  method Learn(concepts: seq<Concept>, inContext: Option<int>) returns (query: string)
    ensures query == InsertPrefix + Strings.Join(Tuples(Rows(concepts), Context(inContext)), ",")
    ensures |query| > |InsertPrefix| <==> |Rows(concepts)| > 0
  {
    var relations := RelationsText(Rows(concepts), Context(inContext));
    query := InsertPrefix + relations;
  }

  /** The insert's callback: a failed insert is logged and ignored; a
      successful one reaches `cosole.log`, which throws. */
  function AfterInsert(insertFailed: bool): (r: Result<(), LearnError>)
    ensures r.Ok? <==> insertFailed
    ensures r.Err? ==> r.error == CosoleNotDefined
  {
    if insertFailed then Ok(()) else Err(CosoleNotDefined)
  }

  /** The concept every learnt word is a variant of (`is`). */
  const WordKind := 1500006
  /** The concept that contains every learnt word (`containedBy`). */
  const WordParent := 1500007

  /** The concept `learnEnglishWords` makes of one word: each letter, by its
      character code, is one of its contents. */
  function WordConcept(word: string, id: int, letterStrength: string): (c: Concept)
    ensures c.id == id && c.resolvesTo.None?
    ensures c.isA == Some([Link(WordKind, "1")]) && c.containedBy == Some([Link(WordParent, "1")])
    ensures c.contains.Some? && |c.contains.value| == |word|
    ensures forall i :: 0 <= i < |word| ==> c.contains.value[i] == Link(word[i] as int, letterStrength)
  {
    Concept(id, None, Some([Link(WordKind, "1")]), Some([Link(WordParent, "1")]),
            Some(seq(|word|, i requires 0 <= i < |word| => Link(word[i] as int, letterStrength))))
  }

  /** The concepts of a list of words: consecutive ids from the first one,
      each a variant of the word concept inside the word parent, holding its
      letters in order with a strength that depends on the word's length. */
  function WordConcepts(words: seq<string>, firstId: int, letterStrength: nat -> string): (r: seq<Concept>)
    ensures |r| == |words|
    ensures forall k :: 0 <= k < |r| ==>
              && r[k].id == firstId + k && r[k].resolvesTo.None?
              && r[k].isA == Some([Link(WordKind, "1")]) && r[k].containedBy == Some([Link(WordParent, "1")])
              && r[k].contains.Some? && |r[k].contains.value| == |words[k]|
    ensures forall k, i :: 0 <= k < |r| && 0 <= i < |words[k]| ==>
              r[k].contains.value[i] == Link(words[k][i] as int, letterStrength(|words[k]|))
  {
    var r := seq(|words|, k requires 0 <= k < |words| => WordConcept(words[k], firstId + k, letterStrength(|words[k]|)));
    assert forall k :: 0 <= k < |r| ==> r[k] == WordConcept(words[k], firstId + k, letterStrength(|words[k]|));
    r
  }

  /** Every letter of every word is recorded as contained in its word. */
  lemma WordLettersRecorded(words: seq<string>, firstId: int, letterStrength: nat -> string, k: nat, i: nat)
    requires k < |words| && i < |words[k]|
    ensures Relation(words[k][i] as int, firstId + k, letterStrength(|words[k]|), ContainedBy)
            in Rows(WordConcepts(words, firstId, letterStrength))
  {
    var cs := WordConcepts(words, firstId, letterStrength);
    var letter := cs[k].contains.value[i];
    assert letter == Link(words[k][i] as int, letterStrength(|words[k]|));
    assert cs[k].id == firstId + k;
    RowsRecordContents(cs, k, i);
  }

  /** `learnEnglishWords`: the words' concepts are learnt in context 0, then
      the call that follows throws on the undefined `concept`. */
  method LearnEnglishWords(words: seq<string>, firstId: int, letterStrength: nat -> string)
    returns (query: string, r: Result<(), LearnError>)
    ensures query == InsertPrefix + Strings.Join(Tuples(Rows(WordConcepts(words, firstId, letterStrength)), 0), ",")
    ensures |query| > |InsertPrefix| <==> |words| > 0
    ensures r == Err(ConceptNotDefined)
  {
    var concepts := WordConcepts(words, firstId, letterStrength);
    if |words| > 0 {
      assert |ConceptRows(concepts[0])| >= 1;
    }
    query := Learn(WordConcepts(words, firstId, letterStrength), None);
    r := Err(ConceptNotDefined);
  }
}

=== FILE: numbers.dfy ===
/**
 Decimal text for integers, as JavaScript's string concatenation prints
 them, and `parseInt(s)` with its default radix.
 */
module Numbers {
  import Strings

  predicate IsDigit(c: char)
  {
    '0' <= c <= '9'
  }

  function DigitChar(d: nat): (c: char)
    requires d < 10
    ensures IsDigit(c)
  {
    ('0' as int + d) as char
  }

  function DigitValue(c: char): (d: nat)
    requires IsDigit(c)
    ensures d < 10
  {
    c as int - '0' as int
  }

  /** `'' + n` for a non-negative integer: shortest decimal form. */
  function NatToString(n: nat): (s: string)
    ensures |s| >= 1
    ensures forall k :: 0 <= k < |s| ==> IsDigit(s[k])
    ensures |s| > 1 ==> s[0] != '0'
  {
    if n < 10 then [DigitChar(n)] else NatToString(n / 10) + [DigitChar(n % 10)]
  }

  /** `'' + i` for any integer. */
  function IntToString(i: int): (s: string)
    ensures |s| >= 1
    ensures i >= 0 ==> s == NatToString(i)
    ensures i < 0 ==> s == "-" + NatToString(-i)
  {
    if i >= 0 then NatToString(i) else "-" + NatToString(-i)
  }

  /** The value of a run of decimal digits, most significant first. */
  function DigitsValue(ds: string): nat
    requires forall k :: 0 <= k < |ds| ==> IsDigit(ds[k])
  {
    if |ds| == 0 then 0 else 10 * DigitsValue(ds[..|ds| - 1]) + DigitValue(ds[|ds| - 1])
  }

  /** Length of the longest prefix of `s` made of digits. */
  function DigitRun(s: string): (n: nat)
    ensures n <= |s|
    ensures forall k :: 0 <= k < n ==> IsDigit(s[k])
    ensures n < |s| ==> !IsDigit(s[n])
  {
    if |s| > 0 && IsDigit(s[0]) then 1 + DigitRun(s[1..]) else 0
  }

  predicate IsHexDigit(c: char)
  {
    IsDigit(c) || 'a' <= c <= 'f' || 'A' <= c <= 'F'
  }

  function HexDigitValue(c: char): (d: nat)
    requires IsHexDigit(c)
    ensures d < 16
    ensures IsDigit(c) ==> d == DigitValue(c)
  {
    if IsDigit(c) then DigitValue(c)
    else if 'a' <= c <= 'f' then c as int - 'a' as int + 10
    else c as int - 'A' as int + 10
  }

  /** The value of a run of hexadecimal digits, most significant first. */
  function HexValue(ds: string): nat
    requires forall k :: 0 <= k < |ds| ==> IsHexDigit(ds[k])
  {
    if |ds| == 0 then 0 else 16 * HexValue(ds[..|ds| - 1]) + HexDigitValue(ds[|ds| - 1])
  }

  /** Length of the longest prefix of `s` made of hexadecimal digits. */
  function HexRun(s: string): (n: nat)
    ensures n <= |s|
    ensures forall k :: 0 <= k < n ==> IsHexDigit(s[k])
    ensures n < |s| ==> !IsHexDigit(s[n])
  {
    if |s| > 0 && IsHexDigit(s[0]) then 1 + HexRun(s[1..]) else 0
  }

  datatype ParsedInt = NaN | Int(value: int)

  /** Text that `parseInt` reads in base 16: `0x` or `0X` in front. */
  predicate HexPrefixed(u: string)
  {
    |u| >= 2 && u[0] == '0' && (u[1] == 'x' || u[1] == 'X')
  }

  function Signed(negative: bool, v: nat): ParsedInt
  {
    if negative then Int(0 - v) else Int(v)
  }

  /** The digits `parseInt` reads once blanks and sign are gone: after a
      `0x` or `0X` prefix the longest run of hexadecimal digits, otherwise
      the longest run of decimal digits; `NaN` when that run is empty. */
  function ReadDigits(u: string, negative: bool): (r: ParsedInt)
    ensures r.Int? ==> |u| > 0 && IsDigit(u[0])
    ensures r.Int? && r.value < 0 ==> negative
  {
    if HexPrefixed(u) then
      var h := u[2..];
      var n := HexRun(h);
      if n == 0 then NaN else Signed(negative, HexValue(h[..n]))
    else
      var n := DigitRun(u);
      if n == 0 then NaN else Signed(negative, DigitsValue(u[..n]))
  }

  /** `parseInt(s)` with no radix: skip leading blanks, read an optional
      sign, then the digits. A number is read only from text that holds a
      digit, and only a minus sign makes it negative. */
  function ParseInt(s: string): (r: ParsedInt)
    ensures r.Int? ==> exists k :: 0 <= k < |s| && IsDigit(s[k])
    ensures r.Int? && r.value < 0 ==> '-' in s
  {
    var a := Strings.LeadingBlanks(s);
    var t := s[a..];
    var neg := |t| > 0 && t[0] == '-';
    var signed := |t| > 0 && (t[0] == '-' || t[0] == '+');
    var u := if signed then t[1..] else t;
    var b := if signed then a + 1 else a;
    assert u == s[b..];
    assert neg ==> s[a] == '-';
    var r := ReadDigits(u, neg);
    assert r.Int? ==> s[b] == u[0];
    r
  }

  /** Text that starts with neither a blank nor a sign is read from its first character. */
  lemma ParseIntUnsigned(s: string)
    requires |s| > 0 && !Strings.IsBlank(s[0]) && s[0] != '-' && s[0] != '+'
    ensures ParseInt(s) == ReadDigits(s, false)
  {
    assert s[0..] == s;
  }

  /** `parseInt` of `0x` and hexadecimal digits reads them in base 16. */
  lemma ParseIntHex(h: string)
    requires |h| > 0 && forall k :: 0 <= k < |h| ==> IsHexDigit(h[k])
    ensures ParseInt("0x" + h) == Int(HexValue(h))
  {
    var s := "0x" + h;
    ParseIntUnsigned(s);
    assert s[2..] == h;
    HexRunAll(h);
    assert h[..|h|] == h;
  }

  /** `parseInt("0x10")` is 16. */
  lemma ParseIntHexExample()
    ensures ParseInt("0x10") == Int(16)
  {
    ParseIntHex("10");
    assert "10"[..1] == "1";
    assert HexValue("10") == 16;
    assert "0x" + "10" == "0x10";
  }

  lemma {:induction false} HexRunAll(h: string)
    requires forall k :: 0 <= k < |h| ==> IsHexDigit(h[k])
    ensures HexRun(h) == |h|
  {
    if |h| > 0 {
      HexRunAll(h[1..]);
    }
  }

  /** Only zero prints with a leading `0`. */
  lemma LeadingZero(n: nat)
    ensures NatToString(n)[0] == '0' <==> n == 0
  {
  }

  lemma {:induction false} DigitsValueOfNat(n: nat)
    ensures DigitsValue(NatToString(n)) == n
  {
    if n >= 10 {
      var s := NatToString(n);
      DigitsValueOfNat(n / 10);
      assert s[..|s| - 1] == NatToString(n / 10);
    }
  }

  /** Reading back the printed form of a number gives the number, whatever
      non-digit text follows it: `parseInt('' + n + rest) == n`. */
  lemma ParseIntOfNat(n: nat, rest: string)
    requires |rest| == 0 || (!IsDigit(rest[0]) && (n != 0 || (rest[0] != 'x' && rest[0] != 'X')))
    ensures ParseInt(NatToString(n) + rest) == Int(n)
  {
    var d := NatToString(n);
    var s := d + rest;
    assert s[0] == d[0];
    LeadingZero(n);
    ParseIntUnsigned(s);
    assert !HexPrefixed(s) by {
      if |s| >= 2 && s[0] == '0' {
        assert |d| == 1;
        assert s[1] == rest[0];
      }
    }
    DigitRunOf(d, rest);
    DigitsValueOfNat(n);
    assert s[..|d|] == d;
  }

  /** The digit run of digits followed by a non-digit is exactly those digits. */
  lemma {:induction false} DigitRunOf(d: string, rest: string)
    requires forall k :: 0 <= k < |d| ==> IsDigit(d[k])
    requires |rest| == 0 || !IsDigit(rest[0])
    ensures DigitRun(d + rest) == |d|
  {
    if |d| > 0 {
      assert (d + rest)[1..] == d[1..] + rest;
      DigitRunOf(d[1..], rest);
    } else {
      assert d + rest == rest;
    }
  }

  /** The same for negative numbers and their leading minus sign. */
  lemma ParseIntOfInt(i: int, rest: string)
    requires |rest| == 0 || (!IsDigit(rest[0]) && (i != 0 || (rest[0] != 'x' && rest[0] != 'X')))
    ensures ParseInt(IntToString(i) + rest) == Int(i)
  {
    if i >= 0 {
      ParseIntOfNat(i, rest);
    } else {
      var d := NatToString(-i);
      assert IntToString(i) + rest == "-" + (d + rest);
      LeadingZero(-i);
      ParseIntOfNegative(d, rest);
      DigitsValueOfNat(-i);
    }
  }

  /** A minus sign, digits and a non-digit: the negated value of the digits. */
  lemma ParseIntOfNegative(d: string, rest: string)
    requires |d| > 0 && d[0] != '0' && forall k :: 0 <= k < |d| ==> IsDigit(d[k])
    requires |rest| == 0 || !IsDigit(rest[0])
    ensures ParseInt("-" + (d + rest)) == Int(0 - DigitsValue(d) as int)
  {
    NoLeadingBlanks("-" + (d + rest));
    ParseIntAfterMinus(d, rest);
  }

  lemma ParseIntAfterMinus(d: string, rest: string)
    requires |d| > 0 && d[0] != '0' && forall k :: 0 <= k < |d| ==> IsDigit(d[k])
    requires |rest| == 0 || !IsDigit(rest[0])
    requires Strings.LeadingBlanks("-" + (d + rest)) == 0
    ensures ParseInt("-" + (d + rest)) == Int(0 - DigitsValue(d) as int)
  {
    var s := "-" + (d + rest);
    var u := d + rest;
    assert s[0..] == s;
    assert s[1..] == u;
    DigitRunOf(d, rest);
    assert u[..|d|] == d;
  }

  lemma NoLeadingBlanks(s: string)
    requires |s| > 0 && s[0] == '-'
    ensures Strings.LeadingBlanks(s) == 0
  {
    assert !Strings.IsBlank(s[0]);
  }

  /** Text that does not begin (after blanks and a sign) with a digit is not a number. */
  lemma ParseIntNaN(s: string)
    requires forall k :: 0 <= k < |s| ==> !IsDigit(s[k])
    ensures ParseInt(s) == NaN
  {
  }
}

=== FILE: pipeline.dfy ===
/**
 A pipeline run as the source writes it: apply the configuration override,
 then call the stages one at a time in list order, reporting each to
 `onRunStage` first. The run rejects with the first synchronous throw or
 rejection. A stage that resolves to a truthy value ends the series early,
 because that value reaches the series as its error argument, and the
 final callback then resolves the run anyway.
 */
module Pipeline {
  import Js
  import opened Registry
  import opened Wrappers

  /** The per-stage configuration patch of `config.stages`; `None` when the
      override or its `stages` field is absent. */
  type StagesPatch = Option<map<string, Js.Fields>>

  /** The stage at `i` is the one `overrideConfig` merges into for its name:
      the first stage with that name, whose name the patch mentions. */
  predicate Merges(s: Stages, patch: map<string, Js.Fields>, i: int)
    requires 0 <= i < |s|
  {
    s[i].name in patch && IndexOf(s, s[i].name) == i
  }

  /** `overrideConfig(config)`: shallow-merge `config.stages[name]` into the
      configuration of the stage `getStage(name)` finds; names that match no
      stage are ignored. */
  function OverrideConfig(s: Stages, patch: StagesPatch): (r: Stages)
    ensures |r| == |s|
    ensures forall i :: 0 <= i < |s| ==> r[i].name == s[i].name && r[i].impl == s[i].impl
    ensures patch.None? ==> r == s
    ensures patch.Some? ==> forall i :: 0 <= i < |s| ==>
      r[i].config == (if Merges(s, patch.value, i) then Js.Assign(s[i].config, patch.value[s[i].name]) else s[i].config)
  {
    match patch
    case None => s
    case Some(p) =>
      seq(|s|, i requires 0 <= i < |s| =>
        if Merges(s, p, i) then s[i].(config := Js.Assign(s[i].config, p[s[i].name])) else s[i])
  }

  /** A patch that names no registered stage changes nothing. */
  lemma OverrideUnknownIsNoop(s: Stages, p: map<string, Js.Fields>)
    requires forall name :: name in p ==> !HasStage(s, name)
    ensures OverrideConfig(s, Some(p)) == s
  {
    var r := OverrideConfig(s, Some(p));
    forall i | 0 <= i < |s| ensures r[i] == s[i] {
      assert !Merges(s, p, i);
    }
  }

  /** On a registry without duplicates every stage the patch names is merged. */
  lemma OverrideUnique(s: Stages, p: map<string, Js.Fields>, i: int)
    requires UniqueNames(s) && 0 <= i < |s|
    ensures s[i].name in p ==> OverrideConfig(s, Some(p))[i].config == Js.Assign(s[i].config, p[s[i].name])
    ensures s[i].name !in p ==> OverrideConfig(s, Some(p))[i] == s[i]
  {
    var k := IndexOf(s, s[i].name);
    assert k == i;
  }

  /** Stages with the same names at the same places have the same lookups. */
  lemma {:induction false} SameNamesSameIndex(s: Stages, t: Stages, name: string)
    requires |s| == |t|
    requires forall i :: 0 <= i < |s| ==> s[i].name == t[i].name
    ensures IndexOf(s, name) == IndexOf(t, name)
  {
    if |s| > 0 && s[0].name != name {
      SameNamesSameIndex(s[1..], t[1..], name);
    }
  }

  /** The loop state after the first `n` keys: the stages those keys name
      are merged, the others untouched. */
  predicate MergedUpTo(s: Stages, p: map<string, Js.Fields>, keys: seq<string>, n: nat, r: Stages)
    requires n <= |keys|
  {
    && |r| == |s|
    && (forall i :: 0 <= i < |s| ==> r[i].name == s[i].name && r[i].impl == s[i].impl)
    && (forall i :: 0 <= i < |s| ==>
          r[i].config == (if Merges(s, p, i) && s[i].name in keys[..n] then Js.Assign(s[i].config, p[s[i].name]) else s[i].config))
  }

  /** One turn of the loop: merge into the stage `getStage` finds for the key. */
  function MergeKey(r: Stages, name: string, fields: Js.Fields): (r2: Stages)
    ensures |r2| == |r|
  {
    var found := GetStage(r, name);
    if found.Some? then r[found.value.index := r[found.value.index].(config := Js.Assign(r[found.value.index].config, fields))]
    else r
  }

  lemma MergeKeyStep(s: Stages, p: map<string, Js.Fields>, keys: seq<string>, n: nat, r: Stages)
    requires n < |keys| && keys[n] in p
    requires forall a, b :: 0 <= a < b < |keys| ==> keys[a] != keys[b]
    requires MergedUpTo(s, p, keys, n, r)
    ensures MergedUpTo(s, p, keys, n + 1, MergeKey(r, keys[n], p[keys[n]]))
  {
    var name := keys[n];
    var r2 := MergeKey(r, name, p[name]);
    SameNamesSameIndex(r, s, name);
    var at := IndexOf(s, name);
    assert name !in keys[..n];
    assert keys[..n + 1] == keys[..n] + [name];
    forall j | 0 <= j < |s|
      ensures r2[j].name == s[j].name && r2[j].impl == s[j].impl
      ensures r2[j].config == (if Merges(s, p, j) && s[j].name in keys[..n + 1] then Js.Assign(s[j].config, p[s[j].name]) else s[j].config)
    {
      if j == at {
        assert Merges(s, p, j);
        assert r2[j].config == Js.Assign(r[j].config, p[name]);
      } else {
        assert r2[j] == r[j];
        assert s[j].name == name ==> !Merges(s, p, j);
      }
    }
  }

  /** `overrideConfig` as the source runs it: a loop over the patch's keys in
      enumeration order, each finding its stage with `getStage` and merging
      into it in place. The order of the keys does not matter. */
  method OverrideConfigLoop(s: Stages, p: map<string, Js.Fields>, keys: seq<string>) returns (r: Stages)
    requires forall k :: k in p <==> k in keys
    requires forall a, b :: 0 <= a < b < |keys| ==> keys[a] != keys[b]
    ensures r == OverrideConfig(s, Some(p))
  {
    r := s;
    var n := 0;
    while n < |keys|
      invariant 0 <= n <= |keys|
      invariant MergedUpTo(s, p, keys, n, r)
    {
      MergeKeyStep(s, p, keys, n, r);
      r := MergeKey(r, keys[n], p[keys[n]]);
      n := n + 1;
    }
    assert keys[..n] == keys;
    var o := OverrideConfig(s, Some(p));
    assert forall i :: 0 <= i < |s| ==> r[i] == o[i];
  }

  /** What one stage's implementation, or a pipeline definition, does when
      called: return or resolve to a value, reject, throw synchronously, or
      return a promise that never settles. */
  datatype Outcome =
    | Settles(value: Js.Value)
    | Rejects(error: Js.Value)
    | Throws(error: Js.Value)
    | Pending

  /** A pipeline definition called on the pipeline: the stages registered by
      the time it returns, throws or settles, and how it ended. Stages it
      registered before failing stay registered. */
  datatype Definition = Definition(stages: Stages, outcome: Outcome)

  /** `import(definition, config)`: let the definition register its stages;
      only once its result has resolved is the configuration override
      applied. A definition that throws, rejects or never settles leaves its
      stages without the override, and `import` throws, rejects or hangs
      with it. */
  function Import(s: Stages, define: Stages -> Definition, patch: StagesPatch): (r: Definition)
    ensures r.outcome == define(s).outcome
    ensures |r.stages| == |define(s).stages|
    ensures forall i :: 0 <= i < |r.stages| ==> r.stages[i].name == define(s).stages[i].name
    ensures !r.outcome.Settles? ==> r.stages == define(s).stages
  {
    var d := define(s);
    if d.outcome.Settles? then Definition(OverrideConfig(d.stages, patch), d.outcome) else d
  }

  /** After a definition that resolves, every stage the patch names carries
      its patch and every other stage is as the definition left it; after
      one that fails, no stage carries the patch. */
  lemma ImportOverrides(s: Stages, define: Stages -> Definition, p: map<string, Js.Fields>, i: nat)
    requires UniqueNames(define(s).stages) && i < |define(s).stages|
    ensures var d, r := define(s), Import(s, define, Some(p));
            d.outcome.Settles? && d.stages[i].name in p ==>
              r.stages[i].config == Js.Assign(d.stages[i].config, p[d.stages[i].name])
    ensures var d, r := define(s), Import(s, define, Some(p));
            !d.outcome.Settles? || d.stages[i].name !in p ==> r.stages[i] == d.stages[i]
  {
    OverrideUnique(define(s).stages, p, i);
  }

  /** Whether the series goes on to the next stage after this outcome: only
      a falsy resolved value lets it continue. */
  predicate Continues(o: Outcome)
  {
    o.Settles? && !Js.Truthy(o.value)
  }

  /** One `onRunStage(stage, index, count)` notification, immediately
      followed by the call of the stage's implementation with its config. */
  datatype Call = Call(stage: Stage, index: nat, total: nat)

  /** How the run's promise settles. `StoppedEarly` resolves like
      `Completed`, but the stages after `at` never ran. `Stalled` neither
      resolves nor rejects: stage `at` never settled, so neither the series
      callback nor `reject` is ever called. */
  datatype Settlement =
    | Completed
    | StoppedEarly(at: nat, value: Js.Value)
    | Rejected(at: nat, error: Js.Value)
    | Stalled(at: nat)

  datatype Series = Series(settlement: Settlement, calls: seq<Call>)

  /** The stages are called strictly in order from `i`; the series continues
      past a stage only when it resolved to a falsy value. */
  function RunSeries(stages: Stages, behave: (nat, Stage) -> Outcome, i: nat): (r: Series)
    requires i <= |stages|
    ensures i + |r.calls| <= |stages|
    ensures forall k :: 0 <= k < |r.calls| ==> r.calls[k] == Call(stages[i + k], i + k, |stages|)
    ensures forall j :: i <= j < i + |r.calls| - 1 ==> Continues(behave(j, stages[j]))
    ensures r.settlement.Completed? ==> i + |r.calls| == |stages|
    ensures r.settlement.Completed? <==> forall j :: i <= j < |stages| ==> Continues(behave(j, stages[j]))
    ensures r.settlement.Rejected? ==>
      (&& |r.calls| > 0 && r.settlement.at == i + |r.calls| - 1
       && var o := behave(r.settlement.at, stages[r.settlement.at]); (o.Rejects? || o.Throws?) && o.error == r.settlement.error)
    ensures r.settlement.Stalled? ==>
      |r.calls| > 0 && r.settlement.at == i + |r.calls| - 1 && behave(r.settlement.at, stages[r.settlement.at]).Pending?
    ensures r.settlement.StoppedEarly? ==>
      (&& |r.calls| > 0 && r.settlement.at == i + |r.calls| - 1
       && behave(r.settlement.at, stages[r.settlement.at]) == Settles(r.settlement.value)
       && Js.Truthy(r.settlement.value))
    decreases |stages| - i
  {
    if i == |stages| then Series(Completed, [])
    else
      var call := Call(stages[i], i, |stages|);
      match behave(i, stages[i])
      case Throws(e) => Series(Rejected(i, e), [call])
      case Rejects(e) => Series(Rejected(i, e), [call])
      case Pending => Series(Stalled(i), [call])
      case Settles(v) =>
        if Js.Truthy(v) then Series(StoppedEarly(i, v), [call])
        else
          var rest := RunSeries(stages, behave, i + 1);
          Series(rest.settlement, [call] + rest.calls)
  }

  datatype RunResult = RunResult(stages: Stages, series: Series)

  /** `pipeline.run(settingsOverride)`: override first, then run the series
      over the overridden stages. */
  function Run(stages: Stages, patch: StagesPatch, behave: (nat, Stage) -> Outcome): (r: RunResult)
    ensures r.stages == OverrideConfig(stages, patch)
    ensures |r.series.calls| <= |stages|
    ensures forall k :: 0 <= k < |r.series.calls| ==> r.series.calls[k] == Call(r.stages[k], k, |stages|)
  {
    var s := OverrideConfig(stages, patch);
    RunResult(s, RunSeries(s, behave, 0))
  }

  /** Past stages that all continued, the run rejects at stage `k` exactly
      when that stage throws or rejects, and stalls there exactly when that
      stage never settles; either way nothing after it runs. */
  lemma {:induction false} RunRejectsIff(stages: Stages, behave: (nat, Stage) -> Outcome, i: nat, k: nat)
    requires i <= k < |stages|
    requires forall j :: i <= j < k ==> Continues(behave(j, stages[j]))
    ensures var r := RunSeries(stages, behave, i);
      (behave(k, stages[k]).Rejects? || behave(k, stages[k]).Throws?) <==> r.settlement.Rejected? && r.settlement.at == k
    ensures var r := RunSeries(stages, behave, i);
      behave(k, stages[k]).Pending? <==> r.settlement.Stalled? && r.settlement.at == k
    ensures var r := RunSeries(stages, behave, i);
      !Continues(behave(k, stages[k])) ==> |r.calls| == k - i + 1
    decreases k - i
  {
    if i < k {
      RunRejectsIff(stages, behave, i + 1, k);
    }
  }

  /** When every stage resolves to a falsy value, all of them run, in order,
      and the run resolves. */
  lemma {:induction false} RunAllContinue(stages: Stages, behave: (nat, Stage) -> Outcome, i: nat)
    requires i <= |stages|
    requires forall j :: i <= j < |stages| ==> Continues(behave(j, stages[j]))
    ensures RunSeries(stages, behave, i).settlement == Completed
    ensures |RunSeries(stages, behave, i).calls| == |stages| - i
    decreases |stages| - i
  {
    if i < |stages| {
      RunAllContinue(stages, behave, i + 1);
    }
  }

  /** How `app.pipeline.run` ends: the run itself, or the failure of the
      pipeline's definition, in which case no stage runs. */
  datatype ByIdResult = Ran(run: RunResult) | DefinitionFailed(outcome: Outcome)

  /** `app.pipeline.run(id, settingsOverride)`: a fresh, empty pipeline, the
      pipeline's definition, and, once that has resolved, `run` with the
      same override. A definition that throws makes the call throw; one
      that rejects makes it reject; one that never settles makes it hang. */
  function RunById(define: Stages -> Definition, patch: StagesPatch, behave: (nat, Stage) -> Outcome): (r: ByIdResult)
    ensures r.Ran? <==> define([]).outcome.Settles?
    ensures r.Ran? ==> r.run.stages == OverrideConfig(define([]).stages, patch)
    ensures r.Ran? ==> |r.run.series.calls| <= |define([]).stages|
    ensures r.DefinitionFailed? ==> r.outcome == define([]).outcome && !r.outcome.Settles?
  {
    var d := define([]);
    if d.outcome.Settles? then Ran(Run(d.stages, patch, behave)) else DefinitionFailed(d.outcome)
  }

  /** When the definition resolves, running by id is running the stages it
      registered; when it fails, not one stage is called. */
  lemma RunByIdIsRun(define: Stages -> Definition, patch: StagesPatch, behave: (nat, Stage) -> Outcome)
    ensures define([]).outcome.Settles? ==> RunById(define, patch, behave) == Ran(Run(define([]).stages, patch, behave))
    ensures !define([]).outcome.Settles? ==> RunById(define, patch, behave) == DefinitionFailed(define([]).outcome)
  {
  }
}

=== FILE: registry.dfy ===
/**
 The stage registry of a pipeline: an ordered list of named stages (the
 order is the order they run in) and the operations that look stages up,
 add, remove, replace and insert them, and merge configuration into them.
 The source keeps the list free of duplicate names; every operation here
 is shown to preserve that.
 */
module Registry {
  import Js
  import opened Wrappers

  /** One stage: its name, the implementation it runs (a stage file name or
      an inline function, kept abstract) and its configuration object. */
  datatype Stage = Stage(name: string, impl: string, config: Js.Fields)

  type Stages = seq<Stage>

  /** No two stages share a name. */
  predicate UniqueNames(s: Stages)
  {
    forall i, j :: 0 <= i < j < |s| ==> s[i].name != s[j].name
  }

  predicate HasStage(s: Stages, name: string)
  {
    exists i :: 0 <= i < |s| && s[i].name == name
  }

  /** Number of stages called `name`. */
  function Count(s: Stages, name: string): nat
  {
    if |s| == 0 then 0
    else (if s[|s| - 1].name == name then 1 else 0) + Count(s[..|s| - 1], name)
  }

  /** `indexOf(name)`: the index of the first stage called `name`, or -1. */
  function IndexOf(s: Stages, name: string): (r: int)
    ensures -1 <= r < |s|
    ensures r == -1 <==> !HasStage(s, name)
    ensures r >= 0 ==> s[r].name == name && forall j :: 0 <= j < r ==> s[j].name != name
  {
    if |s| == 0 then -1
    else if s[0].name == name then 0
    else
      var k := IndexOf(s[1..], name);
      assert forall j :: 1 <= j < |s| ==> s[j] == s[1..][j - 1];
      if k < 0 then -1 else k + 1
  }

  datatype Found = Found(index: nat, stage: Stage)

  /** `getStage(name)`: the first stage called `name` with its index, or nothing. */
  function GetStage(s: Stages, name: string): (r: Option<Found>)
    ensures r.None? <==> !HasStage(s, name)
    ensures r.Some? ==> r.value.index < |s| && r.value.stage == s[r.value.index]
    ensures r.Some? ==> r.value.stage.name == name
    ensures r.Some? ==> forall j :: 0 <= j < r.value.index ==> s[j].name != name
  {
    var i := IndexOf(s, name);
    if i < 0 then None else Some(Found(i, s[i]))
  }

  /** `createStage(name, methodOrFile, config)`: an absent (empty) method
      defaults to the stage's own name, an absent configuration to `{}`. */
  function CreateStage(name: string, impl: string, config: Option<Js.Fields>): (st: Stage)
    ensures st.name == name
    ensures impl != "" ==> st.impl == impl
    ensures impl == "" ==> st.impl == name
    ensures config.Some? ==> st.config == config.value
    ensures config.None? ==> st.config == map[]
  {
    Stage(name, if impl == "" then name else impl,
          match config case Some(c) => c case None => map[])
  }

  /** Result of `remove(name)`: whether a stage was removed, and the list after. */
  datatype Removal = Removal(removed: bool, stages: Stages)

  /** `remove(name)`: drops the first stage called `name` if there is one. */
  function Remove(s: Stages, name: string): (r: Removal)
    ensures r.removed <==> HasStage(s, name)
    ensures !r.removed ==> r.stages == s
    ensures r.removed ==> |r.stages| == |s| - 1
  {
    var i := IndexOf(s, name);
    if i < 0 then Removal(false, s) else Removal(true, s[..i] + s[i + 1..])
  }

  /** The stages other than `name`, in their order: what removal should leave
      when names are unique. */
  function Without(s: Stages, name: string): (r: Stages)
    ensures |r| <= |s|
    ensures !HasStage(r, name)
  {
    if |s| == 0 then []
    else if s[0].name == name then Without(s[1..], name)
    else [s[0]] + Without(s[1..], name)
  }

  lemma {:induction false} WithoutAbsent(s: Stages, name: string)
    requires !HasStage(s, name)
    ensures Without(s, name) == s
  {
    if |s| > 0 {
      assert !HasStage(s[1..], name) by {
        forall j | 0 <= j < |s[1..]| ensures s[1..][j].name != name {
          assert s[1..][j] == s[j + 1];
        }
      }
      WithoutAbsent(s[1..], name);
      assert s == [s[0]] + s[1..];
    }
  }

  /** On a registry without duplicates, removing a stage is filtering it out,
      so every other stage stays and keeps its relative order. */
  lemma {:induction false} RemoveIsWithout(s: Stages, name: string)
    requires UniqueNames(s)
    ensures Remove(s, name).stages == Without(s, name)
  {
    var i := IndexOf(s, name);
    if i < 0 {
      WithoutAbsent(s, name);
    } else {
      WithoutSplit(s, i, name);
    }
  }

  /** Helper for `RemoveIsWithout`: when the only stage called `name` sits at `i`. */
  lemma {:induction false} WithoutSplit(s: Stages, i: nat, name: string)
    requires UniqueNames(s)
    requires i < |s| && s[i].name == name
    ensures Without(s, name) == s[..i] + s[i + 1..]
    decreases i
  {
    TailUnique(s);
    if i == 0 {
      WithoutAbsent(s[1..], name);
    } else {
      assert s[1..][i - 1] == s[i];
      WithoutSplit(s[1..], i - 1, name);
      assert s[0].name != name;
      assert s[1..][..i - 1] + s[1..][i..] == s[1..i] + s[i + 1..];
      assert s[..i] + s[i + 1..] == [s[0]] + (s[1..i] + s[i + 1..]);
    }
  }

  /** Dropping the first stage keeps names unique, and the first name does
      not come back. */
  lemma TailUnique(s: Stages)
    requires UniqueNames(s) && |s| > 0
    ensures UniqueNames(s[1..]) && !HasStage(s[1..], s[0].name)
  {
    forall a, b | 0 <= a < b < |s[1..]| ensures s[1..][a].name != s[1..][b].name {
      assert s[1..][a] == s[a + 1] && s[1..][b] == s[b + 1];
    }
    forall j | 0 <= j < |s[1..]| ensures s[1..][j].name != s[0].name {
      assert s[1..][j] == s[j + 1];
    }
  }

  /** Removing the stage that was present leaves one fewer of that name. */
  lemma {:induction false} CountWithout(s: Stages, name: string)
    ensures Count(Without(s, name), name) == 0
  {
    NoStageNoCount(Without(s, name), name);
  }

  lemma {:induction false} NoStageNoCount(s: Stages, name: string)
    requires !HasStage(s, name)
    ensures Count(s, name) == 0
  {
    if |s| > 0 {
      var p := s[..|s| - 1];
      assert !HasStage(p, name) by {
        forall j | 0 <= j < |p| ensures p[j].name != name {
          assert p[j] == s[j];
        }
      }
      NoStageNoCount(p, name);
    }
  }

  /** `add(name, methodOrFile, config)`: remove any stage called `name`, then
      append the new one at the end. */
  function Add(s: Stages, name: string, impl: string, config: Option<Js.Fields>): (r: Stages)
    ensures |r| >= 1 && r[|r| - 1] == CreateStage(name, impl, config)
    ensures UniqueNames(s) ==> UniqueNames(r) && Count(r, name) == 1
    ensures UniqueNames(s) ==> r[..|r| - 1] == Without(s, name)
  {
    var st := CreateStage(name, impl, config);
    if UniqueNames(s) then AddFresh(s, st); Remove(s, name).stages + [st]
    else Remove(s, name).stages + [st]
  }

  /** What `Add` leaves on a registry without duplicates: the other stages
      in their order, then the new one, counted once. */
  lemma AddFresh(s: Stages, st: Stage)
    requires UniqueNames(s)
    ensures var r := Remove(s, st.name).stages + [st];
      UniqueNames(r) && Count(r, st.name) == 1 && r[..|r| - 1] == Without(s, st.name)
  {
    var w := Remove(s, st.name).stages;
    RemoveIsWithout(s, st.name);
    assert w == Without(s, st.name);
    AppendFresh(w, st);
  }

  /** Appending a stage whose name is not yet present keeps names unique,
      and the new name is then counted once. */
  lemma AppendFresh(s: Stages, st: Stage)
    requires UniqueNames(s)
    requires !HasStage(s, st.name)
    ensures UniqueNames(s + [st]) && Count(s + [st], st.name) == 1
    ensures (s + [st])[..|s|] == s
  {
    var r := s + [st];
    assert r[..|s|] == s;
    forall i, j | 0 <= i < j < |r|
      ensures r[i].name != r[j].name
    {
      if j == |s| {
        assert r[i] == s[i];
      } else {
        assert r[i] == s[i] && r[j] == s[j];
      }
    }
    NoStageNoCount(s, st.name);
    assert r[|r| - 1] == st;
  }

  /** The documented three-argument `replace(name, methodOrFile, config)`:
      overwrite the stage called `name` at its index, or append when absent. */
  function Replace(s: Stages, name: string, impl: string, config: Option<Js.Fields>): (r: Stages)
    ensures var i := IndexOf(s, name);
      && (i >= 0 ==> |r| == |s| && r[i] == CreateStage(name, impl, config)
                     && forall j :: 0 <= j < |s| && j != i ==> r[j] == s[j])
      && (i < 0 ==> r == s + [CreateStage(name, impl, config)])
    ensures UniqueNames(s) ==> UniqueNames(r)
  {
    var st := CreateStage(name, impl, config);
    var i := IndexOf(s, name);
    if i >= 0 then s[i := st] else s + [st]
  }

  /** Errors the registry operations can raise. */
  datatype Error = ReferenceError(identifier: string)

  /** `replace` exactly as written: its only parameter is named `stage`, so
      the body's reference to `stageName` names no variable in scope and the
      call throws before touching the list. */
  function ReplaceAsWritten(s: Stages, stage: Js.Value): (r: Result<Stages, Error>)
    ensures r == Err(ReferenceError("stageName"))
  {
    Err(ReferenceError("stageName"))
  }

  /** The documented `replace` cannot be reached through the code as written. */
  lemma ReplaceAsWrittenNeverReplaces(s: Stages, name: string, impl: string, config: Option<Js.Fields>)
    ensures ReplaceAsWritten(s, Js.Str(name)).Err?
    ensures ReplaceAsWritten(s, Js.Str(name)) != Ok(Replace(s, name, impl, config))
  {
  }

  /** Removing a stage from a registry without duplicates leaves one without
      duplicates in which the name no longer occurs. */
  lemma RemoveKeepsUnique(s: Stages, name: string)
    requires UniqueNames(s)
    ensures UniqueNames(Remove(s, name).stages)
    ensures !HasStage(Remove(s, name).stages, name)
  {
    var i := IndexOf(s, name);
    if i >= 0 {
      var r := s[..i] + s[i + 1..];
      assert forall j :: 0 <= j < |r| ==> r[j] == s[if j < i then j else j + 1];
    }
  }

  /** Inserting a stage whose name is absent, at any position, keeps names unique. */
  lemma InsertFresh(s: Stages, p: nat, st: Stage)
    requires p <= |s|
    requires UniqueNames(s) && !HasStage(s, st.name)
    ensures UniqueNames(s[..p] + [st] + s[p..])
  {
    var r := s[..p] + [st] + s[p..];
    assert forall j :: 0 <= j < |r| && j != p ==> r[j] == s[if j < p then j else j - 1];
  }

  /** An insertion's outcome: the new list and whether the "anchor not found"
      notice is logged (a non-empty anchor that is not in the list). */
  datatype Insertion = Insertion(stages: Stages, notice: bool)

  /** Where `insertAfter` puts the new stage in the list `rest` it works on:
      one past the anchor, which is index 0 when the anchor is missing. */
  function AfterPosition(rest: Stages, anchor: string): (p: nat)
    ensures p <= |rest|
    ensures p > 0 ==> rest[p - 1].name == anchor
    ensures p == 0 <==> !HasStage(rest, anchor)
  {
    IndexOf(rest, anchor) + 1
  }

  /** Where `insertBefore` puts the new stage: at the anchor's index, or at
      the end when the anchor is missing. */
  function BeforePosition(rest: Stages, anchor: string): (p: nat)
    ensures p <= |rest|
    ensures p < |rest| <==> HasStage(rest, anchor)
    ensures p < |rest| ==> rest[p].name == anchor
  {
    var b := IndexOf(rest, anchor);
    if b >= 0 then b else |rest|
  }

  /** `insertAfter(anchor, name, methodOrFile, config)`: remove any stage
      called `name`, then place the new stage right after `anchor`, or at
      the start when `anchor` is not (or no longer) in the list. */
  function InsertAfter(s: Stages, anchor: string, name: string, impl: string, config: Option<Js.Fields>): (r: Insertion)
    ensures var rest := Remove(s, name).stages;
      var p := AfterPosition(rest, anchor);
      && |r.stages| == |rest| + 1
      && r.stages[p] == CreateStage(name, impl, config)
      && r.stages[..p] + r.stages[p + 1..] == rest
      && (r.notice <==> p == 0 && anchor != "")
  {
    var rest := Remove(s, name).stages;
    var st := CreateStage(name, impl, config);
    var p := AfterPosition(rest, anchor);
    var res := rest[..p] + [st] + rest[p..];
    InsertAt(rest, p, st);
    Insertion(res, p == 0 && anchor != "")
  }

  /** `insertBefore(anchor, name, methodOrFile, config)`: remove any stage
      called `name`, then place the new stage at `anchor`'s index, or at
      the end when `anchor` is not in the list. */
  function InsertBefore(s: Stages, anchor: string, name: string, impl: string, config: Option<Js.Fields>): (r: Insertion)
    ensures var rest := Remove(s, name).stages;
      var p := BeforePosition(rest, anchor);
      && |r.stages| == |rest| + 1
      && r.stages[p] == CreateStage(name, impl, config)
      && r.stages[..p] + r.stages[p + 1..] == rest
      && (r.notice <==> p == |rest| && anchor != "")
  {
    var rest := Remove(s, name).stages;
    var st := CreateStage(name, impl, config);
    var p := BeforePosition(rest, anchor);
    var res := rest[..p] + [st] + rest[p..];
    InsertAt(rest, p, st);
    Insertion(res, p == |rest| && anchor != "")
  }

  /** Both insertions keep the registry free of duplicate names and leave
      exactly one stage with the inserted name. */
  lemma InsertKeepsUnique(s: Stages, anchor: string, name: string, impl: string, config: Option<Js.Fields>)
    requires UniqueNames(s)
    ensures UniqueNames(InsertAfter(s, anchor, name, impl, config).stages)
    ensures Count(InsertAfter(s, anchor, name, impl, config).stages, name) == 1
    ensures UniqueNames(InsertBefore(s, anchor, name, impl, config).stages)
    ensures Count(InsertBefore(s, anchor, name, impl, config).stages, name) == 1
  {
    var rest := Remove(s, name).stages;
    var st := CreateStage(name, impl, config);
    RemoveKeepsUnique(s, name);
    var pa := AfterPosition(rest, anchor);
    InsertFresh(rest, pa, st);
    CountOne(rest[..pa] + [st] + rest[pa..], pa);
    var pb := BeforePosition(rest, anchor);
    InsertFresh(rest, pb, st);
    CountOne(rest[..pb] + [st] + rest[pb..], pb);
  }

  /** Taking the stage inserted at `p` back out gives the original list. */
  lemma InsertAt(rest: Stages, p: nat, st: Stage)
    requires p <= |rest|
    ensures var res := rest[..p] + [st] + rest[p..];
      |res| == |rest| + 1 && res[p] == st && res[..p] + res[p + 1..] == rest
  {
    var res := rest[..p] + [st] + rest[p..];
    assert res[..p] == rest[..p] && res[p + 1..] == rest[p..];
  }

  /** In a registry without duplicates, the name at `p` is counted exactly once. */
  lemma {:induction false} CountOne(s: Stages, p: nat)
    requires p < |s| && UniqueNames(s)
    ensures Count(s, s[p].name) == 1
  {
    var name := s[p].name;
    var q := s[..|s| - 1];
    assert UniqueNames(q);
    if p == |s| - 1 {
      assert !HasStage(q, name);
      NoStageNoCount(q, name);
    } else {
      assert q[p] == s[p];
      CountOne(q, p);
    }
  }
}

=== FILE: scenarios.dfy ===
/**
 The shipped pipeline definitions as scenarios for the registry, the
 configuration override, the run and the `git-pull` stage's defaults.
 */
module Scenarios {
  import GitPull
  import Js
  import Pipeline
  import Strings
  import opened Registry
  import opened Wrappers

  /** The standard pipeline: pull, diff, then notify. */
  function Standard(s: Stages): (r: Stages)
    ensures |r| >= 1 && r[|r| - 1] == ByName("slack-notify")
    ensures UniqueNames(s) ==> UniqueNames(r)
  {
    var pulled := Add(s, "git-pull", "", None);
    var diffed := Add(pulled, "git-diff", "", None);
    Add(diffed, "slack-notify", "", None)
  }

  /** The hello-world pipeline: a single stage. */
  function HelloWorld(s: Stages): (r: Stages)
    ensures |r| >= 1 && r[|r| - 1] == ByName("hello-world")
    ensures UniqueNames(s) ==> UniqueNames(r) && |r| <= |s| + 1
  {
    Add(s, "hello-world", "", None)
  }

  /** On any pipeline without duplicate names, the standard definition
      leaves all three of its stages registered, and nothing else goes. */
  lemma StandardRegistersAll(s: Stages, other: string)
    requires UniqueNames(s)
    ensures var r := Standard(s);
            HasStage(r, "git-pull") && HasStage(r, "git-diff") && HasStage(r, "slack-notify")
    ensures HasStage(s, other) ==> HasStage(Standard(s), other)
  {
    var a := Add(s, "git-pull", "", None);
    var b := Add(a, "git-diff", "", None);
    var c := Add(b, "slack-notify", "", None);
    assert a[|a| - 1].name == "git-pull";
    assert b[|b| - 1].name == "git-diff";
    assert c[|c| - 1].name == "slack-notify";
    AddKeeps(a, "git-diff", "git-pull");
    AddKeeps(b, "slack-notify", "git-pull");
    AddKeeps(b, "slack-notify", "git-diff");
    if HasStage(s, other) {
      if other != "git-pull" {
        AddKeeps(s, "git-pull", other);
        if other != "git-diff" {
          AddKeeps(a, "git-diff", other);
          if other != "slack-notify" {
            AddKeeps(b, "slack-notify", other);
          }
        }
      }
    }
  }

  /** Adding a stage keeps every stage of another name. */
  lemma AddKeeps(s: Stages, name: string, other: string)
    requires UniqueNames(s) && other != name
    ensures HasStage(s, other) ==> HasStage(Add(s, name, "", None), other)
    ensures var r := Add(s, name, "", None);
            |r| >= 1 && r[|r| - 1].name == name && HasStage(r, name)
  {
    var r := Add(s, name, "", None);
    assert r[|r| - 1].name == name;
    if HasStage(s, other) {
      WithoutKeeps(s, name, other);
      var w := r[..|r| - 1];
      var j :| 0 <= j < |w| && w[j].name == other;
      assert r[j].name == other;
    }
  }

  /** Removing one name keeps every stage of another name. */
  lemma {:induction false} WithoutKeeps(s: Stages, name: string, other: string)
    requires HasStage(s, other) && other != name
    ensures HasStage(Without(s, name), other)
    decreases |s|
  {
    if s[0].name == other {
      assert Without(s, name)[0] == s[0];
    } else {
      var i :| 0 <= i < |s| && s[i].name == other;
      assert s[1..][i - 1].name == other;
      WithoutKeeps(s[1..], name, other);
      if s[0].name != name {
        var w := Without(s[1..], name);
        var j :| 0 <= j < |w| && w[j].name == other;
        assert ([s[0]] + w)[j + 1].name == other;
      }
    }
  }

  /** A stage added by name alone runs the implementation of that name with an empty configuration. */
  function ByName(name: string): (st: Stage)
  {
    Stage(name, name, map[])
  }

  lemma AddToEmpty(s: Stages, name: string)
    requires UniqueNames(s) && !HasStage(s, name)
    ensures Add(s, name, "", None) == s + [ByName(name)]
  {
    WithoutAbsent(s, name);
    var r := Add(s, name, "", None);
    assert r == r[..|r| - 1] + [r[|r| - 1]];
  }

  lemma PullAdded()
    ensures Add([], "git-pull", "", None) == [ByName("git-pull")]
  {
    AddToEmpty([], "git-pull");
    assert [] + [ByName("git-pull")] == [ByName("git-pull")];
  }

  lemma DiffAdded()
    ensures Add([ByName("git-pull")], "git-diff", "", None) == [ByName("git-pull"), ByName("git-diff")]
  {
    assert !HasStage([ByName("git-pull")], "git-diff");
    AddToEmpty([ByName("git-pull")], "git-diff");
  }

  lemma NotifyAdded()
    ensures Add([ByName("git-pull"), ByName("git-diff")], "slack-notify", "", None)
            == [ByName("git-pull"), ByName("git-diff"), ByName("slack-notify")]
  {
    var s := [ByName("git-pull"), ByName("git-diff")];
    assert !HasStage(s, "slack-notify") by {
      assert s[0].name != "slack-notify" && s[1].name != "slack-notify";
    }
    AddToEmpty(s, "slack-notify");
  }

  /** Built on an empty pipeline, the standard definition registers its
      three stages in order. */
  lemma StandardStages()
    ensures Standard([]) == [ByName("git-pull"), ByName("git-diff"), ByName("slack-notify")]
  {
    var pulled := Add([], "git-pull", "", None);
    PullAdded();
    var diffed := Add(pulled, "git-diff", "", None);
    DiffAdded();
    NotifyAdded();
    assert Standard([]) == Add(diffed, "slack-notify", "", None);
  }

  /** The hello-world definition registers its single stage. */
  lemma HelloWorldStages()
    ensures HelloWorld([]) == [ByName("hello-world")]
  {
    AddToEmpty([], "hello-world");
    assert [] + [ByName("hello-world")] == [ByName("hello-world")];
  }

  /** The settings of the default project pipeline. */
  const GitPullSettings: Js.Fields := map["url" := Js.Str("https://..."), "credentials" := Js.Str("CREDS_ID_OR_RAW_OBJECT")]
  const DefaultSettings: map<string, Js.Fields> := map["git-pull" := GitPullSettings]

  /** The override applied to the three standard stages. */
  lemma OverrideStandard(s: Stages)
    requires s == [ByName("git-pull"), ByName("git-diff"), ByName("slack-notify")]
    ensures Pipeline.OverrideConfig(s, Some(DefaultSettings))
            == [Stage("git-pull", "git-pull", GitPullSettings), ByName("git-diff"), ByName("slack-notify")]
  {
    StandardNamesUnique(s);
    assert "git-diff" !in DefaultSettings && "slack-notify" !in DefaultSettings;
    OverrideFirstOfThree(s, DefaultSettings);
    assert Js.Assign(map[], GitPullSettings) == GitPullSettings;
  }

  lemma StandardNamesUnique(s: Stages)
    requires s == [ByName("git-pull"), ByName("git-diff"), ByName("slack-notify")]
    ensures UniqueNames(s)
  {
    assert s[0].name != s[1].name && s[0].name != s[2].name && s[1].name != s[2].name;
  }

  /** An override naming only the first of three distinct stages merges into it alone. */
  lemma OverrideFirstOfThree(s: Stages, p: map<string, Js.Fields>)
    requires |s| == 3 && UniqueNames(s)
    requires s[0].name in p && s[1].name !in p && s[2].name !in p
    ensures Pipeline.OverrideConfig(s, Some(p)) == [s[0].(config := Js.Assign(s[0].config, p[s[0].name])), s[1], s[2]]
  {
    Pipeline.OverrideUnique(s, p, 0);
    Pipeline.OverrideUnique(s, p, 1);
    Pipeline.OverrideUnique(s, p, 2);
  }

  /** The standard definition as a pipeline definition: it registers its
      stages and returns nothing. */
  function StandardDefinition(s: Stages): (d: Pipeline.Definition)
    ensures d.outcome == Pipeline.Settles(Js.Undefined) && d.stages == Standard(s)
  {
    Pipeline.Definition(Standard(s), Pipeline.Settles(Js.Undefined))
  }

  /** The default project pipeline imports the standard one; the import
      resolves and the override lands on `git-pull` alone. */
  lemma DefaultPipeline()
    ensures Pipeline.Import([], StandardDefinition, Some(DefaultSettings))
            == Pipeline.Definition(
                 [Stage("git-pull", "git-pull", GitPullSettings), ByName("git-diff"), ByName("slack-notify")],
                 Pipeline.Settles(Js.Undefined))
  {
    StandardStages();
    OverrideStandard(Standard([]));
  }

  /** When every stage of the default pipeline resolves to nothing, the run
      calls pull, diff and notify in that order and resolves. */
  lemma DefaultPipelineRuns(behave: (nat, Stage) -> Pipeline.Outcome)
    requires forall j, st :: behave(j, st) == Pipeline.Settles(Js.Undefined)
    ensures var r := Pipeline.Run(Standard([]), Some(DefaultSettings), behave);
            && r.series.settlement == Pipeline.Completed
            && |r.series.calls| == 3
            && r.series.calls[0].stage == Stage("git-pull", "git-pull", GitPullSettings)
            && r.series.calls[2].stage == ByName("slack-notify")
  {
    StandardStages();
    RunStandard(Standard([]), behave);
  }

  lemma RunStandard(s: Stages, behave: (nat, Stage) -> Pipeline.Outcome)
    requires s == [ByName("git-pull"), ByName("git-diff"), ByName("slack-notify")]
    requires forall j, st :: behave(j, st) == Pipeline.Settles(Js.Undefined)
    ensures var r := Pipeline.Run(s, Some(DefaultSettings), behave);
            && r.series.settlement == Pipeline.Completed
            && |r.series.calls| == 3
            && r.series.calls[0].stage == Stage("git-pull", "git-pull", GitPullSettings)
            && r.series.calls[2].stage == ByName("slack-notify")
  {
    OverrideStandard(s);
    var o := Pipeline.OverrideConfig(s, Some(DefaultSettings));
    Pipeline.RunAllContinue(o, behave, 0);
  }

  /** The sample url has no name before its dots. */
  lemma SampleRepoName()
    ensures GitPull.RepoName("https://...") == ""
  {
    SampleUrlParts("https:/");
    GitPull.RepoNameOf("https:/", "", "..");
  }

  lemma SampleUrlParts(scheme: string)
    requires scheme == "https:/"
    ensures '#' !in scheme && '?' !in scheme
    ensures scheme + "/" + "" + "." + ".." == "https://..."
  {
  }

  /** So the directory inferred for the sample url is empty: the stage then
      works in its parent's directory. */
  lemma SampleUrlGivesEmptyDirectory()
    ensures var r := GitPull.Prepare(GitPullSettings, Js.Undefined);
            && r.Ok?
            && r.value.branch == Js.Str("master")
            && r.value.localPath == Js.Str("")
  {
    SampleFields(GitPullSettings);
    SamplePrepared(GitPullSettings);
  }

  lemma SampleFields(config: Js.Fields)
    requires config == GitPullSettings
    ensures Js.Get(Js.Obj(config), "url") == Js.Str("https://...")
    ensures Js.Get(Js.Obj(config), "branch") == Js.Undefined
    ensures Js.Get(Js.Obj(config), "localPath") == Js.Undefined
  {
  }

  lemma SamplePrepared(config: Js.Fields)
    requires Js.Get(Js.Obj(config), "url") == Js.Str("https://...")
    requires Js.Get(Js.Obj(config), "branch") == Js.Undefined
    requires Js.Get(Js.Obj(config), "localPath") == Js.Undefined
    ensures var r := GitPull.Prepare(config, Js.Undefined);
            && r.Ok?
            && r.value.branch == Js.Str("master")
            && r.value.localPath == Js.Str("")
  {
    SampleRepoName();
  }
}

=== FILE: slack.dfy ===
/**
 The slack-notify stage's message: a pretext naming the pipeline, the
 build's patch number, success or failure and the elapsed time; a body of
 the errors followed by the progress messages; a colour matching the
 outcome. Sending the message is not modelled.
 */
module SlackNotify {
  import Js
  import Numbers
  import Strings

  const NoInformation := "No additional information provided."
  const LineBreak := "\r\n"

  /** The stage runs again when an earlier stage failed (an exported flag). */
  const RunOnError := true

  datatype Attachment = Attachment(fallback: string, color: string, pretext: string, text: string)

  datatype Report =
    | MissingUrl(message: string)
    | Send(iconUrl: string, username: string, attachments: seq<Attachment>)

  /** `timeString` for a spread (milliseconds) under one minute. */
  function TimeString(spread: int): (r: string)
    requires spread < 60000
    ensures spread < 1000 ==> Numbers.ParseInt(r) == Numbers.Int(spread) && Strings.EndsWith(r, "ms")
    ensures spread >= 1000 ==> Numbers.ParseInt(r) == Numbers.Int(spread / 1000)
    ensures spread >= 1000 ==> Strings.EndsWith(r, "s") && !Strings.EndsWith(r, "ms") && 1 <= spread / 1000 < 60
  {
    if spread < 1000 then
      Numbers.ParseIntOfInt(spread, "ms");
      Numbers.IntToString(spread) + "ms"
    else
      Numbers.ParseIntOfNat(spread / 1000, "s");
      var r := Numbers.NatToString(spread / 1000) + "s";
      assert r[|r| - 2] == Numbers.NatToString(spread / 1000)[|r| - 2];
      r
  }

  /** The first line of the notification. */
  function Pretext(pipelineName: string, patch: int, failed: bool, elapsed: string): (r: string)
    ensures |r| > |pipelineName| + |elapsed| && r[..|pipelineName|] == pipelineName && r[|r| - |elapsed|..] == elapsed
  {
    pipelineName + " #" + Numbers.IntToString(patch) + (if failed then " failed" else " successful") + " in " + elapsed
  }

  /** A failed and a successful run never share a pretext: the outcome can
      be read back from it. */
  lemma PretextTellsOutcome(pipelineName: string, patch: int, elapsed: string)
    ensures Pretext(pipelineName, patch, true, elapsed) != Pretext(pipelineName, patch, false, elapsed)
  {
    assert |Pretext(pipelineName, patch, true, elapsed)| + 4 == |Pretext(pipelineName, patch, false, elapsed)|;
  }

  /** The progress messages, one per line, or the fallback sentence when there are none. */
  function MessageText(messages: seq<string>): (r: string)
    ensures r != ""
    ensures Strings.Join(messages, LineBreak) != "" ==> r == Strings.Join(messages, LineBreak)
  {
    var m := Strings.Join(messages, LineBreak);
    if m == "" then NoInformation else m
  }

  /** The whole body: errors first, one per line, then the messages. */
  function Body(errors: seq<string>, messages: seq<string>): (r: string)
    ensures r != ""
    ensures |errors| == 0 ==> r == MessageText(messages)
    ensures |errors| > 0 ==> r == Strings.Join(errors, LineBreak) + LineBreak + MessageText(messages)
  {
    if |errors| > 0 then Strings.Join(errors, LineBreak) + LineBreak + MessageText(messages)
    else MessageText(messages)
  }

  /** The stage: throw without a webhook url, otherwise the message to send. */
  function Compose(url: Js.Value, pipelineName: string, patch: int, errors: seq<string>,
                   messages: seq<string>, elapsed: string): (r: Report)
    ensures r.MissingUrl? <==> !Js.Truthy(url)
    ensures r.Send? ==> |r.attachments| == 1
    ensures r.Send? ==>
      var a := r.attachments[0];
      && a.fallback == a.pretext
      && a.pretext == Pretext(pipelineName, patch, |errors| > 0, elapsed)
      && (a.color == "danger" <==> |errors| > 0)
      && (a.color == "good" <==> |errors| == 0)
      && a.text == Body(errors, messages)
  {
    if !Js.Truthy(url) then MissingUrl("No slack (webhook) URL provided.")
    else
      var pretext := Pretext(pipelineName, patch, |errors| > 0, elapsed);
      Send("https://kulestar.com/Images/Alfred/logo.png", "Alfred",
           [Attachment(pretext, if |errors| > 0 then "danger" else "good", pretext, Body(errors, messages))])
  }

  /** The colour and the wording of the pretext always agree: the pretext
      reads "failed" exactly when the colour is "danger". */
  lemma ColourMatchesWording(url: Js.Value, pipelineName: string, patch: int, errors: seq<string>,
                             messages: seq<string>, elapsed: string)
    requires Js.Truthy(url)
    ensures var a := Compose(url, pipelineName, patch, errors, messages, elapsed).attachments[0];
      var head := pipelineName + " #" + Numbers.IntToString(patch);
      && (a.color == "danger" <==> a.pretext == head + " failed" + " in " + elapsed)
      && (a.color == "good" <==> a.pretext == head + " successful" + " in " + elapsed)
  {
    var a := Compose(url, pipelineName, patch, errors, messages, elapsed).attachments[0];
    var head := pipelineName + " #" + Numbers.IntToString(patch);
    if |errors| > 0 {
      assert a.pretext == head + " failed" + " in " + elapsed;
      assert a.pretext != head + " successful" + " in " + elapsed by {
        assert a.pretext[|head| + 2] == 'a';
        assert (head + " successful" + " in " + elapsed)[|head| + 2] == 'u';
      }
    } else {
      assert a.pretext == head + " successful" + " in " + elapsed;
      assert a.pretext != head + " failed" + " in " + elapsed by {
        assert a.pretext[|head| + 2] == 'u';
        assert (head + " failed" + " in " + elapsed)[|head| + 2] == 'a';
      }
    }
  }

  /** Every error line comes before every message line: the body starts with
      the joined errors and ends with the message text. */
  lemma ErrorsPrecedeMessages(errors: seq<string>, messages: seq<string>)
    requires |errors| > 0
    ensures Strings.StartsWith(Body(errors, messages), Strings.Join(errors, LineBreak) + LineBreak)
    ensures Strings.EndsWith(Body(errors, messages), MessageText(messages))
  {
    var e := Strings.Join(errors, LineBreak) + LineBreak;
    var b := Body(errors, messages);
    assert b == e + MessageText(messages);
    assert b[|b| - |MessageText(messages)|..] == MessageText(messages);
  }
}

=== FILE: strings.dfy ===
/**
 The handful of JavaScript string operations the modelled code relies on,
 written over `seq<char>`: `indexOf`, `split` on one character, `join`,
 `startsWith`/`endsWith`, `trim`, `toLowerCase` and a literal global
 `replace`. Each comes with the property that makes it trustworthy (split
 and join are inverse, trim leaves no blank at either end, ...).
 */
module Strings {

  /** First index of `c` in `s`, or -1, as `String.prototype.indexOf`. */
  function IndexOf(s: string, c: char): (r: int)
    ensures -1 <= r < |s|
    ensures r == -1 <==> c !in s
    ensures 0 <= r ==> s[r] == c && c !in s[..r]
  {
    if |s| == 0 then -1
    else if s[0] == c then 0
    else
      var k := IndexOf(s[1..], c);
      assert s[1..][..if k < 0 then 0 else k] == s[1..if k < 0 then 1 else k + 1];
      if k < 0 then -1 else k + 1
  }

  /** `parts.join(sep)`. */
  function Join(parts: seq<string>, sep: string): string
  {
    if |parts| == 0 then ""
    else if |parts| == 1 then parts[0]
    else parts[0] + sep + Join(parts[1..], sep)
  }

  /** `Array.prototype.join` starts with the first piece and ends with the last. */
  lemma {:induction false} JoinEnds(parts: seq<string>, sep: string)
    requires |parts| >= 1
    ensures StartsWith(Join(parts, sep), parts[0])
    ensures EndsWith(Join(parts, sep), parts[|parts| - 1])
    decreases |parts|
  {
    if |parts| > 1 {
      JoinEnds(parts[1..], sep);
      var rest := Join(parts[1..], sep);
      var last := parts[|parts| - 1];
      var front := rest[..|rest| - |last|];
      assert rest == front + last;
      assert Join(parts, sep) == (parts[0] + sep + front) + last;
    }
  }

  /** Joining one more piece onto a non-empty list appends the separator and the piece. */
  lemma {:induction false} JoinSnoc(parts: seq<string>, x: string, sep: string)
    requires |parts| >= 1
    ensures Join(parts + [x], sep) == Join(parts, sep) + sep + x
    decreases |parts|
  {
    if |parts| > 1 {
      JoinSnoc(parts[1..], x, sep);
      assert (parts + [x])[1..] == parts[1..] + [x];
    } else {
      assert (parts + [x])[1..] == [x];
    }
  }

  /** `s.split(c)` for a one-character separator: the maximal pieces between
      occurrences of `c`. Never empty; no piece contains `c`. */
  function Split(s: string, c: char): (parts: seq<string>)
    ensures |parts| >= 1
    ensures forall k :: 0 <= k < |parts| ==> c !in parts[k]
    ensures (c in s) <==> |parts| >= 2
    decreases |s|
  {
    var i := IndexOf(s, c);
    if i < 0 then [s]
    else [s[..i]] + Split(s[i + 1..], c)
  }

  /** The text before the first `c` (all of `s` when there is none): `s.split(c)[0]`. */
  function BeforeFirst(s: string, c: char): (r: string)
    ensures c !in r
    ensures r <= s
    ensures c !in s ==> r == s
    ensures c in s ==> |r| < |s| && s[|r|] == c
  {
    var i := IndexOf(s, c);
    if i < 0 then s else s[..i]
  }

  /** Text free of `c` in front passes through `BeforeFirst` unchanged. */
  lemma BeforeFirstAfter(u: string, y: string, c: char)
    requires c !in u
    ensures BeforeFirst(u + y, c) == u + BeforeFirst(y, c)
  {
    IndexOfAfter(u, y, c);
    var i := IndexOf(y, c);
    if i >= 0 {
      assert (u + y)[..|u| + i] == u + y[..i];
    }
  }

  /** The first `c` of `u + y`, when `u` has none, is the first `c` of `y`. */
  lemma {:induction false} IndexOfAfter(u: string, y: string, c: char)
    requires c !in u
    ensures IndexOf(u + y, c) == if IndexOf(y, c) < 0 then -1 else |u| + IndexOf(y, c)
    decreases |u|
  {
    if |u| == 0 {
      assert u + y == y;
    } else {
      assert (u + y)[0] == u[0];
      assert (u + y)[1..] == u[1..] + y;
      IndexOfAfter(u[1..], y, c);
    }
  }

  /** `Split` and `Join` undo each other: `s.split(c).join(c) == s`. */
  lemma {:induction false} SplitJoin(s: string, c: char)
    ensures Join(Split(s, c), [c]) == s
    decreases |s|
  {
    var i := IndexOf(s, c);
    if i < 0 {
      assert Split(s, c) == [s];
    } else {
      var head, rest := s[..i], s[i + 1..];
      var tail := Split(rest, c);
      assert Split(s, c) == [head] + tail;
      calc {
        Join(Split(s, c), [c]);
        { JoinCons(head, tail, [c]); }
        head + [c] + Join(tail, [c]);
        { SplitJoin(rest, c); }
        head + [c] + rest;
        { Reassemble(s, i); }
        s;
      }
    }
  }

  /** A text is what comes before position `i`, its character there, and what follows. */
  lemma Reassemble(s: string, i: nat)
    requires i < |s|
    ensures s[..i] + [s[i]] + s[i + 1..] == s
  {
    assert s[..i] + [s[i]] + s[i + 1..] == s[..i] + s[i..];
  }

  /** Joining a non-empty list after one more piece puts the separator between them. */
  lemma JoinCons(x: string, tail: seq<string>, sep: string)
    requires |tail| >= 1
    ensures Join([x] + tail, sep) == x + sep + Join(tail, sep)
  {
    assert ([x] + tail)[1..] == tail;
  }

  /** Splitting after a separator-free first piece peels that piece off. */
  lemma SplitCons(x: string, c: char, rest: string)
    requires c !in x
    ensures Split(x + [c] + rest, c) == [x] + Split(rest, c)
  {
    var u := x + [c] + rest;
    assert u[|x|] == c;
    assert IndexOf(u, c) == |x|;
    assert u[..|x|] == x && u[|x| + 1..] == rest;
  }

  /** `Join` and `Split` undo each other the other way round too, for
      pieces free of the separator: `parts.join(c).split(c) == parts`. */
  lemma {:induction false} JoinSplit(parts: seq<string>, c: char)
    requires |parts| >= 1
    requires forall k :: 0 <= k < |parts| ==> c !in parts[k]
    ensures Split(Join(parts, [c]), c) == parts
    decreases |parts|
  {
    if |parts| > 1 {
      var rest := Join(parts[1..], [c]);
      assert Join(parts, [c]) == parts[0] + [c] + rest;
      SplitCons(parts[0], c, rest);
      JoinSplit(parts[1..], c);
      assert parts == [parts[0]] + parts[1..];
    }
  }

  /** The first piece of a split is the text before the first separator. */
  lemma SplitHead(s: string, c: char)
    ensures Split(s, c)[0] == BeforeFirst(s, c)
  {
  }

  /** The last piece of a split: the text after the final `c`. */
  function LastPiece(s: string, c: char): (r: string)
    ensures c !in r
    ensures c !in s ==> r == s
  {
    var parts := Split(s, c);
    parts[|parts| - 1]
  }

  /** Whatever precedes the final separator, the last piece is what follows it. */
  lemma {:induction false} LastPieceAfter(s: string, c: char, t: string)
    requires c !in t
    ensures LastPiece(s + [c] + t, c) == t
    decreases |s|
  {
    var u := s + [c] + t;
    var i := IndexOf(u, c);
    assert u[|s|] == c;
    assert i <= |s|;
    if i == |s| {
      assert u[i + 1..] == t;
      assert Split(t, c) == [t];
      assert Split(u, c) == [u[..i]] + [t];
    } else {
      assert u[i + 1..] == s[i + 1..] + [c] + t;
      LastPieceAfter(s[i + 1..], c, t);
    }
  }

  /** `startsWith`: the text begins with the prefix. */
  predicate StartsWith(s: string, prefix: string)
  {
    prefix <= s
  }

  /** A prefix is what the text's first characters are, as `startsWith`
      compares them from position 0. */
  lemma StartsWithSlice(s: string, prefix: string)
    ensures StartsWith(s, prefix) <==> |prefix| <= |s| && s[..|prefix|] == prefix
  {
  }

  predicate EndsWith(s: string, suffix: string)
    ensures EndsWith(s, suffix) <==> |suffix| <= |s| && s == s[..|s| - |suffix|] + suffix
  {
    |suffix| <= |s| && s[|s| - |suffix|..] == suffix
  }

  /** A text ends with a one-character suffix exactly when that is its last character. */
  lemma EndsWithChar(x: string, c: char)
    requires |x| >= 1
    ensures EndsWith(x, [c]) <==> x[|x| - 1] == c
  {
    assert x[|x| - 1..] == [x[|x| - 1]];
  }

  /** The characters `String.prototype.trim` removes: the white space and
      line terminators of section 12.2 and 12.3 of ECMA-262 (tab, vertical
      tab, form feed, the byte-order mark, every space separator of Unicode
      category Zs, line feed, carriage return, and the line and paragraph
      separators). */
  predicate IsBlank(c: char)
    ensures c < '\U{0080}' ==> (IsBlank(c) <==> c in "\t\n\U{000B}\U{000C}\r ")
  {
    || c == '\t' || c == '\n' || c == '\U{000B}' || c == '\U{000C}' || c == '\r' || c == ' '
    || c == '\U{00A0}' || c == '\U{1680}' || ('\U{2000}' <= c <= '\U{200A}')
    || c == '\U{2028}' || c == '\U{2029}' || c == '\U{202F}' || c == '\U{205F}'
    || c == '\U{3000}' || c == '\U{FEFF}'
  }

  function LeadingBlanks(s: string): (n: nat)
    ensures n <= |s|
    ensures forall k :: 0 <= k < n ==> IsBlank(s[k])
    ensures n < |s| ==> !IsBlank(s[n])
  {
    if |s| > 0 && IsBlank(s[0]) then 1 + LeadingBlanks(s[1..]) else 0
  }
  function TrailingBlanks(s: string): (n: nat)
    ensures n <= |s|
    ensures forall k :: |s| - n <= k < |s| ==> IsBlank(s[k])
    ensures n < |s| ==> !IsBlank(s[|s| - n - 1])
  {
    if |s| > 0 && IsBlank(s[|s| - 1]) then 1 + TrailingBlanks(s[..|s| - 1]) else 0
  }
  /** `r` is the slice of `s` that starts at `a` and everything around it is blank. */
  predicate TrimmedAt(s: string, r: string, a: int)
  {
    && 0 <= a <= |s| - |r|
    && r == s[a..a + |r|]
    && (forall k :: 0 <= k < a ==> IsBlank(s[k]))
    && (forall k :: a + |r| <= k < |s| ==> IsBlank(s[k]))
  }
  /** `s.trim()`: drop blanks at both ends and nothing else. */
  function Trim(s: string): (r: string)
    ensures |r| > 0 ==> !IsBlank(r[0]) && !IsBlank(r[|r| - 1])
    ensures TrimmedAt(s, r, LeadingBlanks(s))
  {
    var a := LeadingBlanks(s);
    var b := TrailingBlanks(s[a..]);
    TrimTail(s, s[a..], a, b);
    TrimSlice(s, a, b);
    s[a..|s| - b]
  }

  /** The slice between a blank prefix and a blank suffix, each ending at
      a non-blank, is trimmed and has non-blank ends. */
  lemma TrimSlice(s: string, a: nat, b: nat)
    requires a + b <= |s|
    requires forall k :: 0 <= k < a ==> IsBlank(s[k])
    requires a + b < |s| ==> !IsBlank(s[a]) && !IsBlank(s[|s| - b - 1])
    requires forall k :: |s| - b <= k < |s| ==> IsBlank(s[k])
    ensures |s[a..|s| - b]| > 0 ==> !IsBlank(s[a..|s| - b][0]) && !IsBlank(s[a..|s| - b][|s| - b - a - 1])
    ensures TrimmedAt(s, s[a..|s| - b], a)
  {
  }

  /** Blanks ending the suffix `t` of `s` that starts at `a` end `s` too. */
  lemma TrimTail(s: string, t: string, a: nat, b: nat)
    requires a <= |s| && t == s[a..]
    requires b <= |t| && forall j :: |t| - b <= j < |t| ==> IsBlank(t[j])
    requires b < |t| ==> !IsBlank(t[|t| - b - 1])
    ensures a + b <= |s|
    ensures forall k :: |s| - b <= k < |s| ==> IsBlank(s[k])
    ensures a + b < |s| ==> !IsBlank(s[|s| - b - 1])
  {
    forall k | |s| - b <= k < |s| ensures IsBlank(s[k]) {
      assert s[k] == t[k - a];
    }
    if a + b < |s| {
      assert s[|s| - b - 1] == t[|t| - b - 1];
    }
  }

  /** Blanks around a text with non-blank ends are exactly what `trim` removes. */
  lemma TrimAround(before: string, x: string, after: string)
    requires forall k :: 0 <= k < |before| ==> IsBlank(before[k])
    requires forall k :: 0 <= k < |after| ==> IsBlank(after[k])
    requires |x| > 0 && !IsBlank(x[0]) && !IsBlank(x[|x| - 1])
    ensures Trim(before + x + after) == x
  {
    var s := before + x + after;
    var r := Trim(s);
    assert s[|before|] == x[0];
    assert LeadingBlanks(s) == |before|;
    assert s[|before| + |x| - 1] == x[|x| - 1];
    assert |r| >= |x|;
    assert s[|before|..|before| + |x|] == x;
  }

  /** Trimming twice is trimming once. */
  lemma TrimIdempotent(s: string)
    ensures Trim(Trim(s)) == Trim(s)
  {
    var r := Trim(s);
    assert LeadingBlanks(r) == 0;
    assert TrailingBlanks(r) == 0;
    assert r[0..|r| - 0] == r;
  }

  /** A text with no blank at either end is its own trim. */
  lemma TrimUnchanged(s: string)
    requires |s| > 0 ==> !IsBlank(s[0]) && !IsBlank(s[|s| - 1])
    ensures Trim(s) == s
  {
    assert LeadingBlanks(s) == 0;
    assert s[0..] == s;
    assert TrailingBlanks(s) == 0;
  }

  lemma TrimOfEmpty()
    ensures Trim("") == ""
  {
    TrimEmpty("");
  }

  /** A string that is all blanks trims to the empty string, and only such strings do. */
  lemma TrimEmpty(s: string)
    ensures Trim(s) == "" <==> forall k :: 0 <= k < |s| ==> IsBlank(s[k])
  {
    var r := Trim(s);
    var a := LeadingBlanks(s);
    if r != "" {
      assert s[a] == r[0];
    }
  }

  /** An upper-case letter of ASCII or of the Latin-1 supplement (U+00C0 to
      U+00DE, except the multiplication sign U+00D7). */
  predicate IsUpper(c: char)
  {
    ('A' <= c <= 'Z') || ('\U{00C0}' <= c <= '\U{00DE}' && c != '\U{00D7}')
  }

  /** The lower-case partner of such a letter is 32 code points further on. */
  function LowerChar(c: char): (d: char)
    ensures IsUpper(c) ==> d as int == c as int + 32 && !IsUpper(d)
    ensures !IsUpper(c) ==> d == c
  {
    if IsUpper(c) then (c as int + 32) as char else c
  }

  /** `s.toLowerCase()` for the letters `IsUpper` knows about. */
  function ToLower(s: string): (r: string)
    ensures |r| == |s|
    ensures forall k :: 0 <= k < |s| ==> r[k] == LowerChar(s[k])
  {
    seq(|s|, k requires 0 <= k < |s| => LowerChar(s[k]))
  }

  lemma ToLowerIdempotent(s: string)
    ensures ToLower(ToLower(s)) == ToLower(s)
  {
  }

  /** True when `pat` occurs in `s` starting at position `a`. */
  predicate OccursAt(s: string, pat: string, a: int)
  {
    0 <= a <= |s| - |pat| && s[a..a + |pat|] == pat
  }

  /** True when `pat` occurs in `s` at some position. */
  ghost predicate Occurs(s: string, pat: string)
  {
    exists a :: OccursAt(s, pat, a)
  }

  /** `s.replace(/pat/g, rep)` for a literal, non-empty pattern: every
      occurrence, scanned left to right without overlap, is replaced. */
  function ReplaceAll(s: string, pat: string, rep: string): (r: string)
    requires |pat| > 0
    ensures rep == pat ==> r == s
    decreases |s|
  {
    if |s| < |pat| then s
    else if s[..|pat|] == pat then rep + ReplaceAll(s[|pat|..], pat, rep)
    else [s[0]] + ReplaceAll(s[1..], pat, rep)
  }

  /** A text without the pattern is left exactly as it is. */
  lemma {:induction false} ReplaceAllAbsent(s: string, pat: string, rep: string)
    requires |pat| > 0
    requires !Occurs(s, pat)
    ensures ReplaceAll(s, pat, rep) == s
    decreases |s|
  {
    if |s| >= |pat| {
      assert s[0..0 + |pat|] == s[..|pat|];
      assert !OccursAt(s, pat, 0);
      assert !Occurs(s[1..], pat) by {
        forall a | 0 <= a <= |s[1..]| - |pat|
          ensures !OccursAt(s[1..], pat, a)
        {
          assert s[1..][a..a + |pat|] == s[a + 1..a + 1 + |pat|];
          assert !OccursAt(s, pat, a + 1);
        }
      }
      ReplaceAllAbsent(s[1..], pat, rep);
    }
  }

  /** Replacing a pattern by itself changes nothing. */
  lemma {:induction false} ReplaceAllSelf(s: string, pat: string)
    requires |pat| > 0
    ensures ReplaceAll(s, pat, pat) == s
    decreases |s|
  {
    if |s| >= |pat| {
      if s[..|pat|] == pat {
        ReplaceAllSelf(s[|pat|..], pat);
        assert s == s[..|pat|] + s[|pat|..];
      } else {
        ReplaceAllSelf(s[1..], pat);
        assert s == [s[0]] + s[1..];
      }
    }
  }

  /** An occurrence of the pattern is replaced, and scanning resumes after it. */
  lemma ReplaceAllAtPattern(b: string, pat: string, rep: string)
    requires |pat| > 0
    ensures ReplaceAll(pat + b, pat, rep) == rep + ReplaceAll(b, pat, rep)
  {
    assert (pat + b)[..|pat|] == pat;
    assert (pat + b)[|pat|..] == b;
  }

  /** Text in front of which no occurrence of the pattern starts passes
      through unchanged. */
  lemma {:induction false} ReplaceAllSkip(a: string, b: string, pat: string, rep: string)
    requires |pat| > 0
    requires forall p :: 0 <= p < |a| ==> !OccursAt(a + b, pat, p)
    ensures ReplaceAll(a + b, pat, rep) == a + ReplaceAll(b, pat, rep)
    decreases |a|
  {
    var s := a + b;
    if |a| == 0 {
      assert s == b;
    } else if |s| < |pat| {
      assert ReplaceAll(b, pat, rep) == b;
    } else {
      assert !OccursAt(s, pat, 0);
      assert s[..|pat|] == s[0..0 + |pat|];
      assert s[1..] == a[1..] + b;
      forall p | 0 <= p < |a[1..]|
        ensures !OccursAt(a[1..] + b, pat, p)
      {
        assert !OccursAt(s, pat, p + 1);
        if p <= |a[1..] + b| - |pat| {
          assert (a[1..] + b)[p..p + |pat|] == s[p + 1..p + 1 + |pat|];
        }
      }
      ReplaceAllSkip(a[1..], b, pat, rep);
      assert a == [a[0]] + a[1..];
    }
  }

  /** A pattern whose first character does not recur in it cannot start in
      a text free of the pattern and run on into a following occurrence. */
  lemma NoMatchBefore(x: string, pat: string, rest: string)
    requires |pat| > 0 && pat[0] !in pat[1..]
    requires !Occurs(x, pat)
    ensures forall p :: 0 <= p < |x| ==> !OccursAt(x + (pat + rest), pat, p)
  {
    var s := x + (pat + rest);
    forall p | 0 <= p < |x|
      ensures !OccursAt(s, pat, p)
    {
      if p + |pat| <= |x| {
        assert x[p..p + |pat|] == s[p..p + |pat|];
        assert !OccursAt(x, pat, p);
      } else if p <= |s| - |pat| {
        var j := |x| - p;
        assert s[p..p + |pat|][j] == pat[0];
        assert pat[1..][j - 1] == pat[j];
        assert s[p..p + |pat|] != pat;
      }
    }
  }

  /** The template is its pieces around the occurrences of the pattern:
      when no piece holds the pattern and the pattern's first character
      does not recur in it, replacement puts `rep` between the same pieces:
      every occurrence is replaced and nothing else changes. */
  lemma {:induction false} ReplaceAllJoin(pieces: seq<string>, pat: string, rep: string)
    requires |pat| > 0 && pat[0] !in pat[1..]
    requires forall k :: 0 <= k < |pieces| ==> !Occurs(pieces[k], pat)
    ensures ReplaceAll(Join(pieces, pat), pat, rep) == Join(pieces, rep)
  {
    if |pieces| == 0 {
      assert ReplaceAll("", pat, rep) == "";
    } else if |pieces| == 1 {
      var x := pieces[0];
      assert forall p :: 0 <= p < |x| ==> !OccursAt(x + "", pat, p) by {
        assert x + "" == x;
      }
      ReplaceAllSkip(x, "", pat, rep);
      assert ReplaceAll("", pat, rep) == "";
      assert x + "" == x;
    } else {
      var rest := pieces[1..];
      ReplaceAllJoin(rest, pat, rep);
      NoMatchBefore(pieces[0], pat, Join(rest, pat));
      assert Join(pieces, pat) == pieces[0] + (pat + Join(rest, pat));
      ReplaceAllSkip(pieces[0], pat + Join(rest, pat), pat, rep);
      ReplaceAllAtPattern(Join(rest, pat), pat, rep);
      assert Join(pieces, rep) == pieces[0] + rep + Join(rest, rep);
    }
  }

  /** Joining pieces that lack `c` with a separator that lacks `c` gives a text without `c`. */
  lemma {:induction false} JoinAvoids(pieces: seq<string>, sep: string, c: char)
    requires forall k :: 0 <= k < |pieces| ==> c !in pieces[k]
    requires c !in sep
    ensures c !in Join(pieces, sep)
  {
    if |pieces| > 1 {
      JoinAvoids(pieces[1..], sep, c);
    }
  }

  /** A text without the pattern's first character has no occurrence of it. */
  lemma AbsentFirstChar(s: string, pat: string)
    requires |pat| > 0
    requires pat[0] !in s
    ensures !Occurs(s, pat)
  {
    forall a | 0 <= a <= |s| - |pat|
      ensures !OccursAt(s, pat, a)
    {
      assert s[a..a + |pat|][0] == s[a];
    }
  }
}

=== FILE: upload.dfy ===
/**
 The planning half of the `ftp-upload` and `ssh-upload-no-hotswap` stages:
 which transfer sets a stage configuration describes, which file list each
 set yields, and which remote operations each listed file turns into. The
 transfers themselves (FTP and SSH connections) are not modelled; every
 accepted server receives the same planned list of operations, in order.
 */
module Upload {
  import Coerce
  import Js
  import Strings
  import opened Wrappers

  /** One element of a set's file list. `Skip` stands for every falsy
      element (`null`, `undefined`, `''`); `Path` for a plain path string;
      `Described` for an object `{status, path, oldpath}`, whose absent or
      falsy text fields are `""`. */
  datatype FileEntry =
    | Skip
    | Path(path: string)
    | Described(status: string, path: string, oldpath: string)

  /** Where a set's files come from: a literal array, a function the stage
      calls (kept abstract by its name), or a glob pattern. */
  datatype Source =
    | Listed(entries: seq<FileEntry>)
    | Generated(generator: string)
    | Globbed(pattern: string)

  /** A transfer set: `source`, `source_options`, glob `options`,
      `source_workspace_path` (`""` when absent) and `target`. */
  datatype TransferSet = TransferSet(source: Source, sourceOptions: Js.Value, options: Js.Value,
                                     workspacePath: string, target: string)

  /** The stage configuration fields the planner reads; `sets` is `None`
      when `config.sets` is absent. */
  datatype StageConfig = StageConfig(sets: Option<seq<TransferSet>>, source: Source, sourceOptions: Js.Value,
                                     workspacePath: string, target: string)

  /** The two stages differ in how they synthesise the default set and in
      how they form the local workspace path. */
  datatype Flavour = Ftp | Ssh

  /** The transfer sets of a configuration. Without `sets` exactly one set is
      synthesised from the top-level fields; the FTP stage does not carry
      `source_workspace_path` into it, the SSH stage does. */
  function Sets(f: Flavour, c: StageConfig): (r: seq<TransferSet>)
    ensures c.sets.Some? ==> r == c.sets.value
    ensures c.sets.None? ==> |r| == 1 && r[0].source == c.source && r[0].sourceOptions == c.sourceOptions
                             && r[0].target == c.target && r[0].options == Js.Undefined
    ensures c.sets.None? ==> r[0].workspacePath == (if f == Ftp then "" else c.workspacePath)
  {
    match c.sets
    case Some(sets) => sets
    case None =>
      var swp := if f == Ftp then "" else c.workspacePath;
      [TransferSet(c.source, c.sourceOptions, Js.Undefined, swp, c.target)]
  }

  /** The synthesised sets of the two stages differ in the workspace path only. */
  lemma DefaultSetsDiffer(c: StageConfig)
    requires c.sets.None?
    ensures Sets(Ftp, c) == [Sets(Ssh, c)[0].(workspacePath := "")]
    ensures Sets(Ssh, c)[0].workspacePath == c.workspacePath
  {
  }

  /** The glob options used when nothing else is given. */
  const NoDirectories: Js.Value := Js.Obj(map["nodir" := Js.Bool(true)])

  /** `set.options || {nodir: true}`: the glob reads `options`, not the
      documented `source_options`. */
  function GlobOptions(ts: TransferSet): (r: Js.Value)
    ensures Js.Truthy(ts.options) ==> r == ts.options
    ensures !Js.Truthy(ts.options) ==> r == NoDirectories
  {
    if Js.Truthy(ts.options) then ts.options else NoDirectories
  }

  /** A synthesised set always globs with `{nodir: true}`, whatever
      `source_options` the configuration gives. */
  lemma DefaultSetIgnoresSourceOptions(f: Flavour, c: StageConfig)
    requires c.sets.None?
    ensures GlobOptions(Sets(f, c)[0]) == NoDirectories
  {
  }

  /** `getFilePromise(set, stage, app)`: an array is used as it is, a
      function is called with the set, a pattern is globbed. The function
      call and the file-system glob are parameters. */
  function Files(ts: TransferSet, call: TransferSet -> seq<FileEntry>, glob: (string, Js.Value) -> seq<string>)
    : (r: seq<FileEntry>)
    ensures ts.source.Listed? ==> r == ts.source.entries
    ensures ts.source.Generated? ==> r == call(ts)
    ensures ts.source.Globbed? ==> |r| == |glob(ts.source.pattern, GlobOptions(ts))|
    ensures ts.source.Globbed? ==>
              forall k :: 0 <= k < |r| ==> r[k] == Path(glob(ts.source.pattern, GlobOptions(ts))[k])
  {
    match ts.source
    case Listed(entries) => entries
    case Generated(_) => call(ts)
    case Globbed(pattern) =>
      var found := glob(pattern, GlobOptions(ts));
      seq(|found|, k requires 0 <= k < |found| => Path(found[k]))
  }

  /** `p` with a `'/'` appended unless it already ends in one. */
  function WithTrailingSlash(p: string): (r: string)
    ensures Strings.EndsWith(r, "/")
    ensures Strings.StartsWith(r, p) && |r| <= |p| + 1
    ensures r == p <==> Strings.EndsWith(p, "/")
  {
    if |p| > 0 && p[|p| - 1] == '/' then p else p + "/"
  }

  lemma WithTrailingSlashIdempotent(p: string)
    ensures WithTrailingSlash(WithTrailingSlash(p)) == WithTrailingSlash(p)
  {
  }

  /** `p` with one leading `'/'` removed, if it has one. */
  function StripLeadingSlash(p: string): (r: string)
    ensures r == p || p == "/" + r
    ensures r == p <==> !Strings.StartsWith(p, "/")
  {
    if |p| > 0 && p[0] == '/' then p[1..] else p
  }

  /** Only one slash goes: a path that starts with several keeps the rest. */
  lemma StripLeadingSlashOnce(q: string)
    ensures StripLeadingSlash("/" + q) == q
  {
  }

  /** What an object with no status turns into when it is used as a path. */
  const ObjectText := "[object Object]"

  /** A file request: the status, path and old path the planner acts on. */
  datatype Request = Request(status: string, path: string, oldpath: string)

  /** How an entry is read: falsy entries and objects with a status but no
      path are skipped; a string is a `put` of itself; an object without a
      status is a `put` of its own string form. */
  function Classify(e: FileEntry): (r: Option<Request>)
    ensures r.None? <==> e.Skip? || e == Path("") || (e.Described? && e.status != "" && e.path == "")
    ensures r.Some? ==> r.value.path != ""
    ensures e.Path? && r.Some? ==> r.value == Request("put", e.path, "")
    ensures e.Described? && e.status == "" ==> r == Some(Request("put", ObjectText, ""))
    ensures e.Described? && e.status != "" && r.Some? ==> r.value == Request(e.status, e.path, e.oldpath)
  {
    match e
    case Skip => None
    case Path(p) => if p == "" then None else Some(Request("put", p, ""))
    case Described(status, p, previous) =>
      if status == "" then Some(Request("put", ObjectText, ""))
      else if p == "" then None
      else Some(Request(status, p, previous))
  }

  predicate IsDeleteStatus(status: string)
  {
    status == "delete" || status == "deleted" || status == "removed"
  }

  predicate IsPutStatus(status: string)
  {
    status == "put" || status == "added" || status == "copied" || status == "modified" || status == "typechange"
  }

  /** A status the planner acts on; every other status is ignored. */
  predicate IsKnownStatus(status: string)
  {
    IsDeleteStatus(status) || IsPutStatus(status) || status == "renamed"
  }

  /** A remote operation: delete a remote path, or upload a local file to a
      remote path. */
  datatype Action =
    | Remove(remote: string)
    | Upload(local: string, remote: string)

  /** An action stays under the target base, and an upload takes its file
      from the same relative path under the workspace base. */
  predicate Mirrors(a: Action, targetBase: string, workspaceBase: string)
  {
    && Strings.StartsWith(a.remote, targetBase)
    && (a.Upload? ==> Strings.StartsWith(a.local, workspaceBase)
                      && a.local[|workspaceBase|..] == a.remote[|targetBase|..])
  }

  /** The operations one file entry asks for, in the order they are issued. */
  function FileActions(targetBase: string, workspaceBase: string, e: FileEntry): (r: seq<Action>)
    ensures |r| <= 2
    ensures forall k :: 0 <= k < |r| ==> Mirrors(r[k], targetBase, workspaceBase)
    ensures r == [] <==> Classify(e).None? || !IsKnownStatus(Classify(e).value.status)
    ensures Classify(e).Some? && IsDeleteStatus(Classify(e).value.status) ==>
              r == [Remove(targetBase + StripLeadingSlash(Classify(e).value.path))]
    ensures Classify(e).Some? && !IsDeleteStatus(Classify(e).value.status) && r != [] ==>
              r[|r| - 1] == Upload(workspaceBase + StripLeadingSlash(Classify(e).value.path),
                                   targetBase + StripLeadingSlash(Classify(e).value.path))
    ensures |r| == 2 <==> Classify(e).Some? && Classify(e).value.status == "renamed" && Classify(e).value.oldpath != ""
    ensures |r| == 2 ==> r[0] == Remove(targetBase + StripLeadingSlash(Classify(e).value.oldpath))
  {
    match Classify(e)
    case None => []
    case Some(q) =>
      var rel := StripLeadingSlash(q.path);
      var remote := targetBase + rel;
      var upload := Upload(workspaceBase + rel, remote);
      assert (workspaceBase + rel)[|workspaceBase|..] == rel;
      assert remote[|targetBase|..] == rel;
      if IsDeleteStatus(q.status) then [Remove(remote)]
      else if IsPutStatus(q.status) then [upload]
      else if q.status == "renamed" then
        if q.oldpath != "" then [Remove(targetBase + StripLeadingSlash(q.oldpath)), upload] else [upload]
      else []
  }

  /** An entry the planner recognises but whose status is none of the known
      ones: the status chain has no final branch, so `doneUpload` is never
      called and the series over the list (and over the sets after it)
      never continues. */
  predicate Stalls(e: FileEntry)
  {
    Classify(e).Some? && !IsKnownStatus(Classify(e).value.status)
  }

  /** The operations issued so far, and whether the series stopped at an
      entry that never calls back. */
  datatype Progress = Progress(actions: seq<Action>, stalled: bool)

  /** The operations of a whole file list: each entry's operations, in list
      order (the source walks the list with `eachSeries`), up to and
      including the first entry that stalls. */
  function ListActions(targetBase: string, workspaceBase: string, files: seq<FileEntry>): (r: Progress)
    ensures |r.actions| <= 2 * |files|
    ensures forall k :: 0 <= k < |r.actions| ==> Mirrors(r.actions[k], targetBase, workspaceBase)
    decreases |files|
  {
    if |files| == 0 then Progress([], false)
    else
      var init := files[..|files| - 1];
      var e := files[|files| - 1];
      var before := ListActions(targetBase, workspaceBase, init);
      if before.stalled then Progress(before.actions, true)
      else Progress(before.actions + FileActions(targetBase, workspaceBase, e), Stalls(e))
  }

  /** Some entry of the list stalls. */
  predicate ListStalls(files: seq<FileEntry>)
  {
    exists k :: 0 <= k < |files| && Stalls(files[k])
  }

  /** A list stalls exactly when one of its entries does. */
  lemma {:induction false} ListActionsStalled(targetBase: string, workspaceBase: string, files: seq<FileEntry>)
    ensures ListActions(targetBase, workspaceBase, files).stalled <==> ListStalls(files)
    decreases |files|
  {
    if |files| > 0 {
      var init := files[..|files| - 1];
      ListActionsStalled(targetBase, workspaceBase, init);
      StalledStep(targetBase, workspaceBase, files);
      ListStallsSnoc(files);
    }
  }

  /** Some entry stalls exactly when one before the last does or the last does. */
  lemma ListStallsSnoc(files: seq<FileEntry>)
    requires |files| > 0
    ensures ListStalls(files) <==> ListStalls(files[..|files| - 1]) || Stalls(files[|files| - 1])
  {
    var init := files[..|files| - 1];
    if ListStalls(files) {
      var k :| 0 <= k < |files| && Stalls(files[k]);
      if k < |init| {
        assert init[k] == files[k];
      }
    }
    if ListStalls(init) {
      var k :| 0 <= k < |init| && Stalls(init[k]);
      assert files[k] == init[k];
    }
  }

  /** The list stalls when the list before its last entry does, or that entry does. */
  lemma StalledStep(targetBase: string, workspaceBase: string, files: seq<FileEntry>)
    requires |files| > 0
    ensures ListActions(targetBase, workspaceBase, files).stalled
            == (ListActions(targetBase, workspaceBase, files[..|files| - 1]).stalled || Stalls(files[|files| - 1]))
  {
  }

  /** Some element satisfies `p` exactly when one before the last does or the last does. */
  lemma ExistsSnoc<T>(xs: seq<T>, init: seq<T>, x: T, p: T -> bool)
    requires xs == init + [x]
    ensures (exists k :: 0 <= k < |xs| && p(xs[k])) <==> (exists k :: 0 <= k < |init| && p(init[k])) || p(x)
  {
    if exists k :: 0 <= k < |xs| && p(xs[k]) {
      var k :| 0 <= k < |xs| && p(xs[k]);
      if k < |init| {
        assert init[k] == xs[k];
      }
    }
    if exists k :: 0 <= k < |init| && p(init[k]) {
      var k :| 0 <= k < |init| && p(init[k]);
      assert xs[k] == init[k];
    }
    if p(x) {
      assert xs[|init|] == x;
    }
  }

  /** Nothing after a stalling entry is planned. */
  lemma {:induction false} StallStops(targetBase: string, workspaceBase: string, a: seq<FileEntry>, b: seq<FileEntry>)
    requires ListActions(targetBase, workspaceBase, a).stalled
    ensures ListActions(targetBase, workspaceBase, a + b) == ListActions(targetBase, workspaceBase, a)
    decreases |b|
  {
    if |b| == 0 {
      assert a + b == a;
    } else {
      var b' := b[..|b| - 1];
      assert (a + b)[..|a + b| - 1] == a + b';
      StallStops(targetBase, workspaceBase, a, b');
    }
  }

  /** Planning a list piece by piece plans the whole list: when the first
      piece does not stall, the second piece's operations follow it. */
  lemma {:induction false} ListActionsAppend(targetBase: string, workspaceBase: string, a: seq<FileEntry>, b: seq<FileEntry>)
    requires !ListActions(targetBase, workspaceBase, a).stalled
    ensures ListActions(targetBase, workspaceBase, a + b).actions
            == ListActions(targetBase, workspaceBase, a).actions + ListActions(targetBase, workspaceBase, b).actions
    ensures ListActions(targetBase, workspaceBase, a + b).stalled == ListActions(targetBase, workspaceBase, b).stalled
    decreases |b|
  {
    if |b| == 0 {
      assert a + b == a;
    } else {
      var b' := b[..|b| - 1];
      var e := b[|b| - 1];
      assert b == b' + [e];
      ListActionsAppend(targetBase, workspaceBase, a, b');
      AppendStep(targetBase, workspaceBase, a, b', e);
    }
  }

  /** The inductive step of `ListActionsAppend`: one more entry at the end. */
  lemma AppendStep(targetBase: string, workspaceBase: string, a: seq<FileEntry>, b: seq<FileEntry>, e: FileEntry)
    requires !ListActions(targetBase, workspaceBase, a).stalled
    requires ListActions(targetBase, workspaceBase, a + b).actions
             == ListActions(targetBase, workspaceBase, a).actions + ListActions(targetBase, workspaceBase, b).actions
    requires ListActions(targetBase, workspaceBase, a + b).stalled == ListActions(targetBase, workspaceBase, b).stalled
    ensures ListActions(targetBase, workspaceBase, a + (b + [e])).actions
            == ListActions(targetBase, workspaceBase, a).actions + ListActions(targetBase, workspaceBase, b + [e]).actions
    ensures ListActions(targetBase, workspaceBase, a + (b + [e])).stalled
            == ListActions(targetBase, workspaceBase, b + [e]).stalled
  {
    var ab := a + b;
    assert a + (b + [e]) == ab + [e];
    assert (ab + [e])[..|ab + [e]| - 1] == ab;
    assert (b + [e])[..|b + [e]| - 1] == b;
    if !ListActions(targetBase, workspaceBase, b).stalled {
      Reassociate(ListActions(targetBase, workspaceBase, a).actions, ListActions(targetBase, workspaceBase, b).actions,
                  FileActions(targetBase, workspaceBase, e));
    }
  }

  lemma Reassociate(x: seq<Action>, y: seq<Action>, z: seq<Action>)
    ensures (x + y) + z == x + (y + z)
  {
  }

  /** Entries that are skipped produce no operation and let the series go on. */
  predicate Inert(e: FileEntry)
  {
    Classify(e).None?
  }

  lemma {:induction false} InertListPlansNothing(targetBase: string, workspaceBase: string, files: seq<FileEntry>)
    requires forall k :: 0 <= k < |files| ==> Inert(files[k])
    ensures ListActions(targetBase, workspaceBase, files) == Progress([], false)
  {
    if |files| > 0 {
      InertListPlansNothing(targetBase, workspaceBase, files[..|files| - 1]);
      assert FileActions(targetBase, workspaceBase, files[|files| - 1]) == [];
    }
  }

  /** An unmodified file ahead of a path: the path is never uploaded. */
  lemma UnknownStatusStalls(targetBase: string, workspaceBase: string, p: string, q: string)
    requires p != "" && q != ""
    ensures ListActions(targetBase, workspaceBase, [Described("unmodified", p, ""), Path(q)]) == Progress([], true)
  {
    var files := [Described("unmodified", p, ""), Path(q)];
    assert Stalls(files[0]);
    assert files[..1] == [files[0]];
    assert files[..1][..0] == [];
  }

  /** The remote base of a set: its target with a trailing `'/'`. */
  function TargetBase(ts: TransferSet): (r: string)
    ensures Strings.EndsWith(r, "/") && Strings.StartsWith(r, ts.target)
  {
    WithTrailingSlash(ts.target)
  }

  /** The FTP stage's local base as written: `workspace + '/' + swp`, with no
      separator after a non-empty `source_workspace_path`. */
  function FtpWorkspaceBaseAsWritten(workspace: string, swp: string): (r: string)
    ensures Strings.StartsWith(r, workspace + "/") && Strings.EndsWith(r, swp)
  {
    workspace + "/" + swp
  }

  /** With `source_workspace_path` "dist" the file `a.js` is read from
      `undefined/dista.js` rather than `undefined/dist/a.js`; the workspace
      part is the printed, never assigned `workspace.path`. */
  lemma FtpWorkspaceBaseGluesNames()
    ensures FtpWorkspaceBaseAsWritten(Coerce.Text(Js.Undefined), "dist") + "a.js" == "undefined/dista.js"
    ensures !Strings.StartsWith(FtpWorkspaceBaseAsWritten(Coerce.Text(Js.Undefined), "dist") + "a.js", "undefined/dist/")
  {
    assert ("undefined/dista.js")[14] == 'a';
  }

  /** The pipeline's `workspace` object is created empty and nothing gives
      it a `path`, so both stages print `undefined` where the workspace
      directory was meant: every local base is relative to the working
      directory and starts with the text `undefined`. */
  lemma UnsetWorkspacePath(f: Flavour, swp: string)
    ensures Strings.StartsWith(WorkspaceBase(f, Coerce.Text(Js.Undefined), swp), "undefined")
    ensures f.Ftp? ==> Strings.StartsWith(WorkspaceBase(f, Coerce.Text(Js.Undefined), swp), "undefined/" + swp)
    ensures f.Ssh? ==> Strings.StartsWith(WorkspaceBase(f, Coerce.Text(Js.Undefined), swp), "undefined" + swp)
  {
    var w := Coerce.Text(Js.Undefined);
    assert w == "undefined";
    var r := WorkspaceBase(f, w, swp);
    if f.Ftp? {
      assert r[..|w + "/" + swp|] == w + "/" + swp;
      assert (w + "/" + swp)[..|w|] == w;
    } else {
      assert r[..|w + swp|] == w + swp;
      assert (w + swp)[..|w|] == w;
    }
  }

  /** The FTP local base with the separator the SSH stage adds. */
  function FtpWorkspaceBase(workspace: string, swp: string): (r: string)
    ensures Strings.EndsWith(r, "/")
    ensures Strings.StartsWith(r, workspace + "/" + swp)
  {
    WithTrailingSlash(workspace + "/" + swp)
  }

  /** The corrected base differs from the written one exactly when a
      non-empty `source_workspace_path` lacks its own trailing `'/'`. */
  lemma FtpWorkspaceBaseAgrees(workspace: string, swp: string)
    ensures FtpWorkspaceBase(workspace, swp) == FtpWorkspaceBaseAsWritten(workspace, swp)
            <==> swp == "" || Strings.EndsWith(swp, "/")
  {
    var w := workspace + "/" + swp;
    if swp != "" {
      assert w[|w| - 1] == swp[|swp| - 1];
    }
  }

  /** The SSH stage's local base: `workspace + swp`, with a `'/'` appended
      unless it already ends in one. */
  function SshWorkspaceBase(workspace: string, swp: string): (r: string)
    ensures Strings.EndsWith(r, "/")
    ensures Strings.StartsWith(r, workspace + swp)
  {
    WithTrailingSlash(workspace + swp)
  }

  function WorkspaceBase(f: Flavour, workspace: string, swp: string): (r: string)
    ensures Strings.EndsWith(r, "/")
  {
    match f
    case Ftp => FtpWorkspaceBase(workspace, swp)
    case Ssh => SshWorkspaceBase(workspace, swp)
  }

  /** A remote path lies under the target base of one of the sets. */
  predicate UnderSomeTarget(remote: string, sets: seq<TransferSet>)
  {
    exists j :: 0 <= j < |sets| && Strings.StartsWith(remote, TargetBase(sets[j]))
  }

  /** The progress of one set's file list against its own bases. */
  function SetProgress(f: Flavour, workspace: string, ts: TransferSet, files: TransferSet -> seq<FileEntry>): (r: Progress)
    ensures forall k :: 0 <= k < |r.actions| ==> Strings.StartsWith(r.actions[k].remote, TargetBase(ts))
  {
    ListActions(TargetBase(ts), WorkspaceBase(f, workspace, ts.workspacePath), files(ts))
  }

  /** Some entry of some set's file list stalls. */
  predicate SomeSetStalls(sets: seq<TransferSet>, files: TransferSet -> seq<FileEntry>)
  {
    exists j :: 0 <= j < |sets| && ListStalls(files(sets[j]))
  }

  /** The operations of all sets in order, each set planned against its
      own target and workspace bases; a set that stalls holds up every set
      after it. */
  function PlanSets(f: Flavour, workspace: string, sets: seq<TransferSet>, files: TransferSet -> seq<FileEntry>)
    : (r: Progress)
    ensures forall k :: 0 <= k < |r.actions| ==> UnderSomeTarget(r.actions[k].remote, sets)
    ensures r.stalled <==> SomeSetStalls(sets, files)
    decreases |sets|
  {
    if |sets| == 0 then Progress([], false)
    else
      var init := PlanSets(f, workspace, sets[..|sets| - 1], files);
      var last := sets[|sets| - 1];
      var more := SetProgress(f, workspace, last, files);
      SomeSetStallsStep(sets, files);
      ListActionsStalled(TargetBase(last), WorkspaceBase(f, workspace, last.workspacePath), files(last));
      if init.stalled then
        PlanSetsStep(init.actions, [], sets);
        assert init.actions + [] == init.actions;
        Progress(init.actions, true)
      else
        PlanSetsStep(init.actions, more.actions, sets);
        Progress(init.actions + more.actions, more.stalled)
  }

  /** Some set stalls exactly when an earlier one does or the last one does. */
  lemma SomeSetStallsStep(sets: seq<TransferSet>, files: TransferSet -> seq<FileEntry>)
    requires |sets| > 0
    ensures SomeSetStalls(sets, files)
            <==> SomeSetStalls(sets[..|sets| - 1], files) || ListStalls(files(sets[|sets| - 1]))
  {
    ExistsSnoc(sets, sets[..|sets| - 1], sets[|sets| - 1], ts => ListStalls(files(ts)));
  }

  lemma PlanSetsStep(init: seq<Action>, more: seq<Action>, sets: seq<TransferSet>)
    requires |sets| > 0
    requires forall k :: 0 <= k < |init| ==> UnderSomeTarget(init[k].remote, sets[..|sets| - 1])
    requires forall k :: 0 <= k < |more| ==> Strings.StartsWith(more[k].remote, TargetBase(sets[|sets| - 1]))
    ensures forall k :: 0 <= k < |init + more| ==> UnderSomeTarget((init + more)[k].remote, sets)
  {
    forall k | 0 <= k < |init + more|
      ensures UnderSomeTarget((init + more)[k].remote, sets)
    {
      if k < |init| {
        var j :| 0 <= j < |sets| - 1 && Strings.StartsWith(init[k].remote, TargetBase(sets[..|sets| - 1][j]));
        assert sets[..|sets| - 1][j] == sets[j];
      } else {
        assert Strings.StartsWith(more[k - |init|].remote, TargetBase(sets[|sets| - 1]));
      }
    }
  }

  /** `config.servers(server)` when the filter is given. */
  predicate Accepts<S>(filter: Option<S -> bool>, server: S)
  {
    filter.None? || filter.value(server)
  }

  /** The servers a stage uploads to, in workspace order. */
  function Accepted<S(==,!new)>(servers: seq<S>, filter: Option<S -> bool>): (r: seq<S>)
    ensures |r| <= |servers|
    ensures forall s :: s in r <==> s in servers && Accepts(filter, s)
    ensures filter.None? ==> r == servers
  {
    if |servers| == 0 then []
    else
      var init := Accepted(servers[..|servers| - 1], filter);
      var s := servers[|servers| - 1];
      assert servers == servers[..|servers| - 1] + [s];
      if Accepts(filter, s) then init + [s] else init
  }

  /** What a stage run plans: the servers it uploads to, the operations
      every one of them receives, and whether each server's series stalls
      and so never settles. */
  datatype Plan<S> = Plan(servers: seq<S>, actions: seq<Action>, stalled: bool)

  /** The whole stage: transfer sets, their files, the server filter. */
  function StagePlan<S(==,!new)>(f: Flavour, c: StageConfig, workspace: string, servers: seq<S>, filter: Option<S -> bool>,
                            call: TransferSet -> seq<FileEntry>, glob: (string, Js.Value) -> seq<string>)
    : (r: Plan<S>)
    ensures forall s :: s in r.servers <==> s in servers && Accepts(filter, s)
    ensures forall k :: 0 <= k < |r.actions| ==>
              exists j :: 0 <= j < |Sets(f, c)| && Strings.StartsWith(r.actions[k].remote, TargetBase(Sets(f, c)[j]))
    ensures r.stalled <==> exists j :: 0 <= j < |Sets(f, c)| && ListStalls(Files(Sets(f, c)[j], call, glob))
  {
    var p := PlanSets(f, workspace, Sets(f, c), ts => Files(ts, call, glob));
    Plan(Accepted(servers, filter), p.actions, p.stalled)
  }

  /** Without `sets`, the stage plans the files of the synthesised set
      against the top-level target; FTP reads them from the workspace root. */
  lemma StagePlanDefault<S(!new)>(f: Flavour, c: StageConfig, workspace: string, servers: seq<S>, filter: Option<S -> bool>,
                                call: TransferSet -> seq<FileEntry>, glob: (string, Js.Value) -> seq<string>)
    requires c.sets.None?
    ensures var p := ListActions(WithTrailingSlash(c.target),
                                 WorkspaceBase(f, workspace, if f == Ftp then "" else c.workspacePath),
                                 Files(Sets(f, c)[0], call, glob));
            && StagePlan(f, c, workspace, servers, filter, call, glob).actions == p.actions
            && StagePlan(f, c, workspace, servers, filter, call, glob).stalled == p.stalled
  {
    var sets := Sets(f, c);
    var files := ts => Files(ts, call, glob);
    assert sets[..0] == [];
    var more := ListActions(TargetBase(sets[0]), WorkspaceBase(f, workspace, sets[0].workspacePath), files(sets[0]));
    assert PlanSets(f, workspace, sets, files) == Progress([] + more.actions, more.stalled);
    assert [] + more.actions == more.actions;
  }

  /** A command or transfer on an SSH connection. */
  datatype SshCall = Exec(command: string) | PutFile(local: string, remote: string)

  const RmPrefix := "rm -f \""

  /** `'rm -f "' + path + '"'`. */
  function RmCommand(path: string): (r: string)
    ensures Strings.StartsWith(r, RmPrefix) && Strings.EndsWith(r, "\"")
    ensures |r| == |RmPrefix| + |path| + 1
    ensures r[|RmPrefix|..|r| - 1] == path
  {
    var r := RmPrefix + path + "\"";
    assert r[|RmPrefix|..|r| - 1] == path;
    r
  }

  /** Distinct paths give distinct commands. */
  lemma RmCommandInjective(p: string, q: string)
    requires RmCommand(p) == RmCommand(q)
    ensures p == q
  {
    assert RmCommand(p)[|RmPrefix|..|RmCommand(p)| - 1] == p;
  }

  /** The SSH stage's calls for a plan: deletes become `rm -f`, uploads
      become `putFile`. A rename's upload follows its delete whatever the
      delete's outcome, so the plan does not depend on it. */
  function SshCalls(actions: seq<Action>): (r: seq<SshCall>)
    ensures |r| == |actions|
    ensures forall k :: 0 <= k < |r| ==> (r[k].Exec? <==> actions[k].Remove?)
    ensures forall k :: 0 <= k < |r| && actions[k].Remove? ==> r[k] == Exec(RmCommand(actions[k].remote))
    ensures forall k :: 0 <= k < |r| && actions[k].Upload? ==> r[k] == PutFile(actions[k].local, actions[k].remote)
  {
    seq(|actions|, k requires 0 <= k < |actions| =>
      match actions[k]
      case Remove(remote) => Exec(RmCommand(remote))
      case Upload(local, remote) => PutFile(local, remote))
  }
}

=== FILE: version.dfy ===
/**
 The pipeline update endpoint's reading of its request: the pipeline name
 with its default, the next version number parsed from a dotted version
 string, and the numeric group id. The database write and the pipeline
 file that follow are not modelled.
 */
module VersionRequest {
  import Js
  import Coerce
  import Numbers
  import Strings
  import opened Wrappers

  const DefaultName := "My new pipeline"

  /** A falsy name becomes the default name. */
  function PipelineName(name: Js.Value): (r: Js.Value)
    ensures Js.Truthy(r)
    ensures Js.Truthy(name) ==> r == name
    ensures !Js.Truthy(name) ==> r == Js.Str(DefaultName)
  {
    if Js.Truthy(name) then name else Js.Str(DefaultName)
  }

  /** The next version to store; each part is whatever `parseInt` read. */
  datatype Version = Version(major: Numbers.ParsedInt, minor: Numbers.ParsedInt, patch: Numbers.ParsedInt)

  /** 0.0.1, used when no version text is given. */
  const Initial := Version(Numbers.Int(0), Numbers.Int(0), Numbers.Int(1))

  /** Calling `trim` on a value that is not text. */
  datatype RequestError = TrimNotAFunction

  /** The version of trimmed, non-empty text: with a `'.'`, major and minor
      from the first two parts and the patch from the third when there is
      one (else 1); without, the major from the whole text, minor 0, patch 1. */
  function ParseDotted(v: string): (r: Version)
    ensures '.' in v ==> r.major == Numbers.ParseInt(Strings.BeforeFirst(v, '.'))
    ensures '.' !in v ==> r == Version(Numbers.ParseInt(v), Numbers.Int(0), Numbers.Int(1))
    ensures |Strings.Split(v, '.')| <= 2 ==> r.patch == Numbers.Int(1)
  {
    if '.' in v then
      var parts := Strings.Split(v, '.');
      Strings.SplitHead(v, '.');
      Version(Numbers.ParseInt(parts[0]), Numbers.ParseInt(parts[1]),
              if |parts| > 2 then Numbers.ParseInt(parts[2]) else Numbers.Int(1))
    else Version(Numbers.ParseInt(v), Numbers.Int(0), Numbers.Int(1))
  }

  /** The endpoint's version: absent, falsy or blank text gives 0.0.1,
      anything else is trimmed and parsed; a truthy non-text value fails on
      `trim`. */
  function NextVersion(version: Js.Value): (r: Result<Version, RequestError>)
    ensures r.Err? <==> Js.Truthy(version) && !version.Str?
    ensures !Js.Truthy(version) ==> r == Ok(Initial)
  {
    match version
    case Str(s) =>
      if s == "" then Ok(Initial)
      else
        var v := Strings.Trim(s);
        if |v| == 0 then Ok(Initial) else Ok(ParseDotted(v))
    case _ => if Js.Truthy(version) then Err(TrimNotAFunction) else Ok(Initial)
  }

  /** Text is trimmed first: blank text gives 0.0.1, anything else is
      parsed from its trimmed form. */
  lemma NextVersionOfText(s: string)
    ensures |Strings.Trim(s)| == 0 ==> NextVersion(Js.Str(s)) == Ok(Initial)
    ensures |Strings.Trim(s)| > 0 ==> NextVersion(Js.Str(s)) == Ok(ParseDotted(Strings.Trim(s)))
  {
    if s == "" {
      Strings.TrimOfEmpty();
      assert NextVersion(Js.Str(s)) == Ok(Initial);
    } else {
      var v := Strings.Trim(s);
      assert NextVersion(Js.Str(s)) == if |v| == 0 then Ok(Initial) else Ok(ParseDotted(v));
    }
  }

  /** Text made only of blanks reads as 0.0.1. */
  lemma BlankVersionIsInitial(v: string)
    requires forall k :: 0 <= k < |v| ==> Strings.IsBlank(v[k])
    ensures NextVersion(Js.Str(v)) == Ok(Initial)
  {
    Strings.TrimEmpty(v);
    NextVersionOfText(v);
  }

  /** The version of text with no blank at either end is read from its parts. */
  lemma NextVersionOfParts(v: string, parts: seq<string>)
    requires |v| > 0 && !Strings.IsBlank(v[0]) && !Strings.IsBlank(v[|v| - 1])
    requires Strings.Split(v, '.') == parts && |parts| >= 2
    ensures NextVersion(Js.Str(v)) == Ok(Version(Numbers.ParseInt(parts[0]), Numbers.ParseInt(parts[1]),
                                                 if |parts| > 2 then Numbers.ParseInt(parts[2]) else Numbers.Int(1)))
  {
    Strings.TrimUnchanged(v);
    NextVersionOfText(v);
    ParseDottedOfParts(v, parts);
  }

  /** A printed number reads back as itself. */
  lemma ReadsBack(a: nat)
    ensures Numbers.ParseInt(Numbers.NatToString(a)) == Numbers.Int(a)
  {
    var x := Numbers.NatToString(a);
    Numbers.ParseIntOfNat(a, "");
    assert x + "" == x;
  }

  /** Printed versions read back: `"a.b.c"` gives a, b and c. */
  lemma ThreePartRoundTrip(a: nat, b: nat, c: nat)
    ensures NextVersion(Js.Str(Numbers.NatToString(a) + "." + Numbers.NatToString(b) + "." + Numbers.NatToString(c)))
            == Ok(Version(Numbers.Int(a), Numbers.Int(b), Numbers.Int(c)))
  {
    ThreeNumerals(Numbers.NatToString(a), Numbers.NatToString(b), Numbers.NatToString(c));
    ReadsBack(a);
    ReadsBack(b);
    ReadsBack(c);
  }

  /** Three runs of digits joined by dots are read part by part. */
  lemma ThreeNumerals(x: string, y: string, z: string)
    requires |x| > 0 && forall k :: 0 <= k < |x| ==> Numbers.IsDigit(x[k])
    requires forall k :: 0 <= k < |y| ==> Numbers.IsDigit(y[k])
    requires |z| > 0 && forall k :: 0 <= k < |z| ==> Numbers.IsDigit(z[k])
    ensures NextVersion(Js.Str(x + "." + y + "." + z)) == Ok(Version(Numbers.ParseInt(x), Numbers.ParseInt(y), Numbers.ParseInt(z)))
  {
    NoDot(x);
    NoDot(y);
    NoDot(z);
    SplitThree(x, y, z);
    EndsOf(x + "." + y, ".", z);
    assert (x + "." + y)[0] == x[0];
    NextVersionOfParts(x + "." + y + "." + z, [x, y, z]);
  }

  /** `"a.b"` gives a, b and patch 1. */
  lemma TwoPartRoundTrip(a: nat, b: nat)
    ensures NextVersion(Js.Str(Numbers.NatToString(a) + "." + Numbers.NatToString(b)))
            == Ok(Version(Numbers.Int(a), Numbers.Int(b), Numbers.Int(1)))
  {
    var x, y := Numbers.NatToString(a), Numbers.NatToString(b);
    NoDot(x);
    NoDot(y);
    var v := x + "." + y;
    SplitTwo(x, y);
    EndsOf(x, ".", y);
    NextVersionOfParts(v, [x, y]);
    ReadsBack(a);
    ReadsBack(b);
  }

  /** A bare number `"a"` gives a.0.1. */
  lemma BareRoundTrip(a: nat)
    ensures NextVersion(Js.Str(Numbers.NatToString(a))) == Ok(Version(Numbers.Int(a), Numbers.Int(0), Numbers.Int(1)))
  {
    var x := Numbers.NatToString(a);
    NoDot(x);
    Strings.TrimUnchanged(x);
    NextVersionOfText(x);
    ReadsBack(a);
  }

  /** Text between two non-empty pieces starts and ends as they do. */
  lemma EndsOf(x: string, mid: string, z: string)
    requires |x| > 0 && |z| > 0
    ensures (x + mid + z)[0] == x[0] && (x + mid + z)[|x + mid + z| - 1] == z[|z| - 1]
  {
  }

  lemma SplitTwo(x: string, y: string)
    requires '.' !in x && '.' !in y
    ensures Strings.Split(x + "." + y, '.') == [x, y]
  {
    Strings.SplitCons(x, '.', y);
  }

  lemma SplitThree(x: string, y: string, z: string)
    requires '.' !in x && '.' !in y && '.' !in z
    ensures Strings.Split(x + "." + y + "." + z, '.') == [x, y, z]
  {
    assert x + "." + y + "." + z == x + ['.'] + (y + "." + z);
    Strings.SplitCons(x, '.', y + "." + z);
    SplitTwo(y, z);
  }

  /** Parts beyond the third are ignored: `"a.b.c.d"` reads as `"a.b.c"`. */
  lemma ExtraPartsIgnored(parts: seq<string>)
    requires |parts| >= 3
    requires forall k :: 0 <= k < |parts| ==> '.' !in parts[k]
    ensures ParseDotted(Strings.Join(parts, ".")) == ParseDotted(Strings.Join(parts[..3], "."))
  {
    ParseDottedOfJoin(parts);
    ParseDottedOfJoin(parts[..3]);
  }

  lemma ParseDottedOfJoin(parts: seq<string>)
    requires |parts| >= 3
    requires forall k :: 0 <= k < |parts| ==> '.' !in parts[k]
    ensures ParseDotted(Strings.Join(parts, ".")) == Version(Numbers.ParseInt(parts[0]), Numbers.ParseInt(parts[1]), Numbers.ParseInt(parts[2]))
  {
    Strings.JoinSplit(parts, '.');
    ParseDottedOfParts(Strings.Join(parts, "."), parts);
  }

  lemma ParseDottedOfParts(v: string, parts: seq<string>)
    requires Strings.Split(v, '.') == parts && |parts| >= 2
    ensures ParseDotted(v) == Version(Numbers.ParseInt(parts[0]), Numbers.ParseInt(parts[1]),
                                      if |parts| > 2 then Numbers.ParseInt(parts[2]) else Numbers.Int(1))
  {
  }

  lemma NoDot(d: string)
    requires forall k :: 0 <= k < |d| ==> Numbers.IsDigit(d[k])
    ensures '.' !in d && (|d| > 0 ==> !Strings.IsBlank(d[0]) && !Strings.IsBlank(d[|d| - 1]))
  {
  }

  /** `groupId ? parseInt(groupId) : null`: `None` stands for `null`.
      `parseInt` reads the printed form of its argument, so a number reads
      as itself and so does an array holding just that number. */
  function Group(groupId: Js.Value): (r: Option<Numbers.ParsedInt>)
    ensures r.None? <==> !Js.Truthy(groupId)
    ensures Js.Truthy(groupId) && groupId.Str? ==> r == Some(Numbers.ParseInt(groupId.s))
    ensures Js.Truthy(groupId) && groupId.Num? ==> r == Some(Numbers.Int(groupId.n))
    ensures groupId.Arr? && |groupId.items| == 1 && groupId.items[0].Num? ==> r == Some(Numbers.Int(groupId.items[0].n))
    ensures Js.Truthy(groupId) && (groupId.Bool? || groupId.Obj?) ==> r == Some(Numbers.NaN)
  {
    if !Js.Truthy(groupId) then None
    else
      ReadsBackInt(groupId);
      if groupId.Arr? && |groupId.items| == 1 && groupId.items[0].Num? then
        Coerce.TextOfSingleton(groupId.items[0]);
        assert groupId == Js.Arr([groupId.items[0]]);
        ReadsBackInt(groupId.items[0]);
        Some(Numbers.ParseInt(Coerce.Text(groupId)))
      else Some(Numbers.ParseInt(Coerce.Text(groupId)))
  }

  /** A number's printed form reads back as the number; `true`, `false`
      and `[object Object]` read as `NaN`. */
  lemma ReadsBackInt(v: Js.Value)
    ensures v.Num? ==> Numbers.ParseInt(Coerce.Text(v)) == Numbers.Int(v.n)
    ensures v.Bool? || v.Obj? ==> Numbers.ParseInt(Coerce.Text(v)) == Numbers.NaN
  {
    if v.Num? {
      Numbers.ParseIntOfInt(v.n, "");
      assert Numbers.IntToString(v.n) + "" == Numbers.IntToString(v.n);
    } else if v.Bool? || v.Obj? {
      Numbers.ParseIntNaN(Coerce.Text(v));
    }
  }
}

=== FILE: websocket.dfy ===
/**
 The websocket service. On the server: the list of connected clients, the
 gate every incoming message passes (JSON, a type, a known type, and
 `alfred/hello` before anything else), registration and reclaiming of
 clients by name and type, lookup by id, forwarding between clients, and
 removal on close. On the client: the normalisation of the configured
 server url. Sockets are numbered; a message is the JSON value it parses
 to. Sending, timers and the socket library are not modelled.
 */
module WebSocket {
  import Coerce
  import Js
  import Strings
  import opened Wrappers

  /** A registered client: its id, trimmed name, trimmed lower-case type,
      the socket it is currently reached on, and its hello message. */
  datatype Client = Client(id: nat, name: string, kind: string, socket: nat, hello: Js.Value, capabilities: Js.Value)

  /** The server: the client list, the next id to hand out, and which
      client each socket has said hello as (`ws.client`). */
  datatype Server = Server(clients: seq<Client>, next: nat, bound: map<nat, nat>)

  /** The state when the server starts: ids begin at 1. */
  const Start := Server([], 1, map[])

  /** Ids are handed out in increasing order and are all below `next`. */
  predicate Valid(s: Server)
  {
    && s.next >= 1
    && (forall i :: 0 <= i < |s.clients| ==> 1 <= s.clients[i].id < s.next)
    && Increasing(s.clients)
  }

  lemma StartValid()
    ensures Valid(Start)
  {
  }

  /** No two clients share a name and a type. */
  predicate UniquePairs(clients: seq<Client>)
  {
    forall i, j :: 0 <= i < j < |clients| ==> (clients[i].name, clients[i].kind) != (clients[j].name, clients[j].kind)
  }

  /** Index of the first client with this name and type, or -1. */
  function IndexByPair(clients: seq<Client>, name: string, kind: string): (r: int)
    ensures -1 <= r < |clients|
    ensures r >= 0 ==> clients[r].name == name && clients[r].kind == kind
    ensures r >= 0 ==> forall j :: 0 <= j < r ==> !(clients[j].name == name && clients[j].kind == kind)
    ensures r == -1 ==> forall j :: 0 <= j < |clients| ==> !(clients[j].name == name && clients[j].kind == kind)
  {
    if |clients| == 0 then -1
    else if clients[0].name == name && clients[0].kind == kind then 0
    else
      var k := IndexByPair(clients[1..], name, kind);
      assert forall j :: 1 <= j < |clients| ==> clients[j] == clients[1..][j - 1];
      if k < 0 then -1 else k + 1
  }

  /** `find(id)`: index of the first client whose id loosely equals `v`, or -1. */
  function IndexById(clients: seq<Client>, v: Js.Value): (r: int)
    ensures -1 <= r < |clients|
    ensures r >= 0 ==> Coerce.LooseEqualsNat(v, clients[r].id)
    ensures r >= 0 ==> forall j :: 0 <= j < r ==> !Coerce.LooseEqualsNat(v, clients[j].id)
    ensures r == -1 ==> forall j :: 0 <= j < |clients| ==> !Coerce.LooseEqualsNat(v, clients[j].id)
  {
    if |clients| == 0 then -1
    else if Coerce.LooseEqualsNat(v, clients[0].id) then 0
    else
      var k := IndexById(clients[1..], v);
      assert forall j :: 1 <= j < |clients| ==> clients[j] == clients[1..][j - 1];
      if k < 0 then -1 else k + 1
  }

  /** With distinct ids, looking a client up by its own id finds it. */
  lemma IndexByIdFindsOwn(s: Server, i: nat)
    requires Valid(s) && i < |s.clients|
    ensures IndexById(s.clients, Js.Num(s.clients[i].id)) == i
  {
  }

  /** The lookup of `alfred/hello` as written: `find(name, type)` searches
      by name and type only when both are non-empty, and otherwise by id
      with the name. */
  function HelloLookupAsWritten(clients: seq<Client>, name: string, kind: string): (r: int)
    ensures -1 <= r < |clients|
    ensures name != "" && kind != "" ==> r == IndexByPair(clients, name, kind)
    ensures kind == "" ==> r == IndexById(clients, Js.Str(name))
  {
    if name != "" && kind != "" then IndexByPair(clients, name, kind) else IndexById(clients, Js.Str(name))
  }

  /** The lookup `alfred/hello` means to make: by name and type. */
  function HelloLookup(clients: seq<Client>, name: string, kind: string): (r: int)
    ensures -1 <= r < |clients|
    ensures r >= 0 ==> clients[r].name == name && clients[r].kind == kind
    ensures r == -1 ==> forall j :: 0 <= j < |clients| ==> !(clients[j].name == name && clients[j].kind == kind)
  {
    IndexByPair(clients, name, kind)
  }

  /** What the server does with one incoming message. */
  datatype Event =
    | NotJson
    | NoType
    | UnknownType
    | BeforeHello
    | Terminated                                    // hello without a name or a type
    | Throws                                        // `null.type`, or `trim` of a non-text name
    | Welcome(id: nat, requestId: Js.Value)
    | Listed(clients: seq<Client>)
    | NotFound(target: Js.Value)
    | ForwardFail
    | Forwarded(socket: nat, payload: Js.Value)
    | Delegated(kind: string)                       // a handler registered by another module

  /** An event that runs no handler. */
  predicate Gated(e: Event)
  {
    e.NotJson? || e.NoType? || e.UnknownType? || e.BeforeHello?
  }

  datatype Step = Step(server: Server, event: Event)

  const Hello := "alfred/hello"
  const List := "client/list"
  const Forward := "client/forward"
  const Chat := "chat/message"

  /** The handlers this module registers. */
  const BuiltIn: set<string> := {Hello, List, Forward, Chat}

  /** Registration after the lookup found `found`: reclaim that client for
      this socket, or append a new one with the next id. */
  function Register(s: Server, ws: nat, message: Js.Value, name: string, kind: string, found: int): (r: Step)
    requires -1 <= found < |s.clients|
    ensures r.event.Welcome?
    ensures found >= 0 ==> r.server.clients == s.clients[found := s.clients[found].(socket := ws, hello := message)]
    ensures found >= 0 ==> r.server.next == s.next && r.event.id == s.clients[found].id
    ensures found < 0 ==> r.server.clients == s.clients + [Client(s.next, name, kind, ws, message, Js.Get(message, "capabilities"))]
    ensures found < 0 ==> r.server.next == s.next + 1 && r.event.id == s.next
    ensures r.server.bound == s.bound[ws := r.event.id]
    ensures r.event.requestId == (if Js.Truthy(Js.Get(message, "requestId")) then Js.Get(message, "requestId") else Js.Undefined)
  {
    var requestId := if Js.Truthy(Js.Get(message, "requestId")) then Js.Get(message, "requestId") else Js.Undefined;
    if found >= 0 then
      var c := s.clients[found];
      Step(Server(s.clients[found := c.(socket := ws, hello := message)], s.next, s.bound[ws := c.id]),
           Welcome(c.id, requestId))
    else
      var c := Client(s.next, name, kind, ws, message, Js.Get(message, "capabilities"));
      Step(Server(s.clients + [c], s.next + 1, s.bound[ws := c.id]), Welcome(c.id, requestId))
  }

  /** The name and type a hello carries, trimmed (and the type lower-cased);
      `None` when either is missing or empty before trimming. */
  function HelloFields(message: Js.Value): (r: Option<Result<(string, string), Event>>)
    ensures r.None? <==> !Js.Truthy(Js.Get(message, "name")) || !Js.Truthy(Js.Get(message, "clientType"))
    ensures r.Some? && r.value.Ok? ==>
              Js.Get(message, "name").Str? && Js.Get(message, "clientType").Str?
              && r.value.value == (Strings.Trim(Js.Get(message, "name").s),
                                   Strings.ToLower(Strings.Trim(Js.Get(message, "clientType").s)))
    ensures r.Some? && r.value.Err? ==> r.value.error == Throws
  {
    var name := Js.Get(message, "name");
    var kind := Js.Get(message, "clientType");
    if !Js.Truthy(name) || !Js.Truthy(kind) then None
    else if !name.Str? || !kind.Str? then Some(Err(Throws))
    else Some(Ok((Strings.Trim(name.s), Strings.ToLower(Strings.Trim(kind.s)))))
  }

  /** `alfred/hello` as written. */
  function HelloAsWritten(s: Server, ws: nat, message: Js.Value): (r: Step)
    ensures HelloFields(message).None? ==> r == Step(s, Terminated)
  {
    match HelloFields(message)
    case None => Step(s, Terminated)
    case Some(Err(e)) => Step(s, e)
    case Some(Ok((name, kind))) => Register(s, ws, message, name, kind, HelloLookupAsWritten(s.clients, name, kind))
  }

  /** `alfred/hello` with the lookup by name and type. */
  function HelloStep(s: Server, ws: nat, message: Js.Value): (r: Step)
    ensures HelloFields(message).None? ==> r == Step(s, Terminated)
    ensures HelloFields(message).Some? && HelloFields(message).value.Err? ==> r == Step(s, Throws)
    ensures HelloFields(message).Some? && HelloFields(message).value.Ok? ==>
              var (name, kind) := HelloFields(message).value.value;
              && r.event.Welcome?
              && |r.server.clients| == |s.clients| + (if HelloLookup(s.clients, name, kind) < 0 then 1 else 0)
              && (exists i :: 0 <= i < |r.server.clients| && r.server.clients[i].id == r.event.id
                    && r.server.clients[i].name == name && r.server.clients[i].kind == kind && r.server.clients[i].socket == ws)
  {
    match HelloFields(message)
    case None => Step(s, Terminated)
    case Some(Err(e)) => Step(s, e)
    case Some(Ok((name, kind))) =>
      var found := HelloLookup(s.clients, name, kind);
      var r := Register(s, ws, message, name, kind, found);
      var i := if found >= 0 then found else |s.clients|;
      assert r.server.clients[i].id == r.event.id;
      r
  }

  /** A hello keeps ids increasing and below `next`. */
  lemma HelloValid(s: Server, ws: nat, message: Js.Value)
    requires Valid(s)
    ensures Valid(HelloStep(s, ws, message).server)
  {
    match HelloFields(message)
    case None =>
    case Some(Err(e)) =>
    case Some(Ok((name, kind))) =>
      RegisterValid(s, ws, message, name, kind, HelloLookup(s.clients, name, kind));
  }

  /** Registering, new or reclaimed, keeps ids increasing and below `next`. */
  lemma RegisterValid(s: Server, ws: nat, message: Js.Value, name: string, kind: string, found: int)
    requires Valid(s) && -1 <= found < |s.clients|
    ensures Valid(Register(s, ws, message, name, kind, found).server)
  {
  }

  /** A hello under the intended lookup never creates a second client
      with the same name and type. */
  lemma HelloKeepsPairsUnique(s: Server, ws: nat, message: Js.Value)
    requires UniquePairs(s.clients)
    ensures UniquePairs(HelloStep(s, ws, message).server.clients)
  {
  }

  /** A hello whose name matches an existing client reclaims it: the same
      id, no new entry. */
  lemma HelloReclaims(s: Server, ws: nat, message: Js.Value, i: nat)
    requires HelloFields(message).Some? && HelloFields(message).value.Ok?
    requires i < |s.clients| && UniquePairs(s.clients)
    requires (s.clients[i].name, s.clients[i].kind) == HelloFields(message).value.value
    ensures HelloStep(s, ws, message).event == Welcome(s.clients[i].id, HelloStep(s, ws, message).event.requestId)
    ensures |HelloStep(s, ws, message).server.clients| == |s.clients|
    ensures HelloStep(s, ws, message).server.clients[i].socket == ws
  {
    var (name, kind) := HelloFields(message).value.value;
    var found := HelloLookup(s.clients, name, kind);
    assert found == i;
  }

  /** As written, a hello with a numeric name and a blank type takes over
      the client with that id, whatever its name and type. */
  lemma HelloAsWrittenHijacks(s: Server, ws: nat)
    requires Valid(s) && |s.clients| > 0 && s.clients[0].id == 1
    ensures var m := Js.Obj(map["name" := Js.Str("1"), "clientType" := Js.Str(" "), "type" := Js.Str(Hello)]);
            HelloAsWritten(s, ws, m).event.Welcome?
            && HelloAsWritten(s, ws, m).event.id == 1
            && HelloAsWritten(s, ws, m).server.clients[0].socket == ws
  {
    var m := Js.Obj(map["name" := Js.Str("1"), "clientType" := Js.Str(" "), "type" := Js.Str(Hello)]);
    HijackMessage(m);
    HijackFields(m);
    HijackRegisters(s, ws, m);
  }

  lemma HijackMessage(m: Js.Value)
    requires m == Js.Obj(map["name" := Js.Str("1"), "clientType" := Js.Str(" "), "type" := Js.Str(Hello)])
    ensures Js.Get(m, "name") == Js.Str("1") && Js.Get(m, "clientType") == Js.Str(" ")
  {
  }

  /** A blank type reads as the empty type once trimmed. */
  lemma HijackFields(m: Js.Value)
    requires Js.Get(m, "name") == Js.Str("1") && Js.Get(m, "clientType") == Js.Str(" ")
    ensures HelloFields(m) == Some(Ok(("1", "")))
  {
    BlankTypeFields(m, "1", " ");
  }

  /** A name with no blank at either end and a type made of blanks read
      as that name and the empty type. */
  lemma BlankTypeFields(m: Js.Value, name: string, kind: string)
    requires |name| > 0 && !Strings.IsBlank(name[0]) && !Strings.IsBlank(name[|name| - 1])
    requires |kind| > 0 && forall k :: 0 <= k < |kind| ==> Strings.IsBlank(kind[k])
    requires Js.Get(m, "name") == Js.Str(name) && Js.Get(m, "clientType") == Js.Str(kind)
    ensures HelloFields(m) == Some(Ok((name, "")))
  {
    Strings.TrimUnchanged(name);
    Strings.TrimEmpty(kind);
    assert Strings.ToLower("") == "";
  }

  /** With the empty type, the name `"1"` is looked up as an id. */
  lemma HijackRegisters(s: Server, ws: nat, m: Js.Value)
    requires Valid(s) && |s.clients| > 0 && s.clients[0].id == 1
    requires HelloFields(m) == Some(Ok(("1", "")))
    ensures HelloAsWritten(s, ws, m).event.Welcome?
            && HelloAsWritten(s, ws, m).event.id == 1
            && HelloAsWritten(s, ws, m).server.clients[0].socket == ws
  {
    TextOneIsIdOne();
    assert IndexById(s.clients, Js.Str("1")) == 0;
  }

  /** The text `"1"` loosely equals the id 1. */
  lemma TextOneIsIdOne()
    ensures Coerce.LooseEqualsNat(Js.Str("1"), 1)
  {
    Strings.TrimUnchanged("1");
  }

  /** `client/forward`: the target is found by id; it must exist, and the
      payload must be an object with a type; the payload then travels with
      `forwarded.from` set to the sender. */
  function ForwardStep(s: Server, sender: nat, message: Js.Value): (r: Event)
    ensures IndexById(s.clients, Js.Get(message, "id")) < 0 ==> r == NotFound(Js.Get(message, "id"))
    ensures IndexById(s.clients, Js.Get(message, "id")) >= 0 && !Js.Truthy(Js.Get(Js.Get(message, "payload"), "type"))
            ==> r == ForwardFail
    ensures r.Forwarded? ==>
              && r.socket == s.clients[IndexById(s.clients, Js.Get(message, "id"))].socket
              && Js.Truthy(Js.Get(r.payload, "type"))
              && Js.Get(r.payload, "forwarded") == Js.Obj(map["from" := Js.Num(sender)])
              && Js.Get(r.payload, "type") == Js.Get(Js.Get(message, "payload"), "type")
    ensures var i := IndexById(s.clients, Js.Get(message, "id"));
            var p := Js.Get(message, "payload");
            i >= 0 && Js.Truthy(Js.Get(p, "type")) ==>
              && r.Forwarded? && r.socket == s.clients[i].socket
              && p.Obj? && r.payload.Obj?
              && r.payload.fields.Keys == p.fields.Keys + {"forwarded"}
              && forall k :: k in p.fields && k != "forwarded" ==> r.payload.fields[k] == p.fields[k]
  {
    var i := IndexById(s.clients, Js.Get(message, "id"));
    var payload := Js.Get(message, "payload");
    if i < 0 then NotFound(Js.Get(message, "id"))
    else if !Js.Truthy(Js.Get(payload, "type")) then ForwardFail
    else Forwarded(s.clients[i].socket, Js.Obj(payload.fields["forwarded" := Js.Obj(map["from" := Js.Num(sender)])]))
  }

  /** A message addressed to a registered client's own id, with a typed
      object payload, reaches that client's socket, and the payload arrives
      as sent except for the added `forwarded` field. */
  lemma ForwardReachesTarget(s: Server, sender: nat, i: nat, payload: Js.Fields, extra: Js.Fields)
    requires Valid(s) && i < |s.clients|
    requires "type" in payload && Js.Truthy(payload["type"])
    requires "id" !in extra && "payload" !in extra
    ensures var r := ForwardStep(s, sender, Js.Obj(extra["id" := Js.Num(s.clients[i].id)]["payload" := Js.Obj(payload)]));
            && r.Forwarded? && r.socket == s.clients[i].socket
            && r.payload.Obj?
            && r.payload.fields - {"forwarded"} == payload - {"forwarded"}
            && r.payload.fields["forwarded"] == Js.Obj(map["from" := Js.Num(sender)])
  {
    var m := Js.Obj(extra["id" := Js.Num(s.clients[i].id)]["payload" := Js.Obj(payload)]);
    assert Js.Get(m, "id") == Js.Num(s.clients[i].id);
    assert Js.Get(m, "payload") == Js.Obj(payload);
    IndexByIdFindsOwn(s, i);
    var r := ForwardStep(s, sender, m);
    assert r.payload.fields == payload["forwarded" := Js.Obj(map["from" := Js.Num(sender)])];
  }

  /** Whether a message's `type` names hello. The handler table is indexed
      with the type, which turns it into its printed form, and the gate
      compares it loosely with the hello text: an array or object compares
      through its printed form, while a number or boolean compares through
      `Number`, which is NaN for the hello text, just as its printed form
      (digits, `true`, `false`) never is that text. */
  predicate SaysHello(kind: Js.Value)
  {
    Coerce.Text(kind) == Hello
  }

  /** One incoming message on socket `ws`: `None` for text that is not JSON;
      `others` are the types other modules registered handlers for. The
      handler is looked up by the printed form of `type`, so `["client/list"]`
      finds the same handler as `"client/list"`. */
  function OnMessage(s: Server, ws: nat, input: Option<Js.Value>, others: set<string>): (r: Step)
    ensures input.None? ==> r == Step(s, NotJson)
    ensures Gated(r.event) ==> r.server == s
    ensures input.Some? && input.value != Js.Null && !Js.Truthy(Js.Get(input.value, "type")) ==> r == Step(s, NoType)
    ensures ws !in s.bound && input.Some? && !SaysHello(Js.Get(input.value, "type")) ==> !r.event.Welcome? && r.server == s
    ensures r.server != s ==> input.Some? && SaysHello(Js.Get(input.value, "type"))
    ensures input.Some? && input.value != Js.Null && Js.Truthy(Js.Get(input.value, "type"))
            ==> (r.event.UnknownType? <==> Coerce.Text(Js.Get(input.value, "type")) !in BuiltIn + others)
  {
    match input
    case None => Step(s, NotJson)
    case Some(message) =>
      if message == Js.Null then Step(s, Throws)
      else
        var kind := Js.Get(message, "type");
        var key := Coerce.Text(kind);
        if !Js.Truthy(kind) then Step(s, NoType)
        else if key !in BuiltIn + others then Step(s, UnknownType)
        else if ws !in s.bound && key != Hello then Step(s, BeforeHello)
        else if key == Hello then HelloStep(s, ws, message)
        else if key == List then Step(s, Listed(s.clients))
        else if key == Forward then Step(s, ForwardStep(s, s.bound[ws], message))
        else if key == Chat then Step(s, Delegated(Chat))
        else Step(s, Delegated(key))
  }

  /** A socket that has not said hello gets no handler run except hello's. */
  lemma HelloFirst(s: Server, ws: nat, message: Js.Value, others: set<string>)
    requires ws !in s.bound
    requires Js.Truthy(Js.Get(message, "type")) && !SaysHello(Js.Get(message, "type"))
    ensures var r := OnMessage(s, ws, Some(message), others);
            r.server == s && (r.event.UnknownType? || r.event.BeforeHello?)
  {
  }

  /** The dispatcher reads `type` only through its printed form: two
      messages that differ only in truthy types printing alike run the same
      handler to the same event, and leave the same ids, sockets and client
      count (a reclaimed or new client keeps its own hello message). */
  lemma DispatchByPrintedType(s: Server, ws: nat, fields: Js.Fields, a: Js.Value, b: Js.Value, others: set<string>)
    requires Js.Truthy(a) && Js.Truthy(b) && Coerce.Text(a) == Coerce.Text(b)
    ensures var ra, rb := OnMessage(s, ws, Some(Js.Obj(fields["type" := a])), others),
                          OnMessage(s, ws, Some(Js.Obj(fields["type" := b])), others);
            && ra.event == rb.event
            && ra.server.next == rb.server.next && ra.server.bound == rb.server.bound
            && |ra.server.clients| == |rb.server.clients|
  {
    var ma, mb := Js.Obj(fields["type" := a]), Js.Obj(fields["type" := b]);
    assert Js.Get(ma, "type") == a && Js.Get(mb, "type") == b;
    if Coerce.Text(a) == Hello {
      HelloStepIgnoresType(s, ws, fields, a, b);
    } else if Coerce.Text(a) == Forward && ws in s.bound {
      ForwardStepIgnoresType(s, s.bound[ws], fields, a, b);
    }
  }

  /** Hello decides by the name and client type, never the message type,
      which only the stored hello message keeps. */
  lemma HelloStepIgnoresType(s: Server, ws: nat, fields: Js.Fields, a: Js.Value, b: Js.Value)
    ensures var ra, rb := HelloStep(s, ws, Js.Obj(fields["type" := a])), HelloStep(s, ws, Js.Obj(fields["type" := b]));
            && ra.event == rb.event
            && ra.server.next == rb.server.next && ra.server.bound == rb.server.bound
            && |ra.server.clients| == |rb.server.clients|
  {
    var ma, mb := Js.Obj(fields["type" := a]), Js.Obj(fields["type" := b]);
    assert Js.Get(ma, "name") == Js.Get(mb, "name");
    assert Js.Get(ma, "clientType") == Js.Get(mb, "clientType");
    assert Js.Get(ma, "requestId") == Js.Get(mb, "requestId");
    assert HelloFields(ma) == HelloFields(mb);
    match HelloFields(ma)
    case None =>
    case Some(Err(_)) =>
    case Some(Ok((name, kind))) =>
      var found := HelloLookup(s.clients, name, kind);
      var ra, rb := Register(s, ws, ma, name, kind, found), Register(s, ws, mb, name, kind, found);
      assert ra.event == rb.event;
  }

  /** Forwarding reads the target id and the payload, never the message type. */
  lemma ForwardStepIgnoresType(s: Server, sender: nat, fields: Js.Fields, a: Js.Value, b: Js.Value)
    ensures ForwardStep(s, sender, Js.Obj(fields["type" := a])) == ForwardStep(s, sender, Js.Obj(fields["type" := b]))
  {
    var ma, mb := Js.Obj(fields["type" := a]), Js.Obj(fields["type" := b]);
    assert Js.Get(ma, "id") == Js.Get(mb, "id");
    assert Js.Get(ma, "payload") == Js.Get(mb, "payload");
  }

  /** A hello whose type is the one-element array `["alfred/hello"]` passes
      the gate even on a socket that has not said hello, and binds it. */
  lemma ArrayTypedHello(s: Server, ws: nat, others: set<string>)
    ensures var m := Js.Obj(map["type" := Js.Arr([Js.Str(Hello)]), "name" := Js.Str("a"), "clientType" := Js.Str("b")]);
            var r := OnMessage(s, ws, Some(m), others);
            r.event.Welcome? && ws in r.server.bound
  {
    var m := Js.Obj(map["type" := Js.Arr([Js.Str(Hello)]), "name" := Js.Str("a"), "clientType" := Js.Str("b")]);
    Coerce.TextOfSingleton(Js.Str(Hello));
    assert Js.Get(m, "type") == Js.Arr([Js.Str(Hello)]);
    assert Js.Get(m, "name") == Js.Str("a") && Js.Get(m, "clientType") == Js.Str("b");
    HelloWelcomed(s, ws, m, others);
  }

  /** A list request whose type is the one-element array `["client/list"]`
      lists the clients, like the plain text type does. */
  lemma ArrayTypedList(s: Server, ws: nat, others: set<string>)
    requires ws in s.bound
    ensures OnMessage(s, ws, Some(Js.Obj(map["type" := Js.Arr([Js.Str(List)])])), others) == Step(s, Listed(s.clients))
  {
    Coerce.TextOfSingleton(Js.Str(List));
    assert Js.Get(Js.Obj(map["type" := Js.Arr([Js.Str(List)])]), "type") == Js.Arr([Js.Str(List)]);
  }

  /** Client ids strictly increase along the list. */
  predicate Increasing(clients: seq<Client>)
  {
    forall i, j :: 0 <= i < j < |clients| ==> clients[i].id < clients[j].id
  }

  /** Whether a close of socket `ws` (bound to client `id`) drops client
      `c`; `onSocket` is `None` when the socket the client is currently
      reached on is not checked. */
  predicate Dropped(c: Client, id: nat, onSocket: Option<nat>)
  {
    c.id == id && (onSocket.None? || c.socket == onSocket.value)
  }

  /** The clients a close keeps, in order. */
  function Drop(clients: seq<Client>, id: nat, onSocket: Option<nat>): (r: seq<Client>)
    ensures |r| <= |clients|
    ensures forall c :: c in r <==> c in clients && !Dropped(c, id, onSocket)
    ensures Increasing(clients) ==> Increasing(r)
  {
    if |clients| == 0 then []
    else
      var init := clients[..|clients| - 1];
      var last := clients[|clients| - 1];
      var w := Drop(init, id, onSocket);
      assert clients == init + [last];
      if Dropped(last, id, onSocket) then w
      else
        if Increasing(clients) then
          BelowLast(clients, w);
          w + [last]
        else w + [last]
  }

  /** Every client kept from all but the last of an increasing list has an
      id below the last one's. */
  lemma BelowLast(clients: seq<Client>, w: seq<Client>)
    requires |clients| > 0 && Increasing(clients)
    requires forall c :: c in w ==> c in clients[..|clients| - 1]
    ensures forall k :: 0 <= k < |w| ==> w[k].id < clients[|clients| - 1].id
  {
    forall k | 0 <= k < |w|
      ensures w[k].id < clients[|clients| - 1].id
    {
      var init := clients[..|clients| - 1];
      assert w[k] in w;
      assert w[k] in init;
      var a :| 0 <= a < |init| && init[a] == w[k];
      assert clients[a] == w[k];
    }
  }

  /** Socket close as written: the client the socket said hello as is
      removed, even when a later hello has moved it to another socket. */
  function CloseAsWritten(s: Server, ws: nat): (r: Server)
    ensures ws !in s.bound ==> r == s
    ensures ws in s.bound ==> forall c :: c in r.clients <==> c in s.clients && c.id != s.bound[ws]
  {
    if ws !in s.bound then s
    else Server(Drop(s.clients, s.bound[ws], None), s.next, s.bound - {ws})
  }

  /** Socket close: the socket's client is removed only while this socket
      is still the one it is reached on. */
  function Close(s: Server, ws: nat): (r: Server)
    ensures ws !in s.bound ==> r == s
    ensures r.next == s.next
    ensures forall c :: c in r.clients ==> c in s.clients
    ensures forall c :: c in s.clients && c.socket != ws ==> c in r.clients
    ensures ws in s.bound ==> forall c :: c in s.clients && c.id == s.bound[ws] && c.socket == ws ==> c !in r.clients
  {
    if ws !in s.bound then s
    else Server(Drop(s.clients, s.bound[ws], Some(ws)), s.next, s.bound - {ws})
  }

  lemma CloseValid(s: Server, ws: nat)
    requires Valid(s)
    ensures Valid(Close(s, ws))
  {
    var r := Close(s, ws);
    forall i | 0 <= i < |r.clients|
      ensures 1 <= r.clients[i].id < r.next
    {
      assert r.clients[i] in s.clients;
    }
  }

  /** A client that reconnected and said hello again on socket 2 is removed
      when its old socket 1 finally closes; the intended close keeps it. */
  lemma CloseAsWrittenDropsReclaimed()
    ensures var s := Server([Client(1, "ci", "client", 2, Js.Null, Js.Undefined)], 2, map[1 := 1, 2 := 1]);
            CloseAsWritten(s, 1).clients == [] && Close(s, 1).clients == s.clients
  {
    var s := Server([Client(1, "ci", "client", 2, Js.Null, Js.Undefined)], 2, map[1 := 1, 2 := 1]);
    var k := Close(s, 1).clients;
    assert s.clients[0] in k;
    assert |k| <= 1;
  }

  /** Every message keeps ids increasing and below `next`. */
  lemma OnMessageValid(s: Server, ws: nat, input: Option<Js.Value>, others: set<string>)
    requires Valid(s)
    ensures Valid(OnMessage(s, ws, input, others).server)
  {
    if input.Some? && SaysHello(Js.Get(input.value, "type")) && input.value != Js.Null {
      HelloValid(s, ws, input.value);
    }
  }

  /** The hello a client sends when its socket opens: its configured name
      (else the host name) and type (else "client"). */
  function ClientHello(name: string, kind: string, hostname: string): (m: Js.Value)
    ensures Js.Get(m, "type") == Js.Str(Hello)
    ensures Js.Get(m, "name") == Js.Str(if name != "" then name else hostname)
    ensures Js.Get(m, "clientType") == Js.Str(if kind != "" then kind else "client")
  {
    Js.Obj(map["type" := Js.Str(Hello),
               "name" := Js.Str(if name != "" then name else hostname),
               "clientType" := Js.Str(if kind != "" then kind else "client")])
  }

  /** The server welcomes the hello a client sends, whatever its state. */
  lemma ClientHelloWelcomed(s: Server, ws: nat, name: string, kind: string, hostname: string, others: set<string>)
    requires name != "" || hostname != ""
    ensures OnMessage(s, ws, Some(ClientHello(name, kind, hostname)), others).event.Welcome?
  {
    ClientHelloFields(name, kind, hostname);
    HelloWelcomed(s, ws, ClientHello(name, kind, hostname), others);
  }

  /** Any hello carrying a readable name and type is welcomed. */
  lemma HelloWelcomed(s: Server, ws: nat, m: Js.Value, others: set<string>)
    requires Js.Truthy(Js.Get(m, "type")) && SaysHello(Js.Get(m, "type"))
    requires HelloFields(m).Some? && HelloFields(m).value.Ok?
    ensures OnMessage(s, ws, Some(m), others).event.Welcome?
  {
    assert Hello in BuiltIn;
  }

  /** The hello a client sends carries a name and a type the server reads. */
  lemma ClientHelloFields(name: string, kind: string, hostname: string)
    requires name != "" || hostname != ""
    ensures HelloFields(ClientHello(name, kind, hostname)).Some?
    ensures HelloFields(ClientHello(name, kind, hostname)).value.Ok?
  {
  }

  /** The server url a client uses when none is configured. */
  const DefaultServerUrl := "http://192.168.1.50/"

  /** The configured server url, or the default, trimmed. */
  function ConfiguredUrl(serverUrl: string): (r: string)
    ensures serverUrl == "" ==> r == Strings.Trim(DefaultServerUrl)
    ensures serverUrl != "" ==> r == Strings.Trim(serverUrl)
  {
    Strings.Trim(if serverUrl != "" then serverUrl else DefaultServerUrl)
  }

  /** The client's url normalisation as written: an url starting with
      "http" has that replaced by "ws"; any other text is taken as a host
      and gets "wss://" when `secure` is false and "ws://" when it is true,
      and a trailing `'/'`. */
  function NormaliseAsWritten(url: string, secure: bool): (r: string)
    ensures Strings.StartsWith(url, "http") ==> r == "ws" + url[4..]
    ensures !Strings.StartsWith(url, "http") && secure ==> r == "ws://" + url + "/"
    ensures !Strings.StartsWith(url, "http") && !secure ==> r == "wss://" + url + "/"
  {
    if Strings.StartsWith(url, "http") then "ws" + url[4..]
    else (if secure then "ws" else "wss") + "://" + url + "/"
  }

  /** A secure client given a bare host name connects without TLS. */
  lemma NormaliseAsWrittenInvertsSecure(host: string)
    requires |host| > 0 && host[0] != 'h'
    ensures NormaliseAsWritten(host, true) == "ws://" + host + "/"
    ensures NormaliseAsWritten(host, false) == "wss://" + host + "/"
    ensures Normalise(host, true) == "wss://" + host + "/"
  {
    assert !Strings.StartsWith(host, "http") by {
      assert host[0] != "http"[0];
    }
  }

  /** The normalisation the flag's name promises: "wss" exactly when secure. */
  function Normalise(url: string, secure: bool): (r: string)
    ensures Strings.StartsWith(url, "https://") ==> r == "wss://" + url[8..]
    ensures Strings.StartsWith(url, "http://") ==> r == "ws://" + url[7..]
    ensures !Strings.StartsWith(url, "http") ==> r == (if secure then "wss://" else "ws://") + url + "/"
  {
    if Strings.StartsWith(url, "http") then
      assert Strings.StartsWith(url, "https://") ==> "ws" + url[4..] == "wss://" + url[8..];
      assert Strings.StartsWith(url, "http://") ==> "ws" + url[4..] == "ws://" + url[7..];
      "ws" + url[4..]
    else (if secure then "wss" else "ws") + "://" + url + "/"
  }

  /** The urls of the first `n` connection attempts as written: every
      retry normalises the previous attempt's url again. */
  function AttemptsAsWritten(url: string, secure: bool, n: nat): (r: seq<string>)
    ensures |r| == n
    ensures n > 0 ==> r[0] == NormaliseAsWritten(url, secure)
    ensures forall k :: 0 < k < n ==> r[k] == NormaliseAsWritten(r[k - 1], secure)
    decreases n
  {
    if n == 0 then []
    else
      var first := NormaliseAsWritten(url, secure);
      var rest := AttemptsAsWritten(first, secure, n - 1);
      var r := [first] + rest;
      assert forall k :: 0 < k < n ==> r[k] == rest[k - 1];
      r
  }

  /** A retry after a failed connection to an http url goes to a
      different, malformed url. */
  lemma RetryAsWrittenDrifts()
    ensures AttemptsAsWritten("http://x/", false, 2) == ["ws://x/", "wss://ws://x//"]
  {
    var first := NormaliseAsWritten("http://x/", false);
    assert first == "ws://x/";
    assert !Strings.StartsWith(first, "http") by {
      assert first[0] != "http"[0];
    }
    assert NormaliseAsWritten(first, false) == "wss://ws://x//";
  }

  /** The urls of the first `n` attempts when the configured url is
      normalised once: every retry goes to the same server. */
  function Attempts(url: string, secure: bool, n: nat): (r: seq<string>)
    ensures |r| == n
    ensures forall k :: 0 <= k < n ==> r[k] == Normalise(url, secure)
  {
    seq(n, k requires 0 <= k < n => Normalise(url, secure))
  }

  /** The url the socket opens: the normalised server url plus "live/". */
  function LiveUrl(normalised: string): (r: string)
    ensures Strings.StartsWith(r, normalised) && Strings.EndsWith(r, "live/")
  {
    normalised + "live/"
  }
}

=== FILE: wrappers.dfy ===
/** Optional values and outcomes with an error, shared by every module. */
module Wrappers {
  /** A value that may be absent (`undefined` in the source). */
  datatype Option<T> = None | Some(value: T)

  /** The value of an operation, or the error it throws or rejects with. */
  datatype Result<T, E> = Ok(value: T) | Err(error: E)
}
